=== FILE: README.md ===
# embdgen layout engine in Dafny

embdgen builds disk images from a configuration. A *label* (MBR or GPT) holds
an ordered list of *regions*. Each region has a name, an optional start and an
optional size, and it may carry a *content* that knows how to fill it. This
project models the part of embdgen that turns such a list into final byte
offsets, and the encoders and small state machines around it:

- the common label pass (`BaseLabel`): every region prepares itself, the
  regions are sorted by start, each region without a start gets the end of its
  predecessor, the result is validated, and the image is sized and written in
  list order;
- region size propagation (`BaseContentRegion.prepare`);
- the GPT label: protective MBR, header and primary table as fixed regions,
  the loop that moves the primary table past fixed regions that overlap it,
  the backup header and table appended last, and the byte-level header patch
  (table LBA at offset 72 of the header, CRC-32 at offset 16 over `header_size`
  bytes, see section 5.3.2 of the UEFI Specification) with the table copied
  from the backup;
- the MBR label: an EBR header inserted in front of every partition from the
  4th on once there are more than four, and the disk id at 0x1B8;
- `create_empty_image` and `copy_sparse` over byte sequences;
- the U-Boot environment content: parsing `key=value` files, merging with
  explicit variables, and the CRC-prefixed, NUL-separated, 0xFF-padded image;
- the content registry of the YAML configuration (`clear`, `register_all`,
  `find`);
- the key naming of the split-archive content generator, its `prepare` guard
  and its `splits` setter.

Sizes (`SizeType`) are `Option<nat>` byte counts, with `None` for "undefined"
and `.sectors` as `bytes / 512`. Regions without a start sort after all
regions with one, and the sort is stable. Python dictionaries are
insertion-ordered association lists (`Dicts.Dict`). Files are `seq<byte>`.
Every operation that can raise returns a `Result` whose error (`Errors.Error`)
carries the values the exception message is built from.

Files: `wrappers.dfy` (Option/Result), `errors.dfy`, `bytes.dfy` (bytes,
little-endian words, positioned writes, UTF-8, CRC-32), `sizes.dfy` (sizes and
regions), `layout.dfy`, `gpt.dfy`, `mbr.dfy`, `image.dfy`, `dicts.dfy`,
`text.dfy` (the `str` methods used), `uboot_env.dfy`, `content_registry.dfy`,
`split_archive.dfy`.

## Model

| member | source | states |
|---|---|---|
| Sizes.Add | embdgen-core/src/embdgen/core/label/BaseLabel.py:47 | adding sizes is defined exactly when both are defined, the result is their sum, and otherwise the undefined-value error is raised |
| Sizes.AlignUp | embdgen-core/src/embdgen/plugins/label/GPT.py:114 | rounding a byte count up to whole sectors gives the least multiple of 512 that is not below it |
| Regions.PrepareRegion | embdgen-core/src/embdgen/core/region/BaseContentRegion.py:14-22 | a defined region size is pushed into the content before it prepares and is never changed; an undefined size becomes the content's size after it prepares; name, kind and start are kept; a region without content is unchanged; a failing content fails the region |
| Regions.PreparedSizesAgree | embdgen-core/src/embdgen/core/region/BaseContentRegion.py:15-20 | for contents that keep a size given to them, region and content agree on the size after preparation |
| Regions.PrepareAll | embdgen-core/src/embdgen/core/label/BaseLabel.py:38-39 | the label prepares every region; it succeeds exactly when every region prepares, and then each element is that region prepared |
| Regions.AddMissing | embdgen-core/src/embdgen/plugins/label/MBR.py:70-71 | a label structure the caller removed from the list is appended again; the list is unchanged when it is present |
| Layout.Sort | embdgen-core/src/embdgen/core/label/BaseLabel.py:41 | sorting by start gives a permutation of the regions in which starts ascend and undefined starts come last |
| Layout.SortIsStable | embdgen-core/src/embdgen/core/label/BaseLabel.py:41 | the sort is stable: the regions with any one start, and the regions without a start, keep their relative order |
| Layout.SortedFloatingSuffix | embdgen-core/src/embdgen/core/label/BaseLabel.py:41 | in a sorted list the regions without a start form the tail, in their own order, and every region before them has a start |
| Layout.InsertAt | embdgen-core/src/embdgen/core/label/BaseLabel.py:41 | a region goes behind every region whose start sorts strictly before its own and in front of the first one that does not, so it stays behind equal starts already placed |
| Layout.SortIdempotent | embdgen-core/src/embdgen/core/label/BaseLabel.py:52 | sorting a list that is already sorted leaves it unchanged |
| Layout.AssignStarts | embdgen-core/src/embdgen/core/label/BaseLabel.py:42-47 | the assignment pass succeeds exactly when every size is defined, else raises the undefined-value error, and keeps the number of regions |
| Layout.AssignStartsPlaces | embdgen-core/src/embdgen/core/label/BaseLabel.py:42-47 | after the pass every start is defined, defined starts are unchanged, a first region without start gets the running offset, and any later one the end of the region before it |
| Layout.AssignKeepsSorted | embdgen-core/src/embdgen/core/label/BaseLabel.py:41-52 | the assigned list is still sorted, so the second sort in validation changes nothing |
| Layout.Arrange | embdgen-core/src/embdgen/core/label/BaseLabel.py:41-47 | sort and assignment succeed exactly when every size is defined, and otherwise raise the undefined-value error; a success is a rearrangement of the prepared regions, each kept as often as it occurs, with only the missing starts filled in (a floating region at the end of the one before it, or at 0 when first), sorted, and unchanged by a second sort |
| Layout.Validate | embdgen-core/src/embdgen/core/label/BaseLabel.py:51-62 | the validation as written accepts exactly when each start, in sorted order, is at least the sum of the sizes before it; a failure is always the "overlaps" error, never the "starts at" error, and it names the first region in sorted order whose start falls short of that sum, every region before it passing, together with its predecessor |
| Layout.ValidateIntended | embdgen-core/src/embdgen/core/label/BaseLabel.py:51-62 | the corrected validation accepts exactly when each region in sorted order starts at or after the end of its predecessor; a failure names the first region in sorted order that starts before its predecessor ends, every region before it passing, together with that predecessor |
| Layout.ValidateAcceptsOverlap | embdgen-core/src/embdgen/core/label/BaseLabel.py:53-62 | regions at [0,10), [100,110) and [105,115) pass the validation as written although the last two overlap, and the corrected validation refuses them |
| Layout.IntendedImpliesValidate | embdgen-core/src/embdgen/core/label/BaseLabel.py:51-62 | whatever the corrected validation accepts, the validation as written accepts with the same result |
| Layout.ChainedDisjoint | embdgen-core/src/embdgen/core/label/BaseLabel.py:55-62 | a list the corrected validation accepts has no two overlapping regions |
| Layout.DisjointIsChained | embdgen-core/src/embdgen/core/label/BaseLabel.py:55-62 | conversely, a sorted list of non-empty pairwise disjoint regions passes the corrected validation |
| Layout.ArrangeFixed | embdgen-core/src/embdgen/core/label/BaseLabel.py:41-47 | when every region already has a start and a size, the placement pass only sorts: the result is the stable sort of the input |
| Layout.AssignFixed | embdgen-core/src/embdgen/core/label/BaseLabel.py:44-47 | the assignment loop leaves regions that all have a start and a size exactly as they are |
| Layout.PlacementKeepsRegions | embdgen-core/src/embdgen/core/label/BaseLabel.py:41-47 | sorting and assigning starts neither drops nor duplicates a region: with the starts erased, a placement and its input are the same multiset |
| Layout.Place | embdgen-core/src/embdgen/core/label/BaseLabel.py:41-49 | after sort, assignment and the validation as written, the result is a rearrangement of the prepared regions, each kept as often as it occurs, with only the missing starts filled in, sorted, each start at least the sum of the sizes before it; it fails with the undefined-value error exactly when some size is undefined, and otherwise only with the "overlaps" error |
| Layout.PlaceIntended | embdgen-core/src/embdgen/core/label/BaseLabel.py:41-62 | the layout with the corrected validation: a success is a rearrangement of the prepared regions, each kept as often as it occurs, with only the missing starts filled in, sorted and chained; the undefined-value error exactly as in the layout as written |
| Layout.PlaceIntendedAgrees | embdgen-core/src/embdgen/core/label/BaseLabel.py:41-62 | whatever the corrected layout accepts, the layout as written returns the same list |
| Layout.PlaceIntendedRejectsOverlap | embdgen-core/src/embdgen/core/label/BaseLabel.py:56-58 | two distinct fixed regions that overlap make the corrected layout fail, which is what the "overlaps with" error is meant for |
| Layout.PlaceAcceptsOverlap | embdgen-core/src/embdgen/core/label/BaseLabel.py:41-62 | the layout as written accepts [0,10), [100,110) and [105,115) unchanged although the last two overlap, and the corrected layout refuses them |
| Layout.Prepare | embdgen-core/src/embdgen/core/label/BaseLabel.py:37-49 | the whole `prepare`: on success every region prepared, and the result is a rearrangement of the prepared regions, each kept as often as it occurs, with only the missing starts filled in, sorted, each start at least the sum of the sizes before it |
| Layout.PrepareAssigns | embdgen-core/src/embdgen/core/label/BaseLabel.py:37-49 | a successful `prepare` has every prepared size defined and is exactly the assignment pass run from offset 0 over the sorted prepared regions; the validation only checks |
| Layout.PartitionPlan | embdgen-core/src/embdgen/core/label/BaseLabel.py:68-84 | one table entry per partition region in list order, with its name, file system type, start and length in sectors, the LBA flag exactly for msdos labels and the boot flag exactly for the configured boot partition |
| Layout.AtMostOneBoot | embdgen-core/src/embdgen/core/label/BaseLabel.py:68-84 | when partition names are distinct, at most one table entry carries the boot flag |
| Layout.ImageSize | embdgen-core/src/embdgen/core/label/BaseLabel.py:89 | the image is as large as the end of the last region; an empty list is an error |
| Layout.ImageCoversRegions | embdgen-core/src/embdgen/core/label/BaseLabel.py:89-90 | for a chained list, which only the corrected validation guarantees, the image size reaches the end of every region |
| Layout.ImageMissesRegion | embdgen-core/src/embdgen/core/label/BaseLabel.py:51-89 | the layout as written accepts a region at [150,160) nested in one at [100,200), and `create` then sizes the image at 160, short of the outer region's end |
| Layout.Create | embdgen-core/src/embdgen/core/label/BaseLabel.py:88-96 | `create` succeeds exactly on a non-empty list: a zero image of the last region's end, the partition table built from the plan, then every region written in list order |
| Layout.CreateCoversImage | embdgen-core/src/embdgen/core/label/BaseLabel.py:88-96 | when the table builder and the region writers never shrink the file, the created image reaches the end of the last region |
| Gpt.WithFixedRegions | embdgen-core/src/embdgen/plugins/label/GPT.py:127-132 | the protective MBR, the header and the primary table are present afterwards, and the caller's list is a prefix of the result |
| Gpt.WithFixedRegionsAdds | embdgen-core/src/embdgen/plugins/label/GPT.py:127-132 | only missing label structures are appended, each one only when its kind is absent |
| Gpt.Scan | embdgen-core/src/embdgen/plugins/label/GPT.py:107-120 | the relocation loop, from any index and with either restart index, never moves the table backwards and can only fail with the undefined-value error |
| Gpt.Relocate | embdgen-core/src/embdgen/plugins/label/GPT.py:107-120 | the loop as written never moves the table backwards |
| Gpt.RelocateClears | embdgen-core/src/embdgen/plugins/label/GPT.py:107-120 | on exit the table stays exactly when no fixed region overlapped it; a moved table starts sector-aligned at the end of some region and is clear of every region from index 1 on, since the first is not checked again |
| Gpt.RelocateIntended | embdgen-core/src/embdgen/plugins/label/GPT.py:107-120 | the loop restarting at index 0 never moves the table backwards either |
| Gpt.RelocateIntendedClears | embdgen-core/src/embdgen/plugins/label/GPT.py:117-119 | restarting at index 0 after each move, the table ends clear of every fixed region; it stays exactly when nothing overlapped it, and otherwise sits sector-aligned at the end of some region |
| Gpt.RelocateFailsOnlyUndefined | embdgen-core/src/embdgen/plugins/label/GPT.py:110-112 | both loops can only fail on a region with a start but no size; regions without a start never take part |
| Gpt.RelocateMissesCollision | embdgen-core/src/embdgen/plugins/label/GPT.py:119-120 | with data regions at 20000 (512 bytes) and at 16384 (1024 bytes) before the PMBR, header and table, the loop as written leaves the table at 17408, where it still overlaps the first region |
| Gpt.RelocateIntendedFindsCollision | embdgen-core/src/embdgen/plugins/label/GPT.py:117-119 | restarting at index 0 moves the table of the same list to 20992, clear of every region |
| Gpt.CheckForRelocation | embdgen-core/src/embdgen/plugins/label/GPT.py:107-123 | the imperative loop, resetting the index to 0 before its increment, computes the relocation as written; the table it returns is clear of every region from index 1 on, of all of them when it did not move, and the notice is issued exactly when it moved |
| Gpt.Prepare | embdgen-core/src/embdgen/plugins/label/GPT.py:126-138 | `prepare` relocates the table as written and runs the common layout on the list with the table moved; the table is marked relocated exactly when it left 1024 and starts sector-aligned at or after 1024; the result is that layout with the backup header and table appended, starting at the end of the last region, which is also the backup table start |
| Gpt.PrepareShape | embdgen-core/src/embdgen/plugins/label/GPT.py:126-138 | after `prepare` the list without its last region is a rearrangement of the prepared regions, each kept as often as it occurs, with only the missing starts filled in, the whole list is sorted and passes the size check, and the backup comes last, at the end of the region before it |
| Gpt.PrepareOverlapsTable | embdgen-core/src/embdgen/plugins/label/GPT.py:107-138 | for the user regions at 20000 and 16384, `prepare` as written succeeds with the table at 17408, which overlaps the region at 20000, and the backup at 20512 |
| Gpt.MoveTable | embdgen-core/src/embdgen/plugins/label/GPT.py:115 | moving the table sets the start of every table region to the new offset and leaves every other field of every region, and every other region, as it was |
| Gpt.Finish | embdgen-core/src/embdgen/plugins/label/GPT.py:135-138 | the backup header and table are appended after the laid-out regions, starting at the end of the last of them, which is also the recorded backup table start; the list stays sorted and passes the size check, and the table is marked relocated exactly when it left 1024 |
| Gpt.MoveTableKeeps | embdgen-core/src/embdgen/plugins/label/GPT.py:115 | relocation moves the table and no other region |
| Gpt.HeaderOverlapRefused | embdgen-core/src/embdgen/plugins/label/GPT.py:126-135 | when the label adds the protective MBR and the header itself, a fixed data region reaching into the header's sector makes `prepare` fail |
| Gpt.HeaderOverlapNamed | embdgen-core/tests/label/test_GPT.py:66-77 | a label holding its protective MBR, header and table plus a fixed region without content that starts in the header's sector and ends by the table's start fails `prepare` with exactly the error naming that region and "GPT Header" |
| Gpt.PatchHeader | embdgen-core/src/embdgen/plugins/label/GPT.py:55-73 | the header patch stores the table's start sector at 584, makes the CRC at 528 that of the header with that field zeroed, changes no other byte, and fails when the sector does not fit 32 bits |
| Gpt.WriteTable | embdgen-core/src/embdgen/plugins/label/GPT.py:52-79 | a table that was not relocated writes nothing; a relocated one patches the header and then copies the 16 KiB at the backup start to its own start |
| Gpt.WriteTableConsistent | embdgen-core/src/embdgen/plugins/label/GPT.py:52-79 | when the table's start sector fits 32 bits, the header's `header_size` field is at most 512 and the backup table lies inside the file behind the header, writing a relocated table succeeds; afterwards the 16 KiB at its start equal those at the backup start, the LBA field holds its sector and the header CRC checks |
| Mbr.InsertEbrs | embdgen-core/src/embdgen/plugins/label/MBR.py:79-92 | the insertion loop never drops a region; the partner lemmas below say what it adds and that removing the headers gives the input back |
| Mbr.RemoveInsertedEbrs | embdgen-core/src/embdgen/plugins/label/MBR.py:81-92 | dropping the inserted EBR headers gives back the list they were inserted into |
| Mbr.InsertEbrsCounts | embdgen-core/src/embdgen/plugins/label/MBR.py:81-92 | the insertion keeps the partitions and adds one header per partition numbered four or higher |
| Mbr.EbrPrecedesLogical | embdgen-core/src/embdgen/plugins/label/MBR.py:83-90 | every inserted EBR header is immediately followed by a partition with at least three partitions before it |
| Mbr.LogicalHasEbr | embdgen-core/src/embdgen/plugins/label/MBR.py:83-90 | every partition with at least three partitions before it is immediately preceded by an EBR header |
| Mbr.WithEbrs | embdgen-core/src/embdgen/plugins/label/MBR.py:75-77 | with at most four partitions no EBR header is inserted |
| Mbr.WithEbrsCounts | embdgen-core/src/embdgen/plugins/label/MBR.py:75-92 | with n > 4 partitions, exactly n - 3 EBR headers are inserted and the partitions are kept |
| Mbr.WithEbrsRemovable | embdgen-core/src/embdgen/plugins/label/MBR.py:79-92 | dropping the EBR headers gives the start-sorted input back: nothing is dropped or reordered |
| Mbr.Prepare | embdgen-core/src/embdgen/plugins/label/MBR.py:69-94 | on success the result is a rearrangement of the input with the header re-added and the EBR headers inserted, each region prepared and kept as often as it occurs, with only the missing starts filled in, sorted and passing the size check |
| Mbr.LogicalAfterEbr | embdgen-core/src/embdgen/plugins/label/MBR.py:81-94 | when the partitions float, every EBR header of the prepared layout starts where the region before it ends and is followed by its logical partition one 512-byte header later |
| Mbr.EmptyMbrImage | embdgen-core/src/embdgen/plugins/label/MBR.py:21-22 | an empty MBR label is the header alone and makes a 512-byte image |
| Mbr.FirstFloatingAfterHeader | embdgen-core/src/embdgen/plugins/label/MBR.py:21-22 | when no region of an MBR label has a start of its own, the prepared layout opens with the header at 0x1B8, and the first floating region, partition or not, with or without content, starts at 512, the end of the header |
| Mbr.LoneFloatingRegion | embdgen-core/src/embdgen/plugins/label/MBR.py:17-22 | a label with one floating region without content prepares to exactly the header followed by that region at 512 |
| Mbr.WriteDiskId | embdgen-core/src/embdgen/plugins/label/MBR.py:24-27 | a disk id that is set and not zero is stored as 4 little-endian bytes at 0x1B8 and nothing else changes; a missing or zero id writes nothing; an id outside 32 bits fails |
| Image.CreateEmptyImage | embdgen-core/src/embdgen/core/utils/image.py:57-62 | the new image has exactly the requested size and reads as zeros everywhere |
| Image.CopySparse | embdgen-core/src/embdgen/core/utils/image.py:64-115 | more bytes than the input has left raise the "Trying to copy" error; a missing or zero size copies all that is left; nothing happens when nothing is to copy; otherwise the output equals writing the input window at the output cursor, holes included, and both cursors advance by the amount copied |
| UBootEnv.ParseLine | embdgen-core/src/embdgen/plugins/content/UBootEnvContent.py:49-55 | a stripped line starting with `#` is a comment, a line without `=` (an empty one included) is invalid, and otherwise the entry's key and value are stripped |
| UBootEnv.ParseFile | embdgen-core/src/embdgen/plugins/content/UBootEnvContent.py:43-56 | no file gives no variables, and the variables read hold each key once |
| UBootEnv.ParseFileFails | embdgen-core/src/embdgen/plugins/content/UBootEnvContent.py:43-56 | reading a file fails exactly when some line is invalid, and the error names the first invalid line counting from one |
| UBootEnv.ParseLastWins | embdgen-core/src/embdgen/plugins/content/UBootEnvContent.py:48-55 | a later line of the file overrides an earlier one for the same key |
| UBootEnv.FormatThenParse | embdgen-core/src/embdgen/plugins/content/UBootEnvContent.py:43-56 | a file written as one `key=value` line per entry reads back as the same entries in the same order |
| UBootEnv.Merged | embdgen-core/src/embdgen/plugins/content/UBootEnvContent.py:58-64 | merging fails exactly when reading the file fails, with the same error |
| UBootEnv.VarsOverrideFile | embdgen-core/src/embdgen/plugins/content/UBootEnvContent.py:58-64 | an explicitly given variable wins over the file, and any other key keeps its value from the file |
| UBootEnv.MergedUnique | embdgen-core/src/embdgen/plugins/content/UBootEnvContent.py:58-64 | the merged variables hold each key once |
| UBootEnv.Serialise | embdgen-core/src/embdgen/plugins/content/UBootEnvContent.py:71-83 | the overflow error is raised exactly when data and CRC exceed the size and reports by how much; otherwise the result fills the size exactly, starts with the little-endian CRC-32 of the rest, then the data, then 0xFF |
| UBootEnv.Prepare | embdgen-core/src/embdgen/plugins/content/UBootEnvContent.py:66-86 | an undefined size is refused first, then parse errors, then overflow; a successful buffer, which `do_write` emits, is the serialised merged variables, with exactly the size and a matching CRC |
| UBootEnv.PrepareReadsBack | embdgen-core/src/embdgen/plugins/content/UBootEnvContent.py:66-86 | the buffer `prepare` produces reads back as the merged variables, one `key=value` entry each in ascending key order, behind a CRC that checks, when no key or value holds a NUL |
| UBootEnv.SerialiseReadsBack | embdgen-core/src/embdgen/plugins/content/UBootEnvContent.py:72-83 | the environment reads back as the `key=value` entries in ascending key order up to the empty entry, and its CRC checks |
| ContentRegistry.Clear | embdgen-config-yaml/src/embdgen/plugins/config/yaml/ContentRegistry.py:19-20 | after `clear` every lookup fails with the key error |
| ContentRegistry.RegisterAll | embdgen-config-yaml/src/embdgen/plugins/config/yaml/ContentRegistry.py:22-26 | a refused batch always names one of its own keys as the duplicate |
| ContentRegistry.RegisterAllFirstDuplicate | embdgen-config-yaml/src/embdgen/plugins/config/yaml/ContentRegistry.py:22-26 | a refused batch stops at an entry whose key is taken by then, every entry before it having gone in, raises that key as the duplicate and leaves the registry as those earlier entries left it |
| ContentRegistry.RegisterAllSucceeds | embdgen-config-yaml/src/embdgen/plugins/config/yaml/ContentRegistry.py:22-26 | a batch goes in exactly when its keys are distinct and none is registered already |
| ContentRegistry.RegisterAllIsUpdate | embdgen-config-yaml/src/embdgen/plugins/config/yaml/ContentRegistry.py:22-26 | a batch that goes in leaves the registry as a dictionary update with the batch would |
| ContentRegistry.RegisterAllKeeps | embdgen-config-yaml/src/embdgen/plugins/config/yaml/ContentRegistry.py:22-26 | entries registered before the batch keep their contents, whether or not the batch is refused |
| ContentRegistry.RegisterAllThenFind | embdgen-config-yaml/src/embdgen/plugins/config/yaml/ContentRegistry.py:22-29 | after a batch goes in, every key of it finds its content |
| ContentRegistry.NoRollback | embdgen-config-yaml/src/embdgen/plugins/config/yaml/ContentRegistry.py:22-26 | the part of a batch before a refused key stays registered |
| ContentRegistry.Find | embdgen-config-yaml/src/embdgen/plugins/config/yaml/ContentRegistry.py:28-29 | `find` succeeds exactly for a registered key and otherwise fails with the key error for that key |
| SplitArchive.GetContents | embdgen-core/src/embdgen/plugins/content_generator/SplitArchiveContentGenerator.py:83-90 | the produced keys are distinct; no splits and no remaining name give no contents, only a remaining name gives exactly its key, mapping to the generator |
| SplitArchive.GetContentsKeys | embdgen-core/src/embdgen/plugins/content_generator/SplitArchiveContentGenerator.py:83-90 | the keys are exactly `<name>.<split name>` for the splits and `<name>.<remaining>` when a remaining name is set |
| SplitArchive.GetContentsOrder | embdgen-core/src/embdgen/plugins/content_generator/SplitArchiveContentGenerator.py:83-90 | with distinct split names the keys come in split order, the remaining key last |
| SplitArchive.LaterSplitWins | embdgen-core/src/embdgen/plugins/content_generator/SplitArchiveContentGenerator.py:84-86 | a split key maps to the last split of that name |
| SplitArchive.NameKeyInjective | embdgen-core/src/embdgen/plugins/content_generator/SplitArchiveContentGenerator.py:85 | two splits get the same key exactly when they have the same name |
| SplitArchive.RemainingIsSelf | embdgen-core/src/embdgen/plugins/content_generator/SplitArchiveContentGenerator.py:88-89 | the remaining key maps to the generator itself |
| SplitArchive.Prepare | embdgen-core/src/embdgen/plugins/content_generator/SplitArchiveContentGenerator.py:92-94 | the archive is unpacked the first time only; once it is, preparing again changes nothing, and nothing but the unpacked state ever changes |
| SplitArchive.PrepareOnce | embdgen-core/src/embdgen/plugins/content_generator/SplitArchiveContentGenerator.py:92-94 | preparing any number of times in a row is the same as preparing once, and leaves the archive unpacked |
| SplitArchive.SetSplits | embdgen-core/src/embdgen/plugins/content_generator/SplitArchiveContentGenerator.py:119-123 | assigning the splits binds every split's base to this generator and keeps everything else of them and of the generator |
| SplitArchive.SetSplitsKeepsKeys | embdgen-core/src/embdgen/plugins/content_generator/SplitArchiveContentGenerator.py:119-123 | binding the splits does not change which keys are produced, nor their order |
| Dicts.Put | embdgen-core/src/embdgen/plugins/content/UBootEnvContent.py:55 | assigning a key keeps the key order, appending the key when it is new |
| Dicts.Update | embdgen-core/src/embdgen/plugins/content/UBootEnvContent.py:62 | `update` keeps the existing keys, in their order, at the front of the result |
| Dicts.PutGet | embdgen-core/src/embdgen/plugins/content/UBootEnvContent.py:55 | after assigning a key, it maps to the new value and every other key to its old one |
| Dicts.UpdateGet | embdgen-core/src/embdgen/plugins/content/UBootEnvContent.py:62 | after `update`, a key of the update maps to its value there and any other key to its old value |
| Dicts.UpdateLastWins | embdgen-core/src/embdgen/plugins/content_generator/SplitArchiveContentGenerator.py:84-86 | when a batch assigns a key several times, the last assignment wins |
| Dicts.UpdateFresh | embdgen-core/src/embdgen/plugins/content_generator/SplitArchiveContentGenerator.py:84-86 | a batch of distinct new keys is appended in its own order |
| Text.Strip | embdgen-core/src/embdgen/plugins/content/UBootEnvContent.py:49 | the stripped text is a piece of the input with only whitespace before and after it in the input, has no whitespace at either end, and stripped text is left alone |
| Text.StripUnique | embdgen-core/src/embdgen/plugins/content/UBootEnvContent.py:49 | any split of the input into whitespace, a stripped middle and whitespace has `strip` as its middle |
| Text.SplitFirst | embdgen-core/src/embdgen/plugins/content/UBootEnvContent.py:52 | splitting at the first `=` fails exactly when there is none, and the parts joined by it give the line back |
| Text.SortStringsSorted | embdgen-core/src/embdgen/plugins/content/UBootEnvContent.py:73 | the keys are emitted in ascending code-point order |
| Text.SortStrings | embdgen-core/src/embdgen/plugins/content/UBootEnvContent.py:73 | sorting the keys gives a permutation of them |
| Bytes.Le32 | embdgen-core/src/embdgen/plugins/content/UBootEnvContent.py:83 | a 32-bit value packs into four bytes that unpack little-endian to the value |
| Bytes.Le32Decode | embdgen-core/src/embdgen/plugins/label/GPT.py:62 | packing the value of any four bytes gives the same four bytes back |
| Bytes.ReadAt | embdgen-core/src/embdgen/core/utils/image.py:97 | a read returns as many bytes as are asked for and present from the offset on, each the file's byte at that position |
| Bytes.WriteAt | embdgen-core/src/embdgen/core/utils/image.py:100 | an empty write changes nothing; otherwise the file grows to the end of the write if needed, the written bytes replace those at the offset, gaps are zero and everything else is kept |
| Utf8.Encode | embdgen-core/src/embdgen/plugins/content/UBootEnvContent.py:74 | UTF-8 encoding produces between one and four bytes per character |
| Utf8.EncodeAppend | embdgen-core/src/embdgen/plugins/content/UBootEnvContent.py:74 | encoding a concatenation gives the concatenation of the encodings, so the entries can be encoded one at a time |
| Crc.Crc32 | embdgen-core/src/embdgen/plugins/content/UBootEnvContent.py:83 | the CRC-32 is a 32-bit value, computed bit by bit with the reflected polynomial 0xEDB88320 and the initial value and final XOR 0xFFFFFFFF |
| Crc.CheckValue | embdgen-core/src/embdgen/plugins/content/UBootEnvContent.py:83 | the CRC-32 of the ASCII text "123456789" is 0xCBF43926, the standard check value of the CRC-32 that `zlib.crc32` computes |
| Bytes.ReadAfterWrite | embdgen-core/src/embdgen/core/utils/image.py:100 | the bytes written at an offset read back from it |
| Bytes.PunchHole | embdgen-core/src/embdgen/core/utils/image.py:103 | a punched hole keeps the file length and reads back as zeros, every other byte unchanged |

## Left out

- libparted: `_create_partition_table` is modelled up to the list of entries it hands to libparted (`Layout.PartitionPlan`); creating the table, the extended/logical typing and `commit` are foreign code and appear as a function parameter of `Layout.Create`.
- File I/O: files are byte sequences with explicit cursors; opening, seeking, `truncate`, `fallocate` and `ftruncate` are modelled by their effect on the bytes.
- Content kinds (`BinaryContent`, ext4, FAT32, archives) and the base `BaseRegion.prepare`: a content's own `prepare` is a function parameter, and the base region's `prepare` is taken to do nothing.
- `SizeType` is not part of this model beyond `Option<nat>` bytes: its string formats and printing are left out.
- `math.ceil` on a float quotient in the relocation loop is modelled as exact integer rounding; floats are not modelled.
- `struct.pack("I", …)` is taken to be 4 little-endian bytes, as on the platforms embdgen runs on.
- Crc.Crc32: its contract only bounds the value. Agreement with `zlib.crc32` rests on the definition and on the one standard check value proved in `Crc.CheckValue`; no other input is checked.
- Mbr.InsertEbrs: its own contract states only that no region is dropped; what it inserts and where is stated by `Mbr.InsertEbrsCounts`, `Mbr.EbrPrecedesLogical`, `Mbr.LogicalHasEbr` and `Mbr.RemoveInsertedEbrs`.
- Dicts.Update: its own contract states the key order only; the values are stated by `Dicts.UpdateGet`, `Dicts.UpdateLastWins` and `Dicts.UpdateFresh`.
- Regions.AddMissing: the source tests whether the label's own header object is in the list (`in`, which compares objects); the model tests whether a region of that kind is present. The two differ only when the list holds a region of that kind other than the label's own object. The header and table classes are only instantiated by the labels themselves (GPT.py:96-99, MBR.py:57 and MBR.py:87), so no such region reaches `prepare`.
- Mbr.FirstFloatingAfterHeader: stated for lists that do not bring their own MBR header. The label always holds its one header object, whose start is 0x1B8, so a header region with another start does not arise.
- Split-archive unpacking, moving entries into splits, `rmdir` of a split root and the directory listings: external processes and the file system. `SplitArchive.Prepare` only models the guard that makes the work happen once.
- Object identity: a split's `base` is recorded as the generator's name, and `Split.prepare` delegating to the generator is the same `SplitArchive.Prepare`.
- `BuildLocation`, `get_temp_file` and temporary directories: process-wide file-system state.
- The `file` setter's existence check in the U-Boot content, and reading and decoding the file: the model takes the file as its lines.
- The MBR `diskid` property only forwards to the header; it is the `diskid` argument of `Mbr.WriteDiskId`.
- The configuration front end (YAML validators, plugin factories, `class_factory`), the CLI and the singleton accessor of the registry.
- The class documentation of the MBR label speaks of logical partitions from the third on; the code (`partPtr > 3`) and its tests start at the fourth, and the model follows the code.
- The GPT test expects the message "overlapps" while the code says "overlaps"; the model follows the code.
- Error messages are modelled by the values they are built from (`Errors.Error`); the `KeyError` text of `find` is the quoted key. The undefined-value error is raised inside `SizeType`, which is not part of this model, so `Errors.Message` gives it a stand-in text.
- Image.CopySparse: which blocks become holes and which are written is not visible in the contract, because either way the bytes come out the same; only full 4096-byte zero blocks are punched in the body.
- Mbr.LogicalAfterEbr: stated only when every partition floats. An EBR header never has a start of its own, so the sort puts the EBR header of a logical partition with a fixed start after every fixed region, away from its partition, and the one-sector relation does not hold there.
- Gpt.HeaderOverlapRefused: stated for lists that do not bring their own protective MBR or header, so that the label adds both at their fixed places.

## Findings

The label pipeline (`Layout.Prepare`, `Gpt.Prepare`, `Mbr.Prepare`) follows
the code as written, defects included. The corrected definitions stand beside
it, with their intended properties proved, and are not used by the pipeline.

| source | as written | input that shows it | evidently intended | confidence | as-written member | corrected member |
|---|---|---|---|---|---|---|
| embdgen-core/src/embdgen/core/label/BaseLabel.py:53-62 | the running offset adds only sizes (`cur_offset += part.size`), so a start is compared with the sum of the sizes before it, not with the end of the previous region | regions at [0,10), [100,110) and [105,115): the sums are 0, 10 and 20, every start passes, yet the last two overlap; likewise [150,160) nested in [100,200) passes and the image is then sized at 160 | reject any region that starts before its predecessor ends, as the "overlaps with" message says | not executed | Layout.PlaceAcceptsOverlap | Layout.PlaceIntendedRejectsOverlap |
| embdgen-core/src/embdgen/plugins/label/GPT.py:119-120 | after a move `i = 0` is followed by `i += 1`, so the rescan starts at index 1 and the region at index 0 is not checked again | user regions at 20000 (512 bytes) and 16384 (1024 bytes): the table moves to 17408 and stops while overlapping the first; the size check then accepts, so `prepare` succeeds with the overlap | restart the scan at index 0, as the comment says, giving 20992 | not executed | Gpt.PrepareOverlapsTable | Gpt.RelocateIntendedClears |

=== FILE: bytes.dfy ===
/**
 * Bytes and the byte-level file model: a file is its contents, a `seq<byte>`;
 * reading past the end returns fewer bytes, writing past the end extends the
 * file and fills the gap with zeros, as a POSIX file does.
 */
module Bytes {
  import opened Wrappers

  newtype byte = b: int | 0 <= b < 256

  const TwoTo32: int := 0x1_0000_0000

  function Zeros(n: nat): (r: seq<byte>)
    ensures |r| == n
    ensures forall i :: 0 <= i < n ==> r[i] == 0
  {
    seq(n, i => 0)
  }

  function Repeat(b: byte, n: nat): (r: seq<byte>)
    ensures |r| == n
    ensures forall i :: 0 <= i < n ==> r[i] == b
  {
    seq(n, i => b)
  }

  predicate AllZero(s: seq<byte>)
  {
    forall i :: 0 <= i < |s| ==> s[i] == 0
  }

  /** `struct.pack("<I", n)`: four bytes, least significant first. */
  function Le32(n: nat): (r: seq<byte>)
    requires n < TwoTo32
    ensures |r| == 4 && Le32Value(r) == n
  {
    var q1 := n / 256;
    var q2 := q1 / 256;
    var q3 := q2 / 256;
    assert n == n % 256 + 256 * q1;
    assert q1 == q1 % 256 + 256 * q2;
    assert q2 == q2 % 256 + 256 * q3;
    [(n % 256) as byte, (q1 % 256) as byte, (q2 % 256) as byte, q3 as byte]
  }

  /** `struct.unpack("<I", s)[0]`. */
  function Le32Value(s: seq<byte>): (n: nat)
    requires |s| == 4
    ensures n < TwoTo32
  {
    s[0] as int + 256 * (s[1] as int) + 0x1_0000 * (s[2] as int) + 0x100_0000 * (s[3] as int)
  }

  lemma Le32Decode(s: seq<byte>)
    requires |s| == 4
    ensures Le32(Le32Value(s)) == s
  {
    var n := Le32Value(s);
    var q1 := n / 256;
    var q2 := q1 / 256;
    var q3 := q2 / 256;
    assert n == s[0] as int + 256 * (s[1] as int + 256 * (s[2] as int + 256 * (s[3] as int)));
    assert q1 == s[1] as int + 256 * (s[2] as int + 256 * (s[3] as int));
    assert q2 == s[2] as int + 256 * (s[3] as int);
    assert q3 == s[3] as int;
  }

  /** `f.seek(off); f.read(n)`: at most `n` bytes, fewer at the end of the file. */
  function ReadAt(f: seq<byte>, off: nat, n: nat): (r: seq<byte>)
    ensures |r| == Max(0, Min(n, |f| - off))
    ensures forall i :: 0 <= i < |r| ==> r[i] == f[off + i]
  {
    if off >= |f| then [] else f[off .. Min(off + n, |f|)]
  }

  /** The value of the byte at `i` after writing `data` at `off` into `f`. */
  function Written(f: seq<byte>, off: nat, data: seq<byte>, i: nat): byte
  {
    if off <= i < off + |data| then data[i - off] else if i < |f| then f[i] else 0
  }

  /** `f.seek(off); f.write(data)`. */
  function WriteAt(f: seq<byte>, off: nat, data: seq<byte>): (r: seq<byte>)
    ensures |data| == 0 ==> r == f
    ensures |data| > 0 ==> |r| == Max(|f|, off + |data|)
    ensures forall i :: 0 <= i < |r| ==> r[i] == Written(f, off, data, i)
  {
    if |data| == 0 then f
    else if off <= |f| then
      f[..off] + data + (if off + |data| < |f| then f[off + |data|..] else [])
    else
      f + Zeros(off - |f|) + data
  }

  /**
   * `fallocate(f, off, n, PUNCH_HOLE | KEEP_SIZE)`: the range reads back as
   * zeros and the file keeps its length.
   */
  function PunchHole(f: seq<byte>, off: nat, n: nat): (r: seq<byte>)
    ensures |r| == |f|
    ensures forall i :: 0 <= i < |r| ==> r[i] == (if off <= i < off + n then 0 else f[i])
  {
    if off >= |f| then f
    else f[..off] + Zeros(Min(n, |f| - off)) + f[Min(off + n, |f|)..]
  }

  /** Reading back what was just written returns it. */
  lemma ReadAfterWrite(f: seq<byte>, off: nat, data: seq<byte>)
    ensures ReadAt(WriteAt(f, off, data), off, |data|) == data
  {
  }
}

/** UTF-8 encoding, as Python's `str.encode()` performs it. */
module Utf8 {
  import opened Bytes

  function EncodeChar(c: char): (r: seq<byte>)
    ensures 1 <= |r| <= 4
    ensures c as int < 0x80 ==> r == [c as int as byte]
    ensures c as int >= 0x80 ==> forall i :: 0 <= i < |r| ==> r[i] >= 0x80
  {
    var n := c as int;
    if n < 0x80 then [n as byte]
    else if n < 0x800 then [(0xC0 + n / 64) as byte, (0x80 + n % 64) as byte]
    else if n < 0x1_0000 then
      [(0xE0 + n / 4096) as byte, (0x80 + n / 64 % 64) as byte, (0x80 + n % 64) as byte]
    else
      [(0xF0 + n / 0x4_0000) as byte, (0x80 + n / 4096 % 64) as byte,
       (0x80 + n / 64 % 64) as byte, (0x80 + n % 64) as byte]
  }

  function Encode(s: string): (r: seq<byte>)
    ensures |s| <= |r| <= 4 * |s|
  {
    if |s| == 0 then [] else EncodeChar(s[0]) + Encode(s[1..])
  }

  lemma {:induction false} EncodeAppend(a: string, b: string)
    ensures Encode(a + b) == Encode(a) + Encode(b)
    decreases |a|
  {
    if |a| == 0 {
      assert a + b == b;
    } else {
      assert (a + b)[1..] == a[1..] + b;
      EncodeAppend(a[1..], b);
    }
  }

  /**
   * An ASCII byte occurs in the encoding exactly where the same ASCII
   * character occurs in the text: multi-byte sequences only use bytes
   * from 0x80 upwards.
   */
  lemma {:induction false} EncodeAvoids(s: string, c: char)
    requires c as int < 0x80
    requires forall i :: 0 <= i < |s| ==> s[i] != c
    ensures forall j :: 0 <= j < |Encode(s)| ==> Encode(s)[j] != c as int as byte
    decreases |s|
  {
    if |s| > 0 {
      EncodeAvoids(s[1..], c);
      var head := EncodeChar(s[0]);
      assert Encode(s) == head + Encode(s[1..]);
      forall j | 0 <= j < |Encode(s)|
        ensures Encode(s)[j] != c as int as byte
      {
        if j >= |head| {
          assert Encode(s)[j] == Encode(s[1..])[j - |head|];
        }
      }
    }
  }

  lemma EncodeAscii(s: string)
    requires forall i :: 0 <= i < |s| ==> s[i] as int < 0x80
    ensures |Encode(s)| == |s|
    ensures forall i :: 0 <= i < |s| ==> Encode(s)[i] == s[i] as int as byte
  {
    if |s| > 0 {
      EncodeAscii(s[1..]);
    }
  }
}

/**
 * CRC-32 as `zlib.crc32` computes it: reflected polynomial 0xEDB88320,
 * initial value and final XOR 0xFFFFFFFF, bit by bit.
 */
module Crc {
  import opened Bytes

  /**
   * One bit of the register shifted out, folding in the polynomial when it
   * was set: `0 - (c & 1)` is all ones exactly then.
   */
  function Step(c: bv32): bv32
  {
    (c >> 1) ^ ((0 - (c & 1)) & 0xEDB8_8320)
  }

  /** The eight steps that consume one byte. */
  function Step8(c: bv32): bv32
  {
    Step(Step(Step(Step(Step(Step(Step(Step(c))))))))
  }

  function ToBv(b: byte): bv32
  {
    b as bv32
  }

  function Update(c: bv32, data: seq<byte>): bv32
    decreases |data|
  {
    if |data| == 0 then c else Update(Step8(c ^ ToBv(data[0])), data[1..])
  }

  function Crc32(data: seq<byte>): (r: nat)
    ensures r < TwoTo32
  {
    (Update(0xFFFF_FFFF, data) ^ 0xFFFF_FFFF) as int
  }

  /** Feeding one byte moves the register from `c` to `c'`. */
  lemma UpdateByte(c: bv32, b: byte, data: seq<byte>, c': bv32)
    requires |data| > 0 && data[0] == b && Step8(c ^ ToBv(b)) == c'
    ensures Update(c, data) == Update(c', data[1..])
  {
    assert Update(c, data) == Update(Step8(c ^ ToBv(data[0])), data[1..]);
  }

  /** The ASCII text "123456789", the customary CRC check input. */
  const CheckInput: seq<byte> := [0x31, 0x32, 0x33, 0x34, 0x35, 0x36, 0x37, 0x38, 0x39]

  lemma CheckByte0()
    ensures Update(0xFFFF_FFFF, CheckInput[0..]) == Update(0x7C23_1048, CheckInput[1..])
  {
    UpdateByte(0xFFFF_FFFF, 0x31, CheckInput[0..], 0x7C23_1048);
    assert CheckInput[0..][1..] == CheckInput[1..];
  }

  lemma CheckByte1()
    ensures Update(0x7C23_1048, CheckInput[1..]) == Update(0xB0AC_BB32, CheckInput[2..])
  {
    UpdateByte(0x7C23_1048, 0x32, CheckInput[1..], 0xB0AC_BB32);
    assert CheckInput[1..][1..] == CheckInput[2..];
  }

  lemma CheckByte2()
    ensures Update(0xB0AC_BB32, CheckInput[2..]) == Update(0x77B7_9C2D, CheckInput[3..])
  {
    UpdateByte(0xB0AC_BB32, 0x33, CheckInput[2..], 0x77B7_9C2D);
    assert CheckInput[2..][1..] == CheckInput[3..];
  }

  lemma CheckByte3()
    ensures Update(0x77B7_9C2D, CheckInput[3..]) == Update(0x641C_1F5C, CheckInput[4..])
  {
    UpdateByte(0x77B7_9C2D, 0x34, CheckInput[3..], 0x641C_1F5C);
    assert CheckInput[3..][1..] == CheckInput[4..];
  }

  lemma CheckByte4()
    ensures Update(0x641C_1F5C, CheckInput[4..]) == Update(0x340A_C5E3, CheckInput[5..])
  {
    UpdateByte(0x641C_1F5C, 0x35, CheckInput[4..], 0x340A_C5E3);
    assert CheckInput[4..][1..] == CheckInput[5..];
  }

  lemma CheckByte5()
    ensures Update(0x340A_C5E3, CheckInput[5..]) == Update(0xF68D_2C9E, CheckInput[6..])
  {
    UpdateByte(0x340A_C5E3, 0x36, CheckInput[5..], 0xF68D_2C9E);
    assert CheckInput[5..][1..] == CheckInput[6..];
  }

  lemma CheckByte6()
    ensures Update(0xF68D_2C9E, CheckInput[6..]) == Update(0xAFFC_9660, CheckInput[7..])
  {
    UpdateByte(0xF68D_2C9E, 0x37, CheckInput[6..], 0xAFFC_9660);
    assert CheckInput[6..][1..] == CheckInput[7..];
  }

  lemma CheckByte7()
    ensures Update(0xAFFC_9660, CheckInput[7..]) == Update(0x651F_2550, CheckInput[8..])
  {
    UpdateByte(0xAFFC_9660, 0x38, CheckInput[7..], 0x651F_2550);
    assert CheckInput[7..][1..] == CheckInput[8..];
  }

  lemma CheckByte8()
    ensures Update(0x651F_2550, CheckInput[8..]) == Update(0x340B_C6D9, CheckInput[9..])
  {
    UpdateByte(0x651F_2550, 0x39, CheckInput[8..], 0x340B_C6D9);
    assert CheckInput[8..][1..] == CheckInput[9..];
  }

  lemma CheckEnd()
    ensures Update(0x340B_C6D9, CheckInput[9..]) == 0x340B_C6D9
    ensures (0x340B_C6D9 as bv32 ^ 0xFFFF_FFFF) as int == 0xCBF4_3926
  {
    assert CheckInput[9..] == [];
  }

  /**
   * The standard check value of this CRC-32: `zlib.crc32(b"123456789")` is
   * 0xCBF43926, and so is the definition above.
   */
  lemma CheckValue()
    ensures Crc32(CheckInput) == 0xCBF4_3926
  {
    assert CheckInput[0..] == CheckInput;
    CheckByte0();
    CheckByte1();
    CheckByte2();
    CheckByte3();
    CheckByte4();
    CheckByte5();
    CheckByte6();
    CheckByte7();
    CheckByte8();
    CheckEnd();
  }
}

=== FILE: content_registry.dfy ===
/**
 * The registry of named contents the configuration refers to: cleared,
 * filled batch by batch with duplicate names refused, and queried by name.
 */
module ContentRegistry {
  import opened Wrappers
  import opened Errors
  import opened Dicts

  /** The state after `register_all`: the registry, and the exception raised, if any. */
  datatype Registered<C> = Registered(registry: Dict<C>, error: Option<Error>)

  /** `clear`: nothing is registered any more. */
  function Clear<C>(): (r: Dict<C>)
    ensures forall k :: Find(r, k) == Err(KeyNotFound(k))
  {
    []
  }

  /**
   * `register_all`: the batch is entered in order; the first name already
   * registered raises, and the names entered before it stay registered.
   */
  function RegisterAll<C>(reg: Dict<C>, contents: Dict<C>): (r: Registered<C>)
    ensures r.error.Some? ==> exists j :: 0 <= j < |contents| && r.error.value == DuplicateKey(contents[j].0)
    decreases |contents|
  {
    if |contents| == 0 then Registered(reg, None)
    else if contents[0].0 in Keys(reg) then Registered(reg, Some(DuplicateKey(contents[0].0)))
    else
      var r := RegisterAll(Put(reg, contents[0].0, contents[0].1), contents[1..]);
      assert r.error.Some? ==> exists j :: 1 <= j < |contents| && r.error.value == DuplicateKey(contents[j].0) by {
        if r.error.Some? {
          var j :| 0 <= j < |contents[1..]| && r.error.value == DuplicateKey(contents[1..][j].0);
          assert contents[1..][j] == contents[j + 1];
        }
      }
      r
  }

  /** `find`: the content registered under `key`, or the `KeyError` for it. */
  function Find<C>(reg: Dict<C>, key: string): (r: Result<C, Error>)
    ensures r.Ok? <==> key in Keys(reg)
    ensures r.Err? ==> r.error == KeyNotFound(key)
  {
    match Get(reg, key)
    case Some(c) => Ok(c)
    case None => Err(KeyNotFound(key))
  }

  /** A batch goes in exactly when its names are new and distinct. */
  lemma {:induction false} RegisterAllSucceeds<C>(reg: Dict<C>, contents: Dict<C>)
    ensures RegisterAll(reg, contents).error.None? <==>
      UniqueKeys(contents) && forall j :: 0 <= j < |contents| ==> contents[j].0 !in Keys(reg)
    decreases |contents|
  {
    if |contents| > 0 {
      var k := contents[0].0;
      var reg' := Put(reg, k, contents[0].1);
      RegisterAllSucceeds(reg', contents[1..]);
      assert Keys(reg') == Keys(reg) + [k] || k in Keys(reg);
      if k !in Keys(reg) {
        assert Keys(reg') == Keys(reg) + [k];
        // the rest avoids reg' exactly when it avoids reg and k
        assert (forall j :: 0 <= j < |contents[1..]| ==> contents[1..][j].0 !in Keys(reg')) <==>
               (forall j :: 1 <= j < |contents| ==> contents[j].0 !in Keys(reg) && contents[j].0 != k) by {
          forall j | 1 <= j < |contents|
            ensures contents[1..][j - 1] == contents[j]
          {
          }
        }
        assert UniqueKeys(contents) <==>
               UniqueKeys(contents[1..]) && forall j :: 1 <= j < |contents| ==> contents[j].0 != k by {
          if UniqueKeys(contents[1..]) && forall j :: 1 <= j < |contents| ==> contents[j].0 != k {
            forall i, j | 0 <= i < j < |contents|
              ensures contents[i].0 != contents[j].0
            {
              if i > 0 {
                assert contents[1..][i - 1] == contents[i] && contents[1..][j - 1] == contents[j];
              }
            }
          }
        }
      }
    }
  }

  /** A batch that goes in leaves the registry as `dict.update` with the batch would. */
  lemma {:induction false} RegisterAllIsUpdate<C>(reg: Dict<C>, contents: Dict<C>)
    requires RegisterAll(reg, contents).error.None?
    ensures RegisterAll(reg, contents).registry == Update(reg, contents)
    decreases |contents|
  {
    if |contents| > 0 {
      RegisterAllIsUpdate(Put(reg, contents[0].0, contents[0].1), contents[1..]);
    }
  }

  /** Entries present before the batch keep their contents, whether or not the batch fails. */
  lemma {:induction false} RegisterAllKeeps<C>(reg: Dict<C>, contents: Dict<C>, k: string)
    requires k in Keys(reg)
    ensures Get(RegisterAll(reg, contents).registry, k) == Get(reg, k)
    decreases |contents|
  {
    if |contents| > 0 && contents[0].0 !in Keys(reg) {
      var reg' := Put(reg, contents[0].0, contents[0].1);
      PutGet(reg, contents[0].0, contents[0].1, k);
      RegisterAllKeeps(reg', contents[1..], k);
    }
  }

  /**
   * The batch stops at entry `j`: the entries before it go in cleanly, the
   * name of entry `j` is registered by then, its duplicate is what is raised,
   * and the registry is the one the entries before it left.
   */
  ghost predicate StopsAt<C>(reg: Dict<C>, contents: Dict<C>, j: nat)
  {
    j < |contents| &&
    var before := RegisterAll(reg, contents[..j]);
    before.error.None? && contents[j].0 in Keys(before.registry) &&
    RegisterAll(reg, contents) == Registered(before.registry, Some(DuplicateKey(contents[j].0)))
  }

  /** A refused batch is refused at its first entry whose name is already taken. */
  lemma {:induction false} RegisterAllFirstDuplicate<C>(reg: Dict<C>, contents: Dict<C>)
    requires RegisterAll(reg, contents).error.Some?
    ensures exists j: nat :: StopsAt(reg, contents, j)
    decreases |contents|
  {
    var k := contents[0].0;
    if k in Keys(reg) {
      assert contents[..0] == [];
      assert StopsAt(reg, contents, 0);
    } else {
      var reg' := Put(reg, k, contents[0].1);
      RegisterAllFirstDuplicate(reg', contents[1..]);
      var j: nat :| StopsAt(reg', contents[1..], j);
      assert contents[..j + 1][0] == contents[0];
      assert contents[..j + 1][1..] == contents[1..][..j];
      assert contents[1..][j] == contents[j + 1];
      assert StopsAt(reg, contents, j + 1);
    }
  }

  /** After a batch goes in, every name of it finds its content. */
  lemma {:induction false} RegisterAllThenFind<C>(reg: Dict<C>, contents: Dict<C>, p: nat)
    requires RegisterAll(reg, contents).error.None? && p < |contents|
    ensures Find(RegisterAll(reg, contents).registry, contents[p].0) == Ok(contents[p].1)
    decreases |contents|
  {
    var reg' := Put(reg, contents[0].0, contents[0].1);
    if p == 0 {
      PutGet(reg, contents[0].0, contents[0].1, contents[0].0);
      RegisterAllKeeps(reg', contents[1..], contents[0].0);
    } else {
      assert contents[1..][p - 1] == contents[p];
      RegisterAllThenFind(reg', contents[1..], p - 1);
    }
  }

  /**
   * There is no rollback: when the first `m` entries of a batch are
   * accepted on their own, they are registered after the whole batch too,
   * even if a later entry is refused.
   */
  lemma {:induction false} NoRollback<C>(reg: Dict<C>, contents: Dict<C>, m: nat, p: nat)
    requires m <= |contents| && p < m
    requires RegisterAll(reg, contents[..m]).error.None?
    ensures Find(RegisterAll(reg, contents).registry, contents[p].0) == Ok(contents[p].1)
    decreases m
  {
    var k := contents[0].0;
    assert contents[..m][0] == contents[0];
    var reg' := Put(reg, k, contents[0].1);
    assert contents[..m][1..] == contents[1..][..m - 1];
    if p == 0 {
      PutGet(reg, k, contents[0].1, k);
      RegisterAllKeeps(reg', contents[1..], k);
    } else {
      assert contents[1..][p - 1] == contents[p];
      NoRollback(reg', contents[1..], m - 1, p - 1);
    }
  }
}

=== FILE: dicts.dfy ===
/**
 * Python dictionaries with string keys: entries in insertion order, each
 * key at most once. Assigning to a present key replaces its value in
 * place; a new key goes to the end.
 */
module Dicts {
  import opened Wrappers

  type Dict<V> = seq<(string, V)>

  function Keys<V>(d: Dict<V>): (r: seq<string>)
    ensures |r| == |d|
    ensures forall i :: 0 <= i < |d| ==> r[i] == d[i].0
  {
    seq(|d|, i requires 0 <= i < |d| => d[i].0)
  }

  predicate UniqueKeys<V>(d: Dict<V>)
  {
    forall i, j :: 0 <= i < j < |d| ==> d[i].0 != d[j].0
  }

  /** `d.get(k)`. */
  function Get<V>(d: Dict<V>, k: string): (r: Option<V>)
    ensures r.Some? <==> k in Keys(d)
  {
    if |d| == 0 then None
    else if d[0].0 == k then Some(d[0].1)
    else
      assert Keys(d) == [d[0].0] + Keys(d[1..]);
      Get(d[1..], k)
  }

  /** The value stored at `k`, in a dictionary that has it at index `i`. */
  lemma {:induction false} GetAt<V>(d: Dict<V>, i: nat)
    requires UniqueKeys(d) && i < |d|
    ensures Get(d, d[i].0) == Some(d[i].1)
  {
    if i > 0 {
      assert d[1..][i - 1] == d[i];
      GetAt(d[1..], i - 1);
    }
  }

  lemma KeysCons<V>(x: (string, V), d: Dict<V>)
    ensures Keys([x] + d) == [x.0] + Keys(d)
  {
  }

  /** `d[k] = v`. */
  function Put<V>(d: Dict<V>, k: string, v: V): (r: Dict<V>)
    ensures k in Keys(d) ==> Keys(r) == Keys(d)
    ensures k !in Keys(d) ==> Keys(r) == Keys(d) + [k]
  {
    if |d| == 0 then [(k, v)]
    else
      KeysCons(d[0], d[1..]);
      assert d == [d[0]] + d[1..];
      if d[0].0 == k then
        KeysCons((k, v), d[1..]);
        [(k, v)] + d[1..]
      else
        var rest := Put(d[1..], k, v);
        KeysCons(d[0], rest);
        [d[0]] + rest
  }

  /** After `d[k] = v`, `k` maps to `v` and every other key to what it mapped to before. */
  lemma {:induction false} PutGet<V>(d: Dict<V>, k: string, v: V, k': string)
    ensures Get(Put(d, k, v), k') == if k' == k then Some(v) else Get(d, k')
  {
    if |d| > 0 && d[0].0 != k {
      var r := Put(d, k, v);
      assert r[1..] == Put(d[1..], k, v);
      PutGet(d[1..], k, v, k');
    }
  }

  lemma PutKeepsUnique<V>(d: Dict<V>, k: string, v: V)
    requires UniqueKeys(d)
    ensures UniqueKeys(Put(d, k, v))
  {
    var r := Put(d, k, v);
    forall i, j | 0 <= i < j < |r|
      ensures r[i].0 != r[j].0
    {
      assert Keys(r)[i] == r[i].0 && Keys(r)[j] == r[j].0;
      if k !in Keys(d) && j == |d| {
        assert Keys(d)[i] == d[i].0;
      } else {
        assert Keys(d)[i] == d[i].0 && Keys(d)[j] == d[j].0;
      }
    }
  }

  /** Dropping the first entry keeps the keys distinct. */
  lemma TailUnique<V>(d: Dict<V>)
    requires UniqueKeys(d) && |d| > 0
    ensures UniqueKeys(d[1..])
  {
    forall i, j | 0 <= i < j < |d| - 1
      ensures d[1..][i].0 != d[1..][j].0
    {
      assert d[1..][i] == d[i + 1] && d[1..][j] == d[j + 1];
    }
  }

  /** `d.update(e)`: the entries of `e` are assigned in order. */
  function Update<V>(d: Dict<V>, e: Dict<V>): (r: Dict<V>)
    ensures |r| >= |d| && Keys(r)[..|d|] == Keys(d)
    decreases |e|
  {
    if |e| == 0 then d
    else
      var d' := Put(d, e[0].0, e[0].1);
      assert Keys(d')[..|d|] == Keys(d);
      Update(d', e[1..])
  }

  /** After `d.update(e)` a key of `e` maps to its value there, any other key as in `d`. */
  lemma {:induction false} UpdateGet<V>(d: Dict<V>, e: Dict<V>, k: string)
    requires UniqueKeys(e)
    ensures Get(Update(d, e), k) == if k in Keys(e) then Get(e, k) else Get(d, k)
    decreases |e|
  {
    if |e| > 0 {
      assert Keys(e) == [e[0].0] + Keys(e[1..]);
      UpdateGet(Put(d, e[0].0, e[0].1), e[1..], k);
      PutGet(d, e[0].0, e[0].1, k);
      if k == e[0].0 {
        assert k !in Keys(e[1..]) by {
          forall i | 0 <= i < |e[1..]|
            ensures e[1..][i].0 != k
          {
            assert e[1..][i] == e[i + 1];
          }
        }
      }
    }
  }

  /** A key `e` does not assign keeps its value. */
  lemma {:induction false} UpdateAbsent<V>(d: Dict<V>, e: Dict<V>, k: string)
    requires k !in Keys(e)
    ensures Get(Update(d, e), k) == Get(d, k)
    decreases |e|
  {
    if |e| > 0 {
      assert Keys(e) == [e[0].0] + Keys(e[1..]);
      PutGet(d, e[0].0, e[0].1, k);
      UpdateAbsent(Put(d, e[0].0, e[0].1), e[1..], k);
    }
  }

  /** When `e` assigns a key several times, the last assignment wins. */
  lemma {:induction false} UpdateLastWins<V>(d: Dict<V>, e: Dict<V>, i: nat)
    requires i < |e|
    requires forall j :: i < j < |e| ==> e[j].0 != e[i].0
    ensures Get(Update(d, e), e[i].0) == Some(e[i].1)
    decreases |e|
  {
    var d' := Put(d, e[0].0, e[0].1);
    if i == 0 {
      PutGet(d, e[0].0, e[0].1, e[0].0);
      assert e[0].0 !in Keys(e[1..]) by {
        forall j | 0 <= j < |e[1..]|
          ensures e[1..][j].0 != e[0].0
        {
          assert e[1..][j] == e[j + 1];
        }
      }
      UpdateAbsent(d', e[1..], e[0].0);
    } else {
      assert e[1..][i - 1] == e[i];
      forall j | i - 1 < j < |e[1..]|
        ensures e[1..][j].0 != e[1..][i - 1].0
      {
        assert e[1..][j] == e[j + 1];
      }
      UpdateLastWins(d', e[1..], i - 1);
    }
  }

  /** After `d.update(e)` the keys are those of `d` and of `e`. */
  lemma {:induction false} UpdateKeys<V>(d: Dict<V>, e: Dict<V>, k: string)
    ensures k in Keys(Update(d, e)) <==> k in Keys(d) || k in Keys(e)
    decreases |e|
  {
    if |e| > 0 {
      assert Keys(e) == [e[0].0] + Keys(e[1..]);
      UpdateKeys(Put(d, e[0].0, e[0].1), e[1..], k);
    }
  }

  /** A new key goes to the end. */
  lemma {:induction false} PutNew<V>(d: Dict<V>, k: string, v: V)
    requires k !in Keys(d)
    ensures Put(d, k, v) == d + [(k, v)]
    decreases |d|
  {
    if |d| > 0 {
      KeysCons(d[0], d[1..]);
      assert d == [d[0]] + d[1..];
      PutNew(d[1..], k, v);
      assert d + [(k, v)] == [d[0]] + (d[1..] + [(k, v)]);
    }
  }

  lemma KeysAppend<V>(d: Dict<V>, e: Dict<V>)
    ensures Keys(d + e) == Keys(d) + Keys(e)
  {
  }

  /** A batch of distinct new keys is appended as it is. */
  lemma {:induction false} UpdateFresh<V>(d: Dict<V>, e: Dict<V>)
    requires UniqueKeys(e)
    requires forall j :: 0 <= j < |e| ==> e[j].0 !in Keys(d)
    ensures Update(d, e) == d + e
    decreases |e|
  {
    if |e| > 0 {
      var t := e[1..];
      var d' := d + [e[0]];
      assert Put(d, e[0].0, e[0].1) == d' by {
        PutNew(d, e[0].0, e[0].1);
      }
      assert forall j :: 0 <= j < |t| ==> t[j].0 !in Keys(d') by {
        KeysAppend(d, [e[0]]);
        forall j | 0 <= j < |t|
          ensures t[j].0 !in Keys(d')
        {
          assert t[j] == e[j + 1];
        }
      }
      TailUnique(e);
      UpdateFresh(d', t);
      assert d' + t == d + e;
    }
  }

  /** `d[k] = v` on dictionaries with the same keys gives dictionaries with the same keys. */
  lemma PutSameKeys<V>(d: Dict<V>, d': Dict<V>, k: string, v: V, v': V)
    requires Keys(d) == Keys(d')
    ensures Keys(Put(d, k, v)) == Keys(Put(d', k, v'))
  {
  }

  /** Updating with batches that assign the same keys in the same order gives the same keys in the same order. */
  lemma {:induction false} UpdateSameKeys<V>(d: Dict<V>, d': Dict<V>, e: Dict<V>, f: Dict<V>)
    requires Keys(d) == Keys(d') && Keys(e) == Keys(f)
    ensures Keys(Update(d, e)) == Keys(Update(d', f))
    decreases |e|
  {
    if |e| > 0 {
      assert e[0].0 == Keys(e)[0] == Keys(f)[0] == f[0].0;
      assert Keys(e[1..]) == Keys(e)[1..] == Keys(f)[1..] == Keys(f[1..]);
      PutSameKeys(d, d', e[0].0, e[0].1, f[0].1);
      UpdateSameKeys(Put(d, e[0].0, e[0].1), Put(d', f[0].0, f[0].1), e[1..], f[1..]);
    }
  }

  lemma {:induction false} UpdateKeepsUnique<V>(d: Dict<V>, e: Dict<V>)
    requires UniqueKeys(d)
    ensures UniqueKeys(Update(d, e))
    decreases |e|
  {
    if |e| > 0 {
      PutKeepsUnique(d, e[0].0, e[0].1);
      UpdateKeepsUnique(Put(d, e[0].0, e[0].1), e[1..]);
    }
  }
}

=== FILE: errors.dfy ===
/**
 * The exceptions the image builder raises, with the message text each one
 * carries.
 */
module Errors {

  datatype Error =
    | UndefinedValue                                   // arithmetic on an undefined size
    | Overlap(part: string, previous: string)          // layout validation
    | StartsBefore(part: string, start: nat, expected: nat)
    | EmptyLabel                                       // `parts[-1]` on an empty list
    | PackRange(value: int)                            // struct.pack("I") out of range
    | CopyTooLarge(size: int, left: int)               // copy_sparse
    | EnvSizeUndefined                                 // U-Boot environment
    | InvalidEnvEntry(line: nat)
    | EnvOverflow(bytes: nat)
    | DuplicateKey(key: string)                        // content registry
    | KeyNotFound(key: string)

  function DigitChar(d: nat): (c: char)
    requires d < 10
    ensures '0' <= c <= '9'
  {
    (('0' as int) + d) as char
  }

  /** Decimal rendering of a natural number, as Python's f-string formatting writes it. */
  function NatToString(n: nat): (s: string)
    ensures |s| > 0
    ensures forall i :: 0 <= i < |s| ==> '0' <= s[i] <= '9'
    decreases n
  {
    if n < 10 then [DigitChar(n)] else NatToString(n / 10) + [DigitChar(n % 10)]
  }

  function IntToString(n: int): string
  {
    if n < 0 then "-" + NatToString(-n) else NatToString(n)
  }

  /**
   * The text of the exception raised for `e`. `UndefinedValue` is raised
   * inside `SizeType`, which is not part of this model, so its text here is a
   * stand-in and not the library's wording.
   */
  function Message(e: Error): string
  {
    match e
    case UndefinedValue => "Operation on an undefined size"
    case Overlap(p, q) => "Part '" + p + "' overlaps with '" + q + "'"
    case StartsBefore(p, s, x) =>
      "Part '" + p + "' starts at " + NatToString(s) + ", but expected on " + NatToString(x)
    case EmptyLabel => "list index out of range"
    case PackRange(v) => "argument out of range"
    case CopyTooLarge(n, left) =>
      "Trying to copy " + IntToString(n) + " B, but the file has only " + IntToString(left) + " B left"
    case EnvSizeUndefined => "Size for U-Boot environment must be defined"
    case InvalidEnvEntry(l) => "Invalid entry in U-Boot environment file (line " + NatToString(l) + ")"
    case EnvOverflow(n) => "U-Boot environment variables overflow storage area by " + NatToString(n) + " bytes"
    case DuplicateKey(k) => "Duplicate key " + k + " in contents"
    case KeyNotFound(k) => "'" + k + "'"
  }
}

=== FILE: gpt.dfy ===
/**
 * The GPT label: protective MBR, primary header, partition table, backup
 * header and table at the end of the image; and the relocation of the
 * partition table when a fixed region occupies its default location.
 */
module Gpt {
  import opened Wrappers
  import opened Errors
  import opened Bytes
  import opened Crc
  import opened Sizes
  import opened Regions
  import Layout

  const TableStart: nat := 1024
  const TableSize: nat := 512 * 32
  const BackupSize: nat := 512 * 33

  /** Byte offsets inside the image of the primary header's fields. */
  const HeaderOffset: nat := 512
  const HeaderSizeField: nat := 512 + 12
  const HeaderCrcField: nat := 512 + 16
  const TableLbaField: nat := 512 + 72

  const PmbrRegion := Region("PMBR Header", Pmbr, Some(0), Some(512), None)
  const HeaderRegion := Region("GPT Header", GptHeader, Some(512), Some(512), None)
  const TableRegion := Region("GPT Partition Table", GptTable, Some(TableStart), Some(TableSize), None)
  const BackupRegion := Region("Secondary GPT Header and Table", GptBackup, None, Some(BackupSize), None)

  const RelocationNotice := "The location for the GPT Partition Table is used by another region. Table will be relocated"

  /** `GPT.prepare`: the label's own structures are added when missing. */
  function WithFixedRegions(parts: seq<Region>): (r: seq<Region>)
    ensures HasKind(r, Pmbr) && HasKind(r, GptHeader) && HasKind(r, GptTable)
    ensures |parts| <= |r| <= |parts| + 3 && r[..|parts|] == parts
    ensures !HasKind(parts, Pmbr) ==> PmbrRegion in r
    ensures !HasKind(parts, GptHeader) ==> HeaderRegion in r
  {
    FixedRegionsAdded(parts);
    AddMissing(AddMissing(AddMissing(parts, PmbrRegion), HeaderRegion), TableRegion)
  }

  /** The facts behind `WithFixedRegions`, for the three appends spelled out. */
  lemma FixedRegionsAdded(parts: seq<Region>)
    ensures var c := AddMissing(AddMissing(AddMissing(parts, PmbrRegion), HeaderRegion), TableRegion);
      |parts| <= |c| <= |parts| + 3 && c[..|parts|] == parts &&
      (!HasKind(parts, Pmbr) ==> PmbrRegion in c) &&
      (!HasKind(parts, GptHeader) ==> HeaderRegion in c)
  {
    var a := AddMissing(parts, PmbrRegion);
    var b := AddMissing(a, HeaderRegion);
    var c := AddMissing(b, TableRegion);
    assert c[..|parts|] == parts by {
      assert a[..|parts|] == parts;
      assert b[..|a|] == a;
      assert c[..|b|] == b;
    }
    assert !HasKind(parts, Pmbr) ==> PmbrRegion in c by {
      if !HasKind(parts, Pmbr) {
        assert a[|parts|] == PmbrRegion;
        assert b[..|a|] == a;
        assert c[..|b|] == b;
        assert c[|parts|] == PmbrRegion;
      }
    }
    assert !HasKind(parts, GptHeader) ==> HeaderRegion in c by {
      if !HasKind(parts, GptHeader) {
        assert !HasKind(a, GptHeader);
        assert b == a + [HeaderRegion];
        assert c[|a|] == HeaderRegion;
      }
    }
  }

  /** Only the label's own structures are added, each under its own kind. */
  lemma WithFixedRegionsAdds(parts: seq<Region>, j: nat)
    requires |parts| <= j < |WithFixedRegions(parts)|
    ensures var x := WithFixedRegions(parts)[j];
      (x == PmbrRegion && !HasKind(parts, Pmbr)) ||
      (x == HeaderRegion && !HasKind(parts, GptHeader)) ||
      (x == TableRegion && !HasKind(parts, GptTable))
  {
    var a := AddMissing(parts, PmbrRegion);
    var b := AddMissing(a, HeaderRegion);
    var c := AddMissing(b, TableRegion);
    if j < |a| {
      assert c[j] == a[j] by {
        assert b[..|a|] == a;
        assert c[..|b|] == b;
      }
    } else if j < |b| {
      assert c[j] == b[j];
      assert HasKind(parts, GptHeader) ==> HasKind(a, GptHeader);
    } else {
      assert HasKind(parts, GptTable) ==> HasKind(b, GptTable);
    }
  }

  // ------------------------------------------------------------- relocation

  /**
   * Region `p` leaves a table starting at `t` alone: it is the table, it
   * floats, or it lies entirely before or after the table.
   */
  predicate Clear(p: Region, t: nat)
  {
    p.start.Some? && !p.kind.GptTable? ==>
      p.start.value >= t + TableSize || (p.size.Some? && p.start.value + p.size.value <= t)
  }

  predicate AllClear(parts: seq<Region>, from: nat, t: nat)
  {
    forall j :: from <= j < |parts| ==> Clear(parts[j], t)
  }

  /** The sector-aligned end of `p`, where a table displaced by `p` moves. */
  function AlignedEnd(p: Region): nat
    requires Placed(p)
  {
    AlignUp(End(p))
  }

  /** The largest aligned end of a placed region: no relocation goes further. */
  function MaxAlignedEnd(parts: seq<Region>): (r: nat)
    ensures forall j :: 0 <= j < |parts| && Placed(parts[j]) ==> AlignedEnd(parts[j]) <= r
  {
    if |parts| == 0 then 0
    else
      var rest := MaxAlignedEnd(parts[1..]);
      assert forall j :: 1 <= j < |parts| ==> parts[j] == parts[1..][j - 1];
      Max(if Placed(parts[0]) then AlignedEnd(parts[0]) else 0, rest)
  }

  function Headroom(parts: seq<Region>, t: nat): nat
  {
    if t < MaxAlignedEnd(parts) then MaxAlignedEnd(parts) - t else 0
  }

  /** A fixed region other than the table whose range reaches into the table's. */
  predicate Collides(p: Region, t: nat)
  {
    p.start.Some? && !p.kind.GptTable? && p.start.value < t + TableSize &&
    p.size.Some? && p.start.value + p.size.value > t
  }

  /** The comparison raises: the size of a fixed region is still undefined. */
  predicate Undecidable(p: Region, t: nat)
  {
    p.start.Some? && !p.kind.GptTable? && p.start.value < t + TableSize && p.size.None?
  }

  lemma ClearCases(p: Region, t: nat)
    ensures Clear(p, t) <==> !Collides(p, t) && !Undecidable(p, t)
  {
  }

  /**
   * `check_for_gpt_relocation` from loop index `i` with the table at `t`.
   * After a move the scan resumes at index `restart`: 0 is what the comment
   * in the loop promises, 1 is what the code does (`i = 0` followed by the
   * loop's own `i += 1`).
   */
  function Scan(parts: seq<Region>, t: nat, i: nat, restart: nat): (r: Result<nat, Error>)
    requires i <= |parts| && restart <= 1
    ensures r.Ok? ==> r.value >= t
    ensures r.Err? ==> r.error == UndefinedValue
    decreases Headroom(parts, t), |parts| - i
  {
    if i == |parts| then Ok(t)
    else
      var p := parts[i];
      if Undecidable(p, t) then Err(UndefinedValue)
      else if Collides(p, t) then
        var t' := AlignedEnd(p);
        assert t < t' <= MaxAlignedEnd(parts);
        Scan(parts, t', restart, restart)
      else Scan(parts, t, i + 1, restart)
  }

  /** A moved table starts at the sector-aligned end of a region it collided with. */
  lemma {:induction false} ScanMovesToRegionEnd(parts: seq<Region>, t: nat, i: nat, restart: nat)
    requires i <= |parts| && restart <= 1
    requires Scan(parts, t, i, restart).Ok? && Scan(parts, t, i, restart).value != t
    ensures Scan(parts, t, i, restart).value % SectorSize == 0
    ensures exists j :: 0 <= j < |parts| && Placed(parts[j]) && Scan(parts, t, i, restart).value == AlignedEnd(parts[j])
    decreases Headroom(parts, t), |parts| - i
  {
    var p := parts[i];
    if Collides(p, t) {
      var t' := AlignedEnd(p);
      assert t < t' <= MaxAlignedEnd(parts);
      if Scan(parts, t', restart, restart).value != t' {
        ScanMovesToRegionEnd(parts, t', restart, restart);
      }
    } else {
      ScanMovesToRegionEnd(parts, t, i + 1, restart);
    }
  }

  /**
   * Where the scan ends, the table is clear of every region from index `i`
   * on, or from index `restart` on once it has moved.
   */
  lemma {:induction false} ScanClears(parts: seq<Region>, t: nat, i: nat, restart: nat)
    requires i <= |parts| && restart <= 1
    requires Scan(parts, t, i, restart).Ok?
    ensures var u := Scan(parts, t, i, restart).value;
      AllClear(parts, if u == t then i else restart, u)
    decreases Headroom(parts, t), |parts| - i
  {
    if i < |parts| {
      var p := parts[i];
      if Collides(p, t) {
        var t' := AlignedEnd(p);
        assert t < t' <= MaxAlignedEnd(parts);
        ScanClears(parts, t', restart, restart);
      } else {
        ScanClears(parts, t, i + 1, restart);
      }
    }
  }

  /** A table already clear of the remaining regions stays where it is. */
  lemma {:induction false} ScanStaysWhenClear(parts: seq<Region>, t: nat, i: nat, restart: nat)
    requires i <= |parts| && restart <= 1
    requires AllClear(parts, i, t)
    ensures Scan(parts, t, i, restart) == Ok(t)
    decreases |parts| - i
  {
    if i < |parts| {
      ScanStaysWhenClear(parts, t, i + 1, restart);
    }
  }

  /** The scan fails only on a fixed region whose size is undefined. */
  lemma {:induction false} ScanFailsOnlyUndefined(parts: seq<Region>, t: nat, i: nat, restart: nat)
    requires i <= |parts| && restart <= 1
    requires forall j :: 0 <= j < |parts| && parts[j].start.Some? ==> parts[j].size.Some?
    ensures Scan(parts, t, i, restart).Ok?
    decreases Headroom(parts, t), |parts| - i
  {
    if i < |parts| {
      var p := parts[i];
      if Collides(p, t) {
        var t' := AlignedEnd(p);
        assert t < t' <= MaxAlignedEnd(parts);
        ScanFailsOnlyUndefined(parts, t', restart, restart);
      } else {
        ScanFailsOnlyUndefined(parts, t, i + 1, restart);
      }
    }
  }

  /**
   * `check_for_gpt_relocation` as written: after a collision the scan
   * resumes at the second region, so the first is not looked at again.
   */
  function Relocate(parts: seq<Region>, t: nat): (r: Result<nat, Error>)
    ensures r.Ok? ==> r.value >= t
  {
    Scan(parts, t, 0, 1)
  }

  /** The relocation as intended: every collision restarts the scan from the first region. */
  function RelocateIntended(parts: seq<Region>, t: nat): (r: Result<nat, Error>)
    ensures r.Ok? ==> r.value >= t
  {
    Scan(parts, t, 0, 0)
  }

  /**
   * The table stays where it is exactly when it is clear there of every
   * fixed region. A moved table starts on a sector boundary at the end of a
   * region it collided with, and is clear of every region but the first,
   * which is not checked again.
   */
  lemma RelocateClears(parts: seq<Region>, t: nat)
    requires Relocate(parts, t).Ok?
    ensures Relocate(parts, t).value == t <==> AllClear(parts, 0, t)
    ensures AllClear(parts, 1, Relocate(parts, t).value)
    ensures Relocate(parts, t).value != t ==>
      Relocate(parts, t).value % SectorSize == 0 &&
      exists j :: 0 <= j < |parts| && Placed(parts[j]) && Relocate(parts, t).value == AlignedEnd(parts[j])
  {
    ScanClears(parts, t, 0, 1);
    if AllClear(parts, 0, t) {
      ScanStaysWhenClear(parts, t, 0, 1);
    }
    if Relocate(parts, t).value != t {
      ScanMovesToRegionEnd(parts, t, 0, 1);
    }
  }

  /**
   * With the restart at the first region, the table ends up clear of every
   * fixed region, the first one included.
   */
  lemma RelocateIntendedClears(parts: seq<Region>, t: nat)
    requires RelocateIntended(parts, t).Ok?
    ensures AllClear(parts, 0, RelocateIntended(parts, t).value)
    ensures RelocateIntended(parts, t).value == t <==> AllClear(parts, 0, t)
    ensures RelocateIntended(parts, t).value != t ==>
      RelocateIntended(parts, t).value % SectorSize == 0 &&
      exists j :: 0 <= j < |parts| && Placed(parts[j]) && RelocateIntended(parts, t).value == AlignedEnd(parts[j])
  {
    ScanClears(parts, t, 0, 0);
    if AllClear(parts, 0, t) {
      ScanStaysWhenClear(parts, t, 0, 0);
    }
    if RelocateIntended(parts, t).value != t {
      ScanMovesToRegionEnd(parts, t, 0, 0);
    }
  }

  /** Relocation fails only for a fixed region whose size is still undefined. */
  lemma RelocateFailsOnlyUndefined(parts: seq<Region>, t: nat)
    requires forall j :: 0 <= j < |parts| && parts[j].start.Some? ==> parts[j].size.Some?
    ensures Relocate(parts, t).Ok?
    ensures RelocateIntended(parts, t).Ok?
  {
    ScanFailsOnlyUndefined(parts, t, 0, 1);
    ScanFailsOnlyUndefined(parts, t, 0, 0);
  }

  /** The regions a user configures in the relocation counterexample. */
  const Late := Region("late", Data, Some(20000), Some(512), None)
  const Early := Region("early", Data, Some(16384), Some(1024), None)

  function LateEarly(): seq<Region>
  {
    [Late, Early]
  }

  /** The same regions with the label's own structures appended. */
  function LateEarlyAll(): seq<Region>
  {
    LateEarly() + [PmbrRegion, HeaderRegion, TableRegion]
  }

  lemma LateEarlyFixed()
    ensures WithFixedRegions(LateEarly()) == LateEarlyAll()
  {
    var s := LateEarly();
    assert !HasKind(s, Pmbr) && !HasKind(s, GptHeader) && !HasKind(s, GptTable);
    var a := s + [PmbrRegion];
    assert !HasKind(a, GptHeader) by {
      forall j | 0 <= j < |a| ensures a[j].kind != GptHeader {
        if j < |s| { assert a[j] == s[j]; }
      }
    }
    var b := a + [HeaderRegion];
    assert !HasKind(b, GptTable) by {
      forall j | 0 <= j < |b| ensures b[j].kind != GptTable {
        if j < |a| { assert b[j] == a[j]; }
      }
    }
    assert b + [TableRegion] == LateEarlyAll();
  }

  /**
   * The region at 20000 is looked at first and is clear of the default
   * table; the region at 16384 then pushes the table to 17408, onto the
   * first region, and the scan as written never looks at the first region
   * again.
   */
  lemma {:induction false} RelocateMissesCollision(parts: seq<Region>)
    requires parts == LateEarlyAll()
    ensures Relocate(parts, TableStart) == Ok(17408)
    ensures Collides(parts[0], 17408)
  {
    assert Scan(parts, 17408, 5, 1) == Ok(17408);
    assert Scan(parts, 17408, 4, 1) == Ok(17408);
    assert Scan(parts, 17408, 3, 1) == Ok(17408);
    assert Scan(parts, 17408, 2, 1) == Ok(17408);
    assert Scan(parts, 17408, 1, 1) == Ok(17408);
    assert AlignedEnd(parts[1]) == 17408;
    assert Scan(parts, TableStart, 1, 1) == Ok(17408);
  }

  /** Restarting from the first region moves the table past both regions. */
  lemma {:induction false} RelocateIntendedFindsCollision(parts: seq<Region>)
    requires parts == LateEarlyAll()
    ensures RelocateIntended(parts, TableStart) == Ok(20992)
    ensures AllClear(parts, 0, 20992)
  {
    assert Scan(parts, 20992, 5, 0) == Ok(20992);
    assert Scan(parts, 20992, 4, 0) == Ok(20992);
    assert Scan(parts, 20992, 3, 0) == Ok(20992);
    assert Scan(parts, 20992, 2, 0) == Ok(20992);
    assert Scan(parts, 20992, 1, 0) == Ok(20992);
    assert Scan(parts, 20992, 0, 0) == Ok(20992);
    assert AlignedEnd(parts[0]) == 20992;
    assert Scan(parts, 17408, 0, 0) == Ok(20992);
    assert AlignedEnd(parts[1]) == 17408;
    assert Scan(parts, TableStart, 1, 0) == Ok(20992);
    ScanClears(parts, TableStart, 0, 0);
  }

  /**
   * The relocation loop of `check_for_gpt_relocation`, with the notice it
   * prints when the table moved: a collision resets the index to 0 and the
   * loop's own increment follows.
   */
  method CheckForRelocation(parts: seq<Region>, t0: nat) returns (r: Result<nat, Error>, notice: Option<string>)
    ensures r == Relocate(parts, t0)
    ensures r.Ok? ==> AllClear(parts, if r.value == t0 then 0 else 1, r.value)
    ensures notice == (if r.Ok? && r.value != t0 then Some(RelocationNotice) else None)
  {
    var t := t0;
    var i := 0;
    var relocated := false;
    while i < |parts|
      invariant i <= |parts|
      invariant t >= t0 && (relocated <==> t != t0)
      invariant relocated ==> i >= 1
      invariant Scan(parts, t, i, 1) == Relocate(parts, t0)
      decreases Headroom(parts, t), |parts| - i
    {
      var p := parts[i];
      if Undecidable(p, t) {
        return Err(UndefinedValue), None;
      }
      if Collides(p, t) {
        var sectors := (p.start.value + p.size.value + SectorSize - 1) / SectorSize;
        assert sectors * SectorSize == AlignedEnd(p) > t;
        t := sectors * SectorSize;
        relocated := true;
        i := 0;
      }
      i := i + 1;
    }
    r := Ok(t);
    ScanClears(parts, t0, 0, 1);
    notice := if relocated then Some(RelocationNotice) else None;
  }

  // ------------------------------------------------------------ preparation

  /** The label after `prepare`, with the table's state. */
  datatype Prepared = Prepared(parts: seq<Region>, tableStart: nat, relocated: bool, backupStart: nat)

  /** Every table region is moved to the relocated start. */
  function MoveTable(parts: seq<Region>, t: nat): (r: seq<Region>)
    ensures |r| == |parts|
    ensures forall j :: 0 <= j < |r| ==> r[j] == parts[j].(start := r[j].start)
    ensures forall j :: 0 <= j < |r| ==> r[j].start == if parts[j].kind.GptTable? then Some(t) else parts[j].start
  {
    seq(|parts|, j requires 0 <= j < |parts| =>
      if parts[j].kind.GptTable? then parts[j].(start := Some(t)) else parts[j])
  }

  /**
   * The end of `GPT.prepare`: the backup header and table go right after
   * the region sorted last, and the table's state is recorded.
   */
  function Finish(placed: seq<Region>, t: nat): (r: Prepared)
    requires |placed| > 0 && AllPlaced(placed) && Layout.Sorted(placed) && Layout.StartsCoverSizes(placed)
    ensures r.tableStart == t && (r.relocated <==> t != TableStart)
    ensures |r.parts| == |placed| + 1 && r.parts[..|placed|] == placed
    ensures AllPlaced(r.parts) && Layout.Sorted(r.parts) && Layout.StartsCoverSizes(r.parts)
    ensures r.parts[|r.parts| - 1] == BackupRegion.(start := Some(r.backupStart))
    ensures r.backupStart == End(r.parts[|r.parts| - 2]) == End(placed[|placed| - 1])
  {
    var backup := BackupRegion.(start := Some(End(placed[|placed| - 1])));
    var ps := placed + [backup];
    Layout.CoverAppend(placed, backup);
    assert ps[..|placed|] == placed && ps[|ps| - 2] == placed[|placed| - 1];
    Prepared(ps, t, t != TableStart, End(placed[|placed| - 1]))
  }

  /** A relocated table starts on a sector boundary. */
  lemma RelocateAligned(all: seq<Region>)
    requires Relocate(all, TableStart).Ok?
    ensures Relocate(all, TableStart).value % SectorSize == 0
  {
    if Relocate(all, TableStart).value != TableStart {
      ScanMovesToRegionEnd(all, TableStart, 0, 1);
    }
  }

  /**
   * `GPT.prepare`: add the missing structures, relocate the table, run the
   * common layout, then append the backup header and table after the
   * region sorted last.
   */
  function Prepare(parts: seq<Region>, cp: ContentPrepare): (r: Result<Prepared, Error>)
    ensures r.Ok? ==> Relocate(WithFixedRegions(parts), TableStart) == Ok(r.value.tableStart)
    ensures r.Ok? ==> (r.value.relocated <==> r.value.tableStart != TableStart)
    ensures r.Ok? ==> r.value.tableStart >= TableStart && r.value.tableStart % SectorSize == 0
    ensures r.Ok? ==>
      var moved := MoveTable(WithFixedRegions(parts), r.value.tableStart);
      Layout.Prepare(moved, cp).Ok? && r.value == Finish(Layout.Prepare(moved, cp).value, r.value.tableStart)
  {
    var all := WithFixedRegions(parts);
    var t :- Relocate(all, TableStart);
    RelocateAligned(all);
    var placed :- Layout.Prepare(MoveTable(all, t), cp);
    Ok(Finish(placed, t))
  }

  /**
   * What a successful preparation holds: the layout of the label's regions
   * with the table moved, then the backup header and table.
   */
  lemma PrepareShape(parts: seq<Region>, cp: ContentPrepare)
    requires Prepare(parts, cp).Ok?
    ensures var r := Prepare(parts, cp).value;
      var ps := r.parts;
      var moved := MoveTable(WithFixedRegions(parts), r.tableStart);
      |ps| == |moved| + 1 && PrepareAll(moved, cp).Ok? &&
      Layout.PlacementOf(PrepareAll(moved, cp).value, ps[..|moved|]) &&
      AllPlaced(ps) && Layout.Sorted(ps) && Layout.StartsCoverSizes(ps) &&
      ps[|ps| - 1] == BackupRegion.(start := Some(r.backupStart)) &&
      r.backupStart == End(ps[|ps| - 2])
  {
    var r := Prepare(parts, cp).value;
    var moved := MoveTable(WithFixedRegions(parts), r.tableStart);
    var placed := Layout.Prepare(moved, cp).value;
    assert r == Finish(placed, r.tableStart);
  }

  /** Moving the table leaves every other region as it is. */
  lemma MoveTableKeeps(parts: seq<Region>, t: nat, x: Region)
    requires x in parts && !x.kind.GptTable?
    ensures x in MoveTable(parts, t)
  {
    var k :| 0 <= k < |parts| && parts[k] == x;
    assert MoveTable(parts, t)[k] == x;
  }

  /** The counterexample with the table moved to 17408. */
  const MovedTable := TableRegion.(start := Some(17408))

  function LateEarlyMoved(): seq<Region>
  {
    [Late, Early, PmbrRegion, HeaderRegion, MovedTable]
  }

  /** The same regions in the order of their starts. */
  function LateEarlySorted(): seq<Region>
  {
    [PmbrRegion, HeaderRegion, Early, MovedTable, Late]
  }

  lemma LateEarlyMovedPrepared(s: seq<Region>, cp: ContentPrepare)
    requires s == LateEarlyMoved()
    ensures MoveTable(LateEarlyAll(), 17408) == s
    ensures PrepareAll(s, cp) == Ok(s)
  {
    assert PrepareAll(s, cp).value == s;
  }

  /** One step of the insertion sort. */
  lemma SortStep(x: Region, t: seq<Region>, st: seq<Region>)
    requires Layout.Sort(t) == st
    ensures Layout.Sort([x] + t) == Layout.Insert(x, st)
  {
    assert ([x] + t)[1..] == t;
  }

  lemma InsertSteps()
    ensures Layout.Insert(HeaderRegion, [MovedTable]) == [HeaderRegion, MovedTable]
    ensures Layout.Insert(PmbrRegion, [HeaderRegion, MovedTable]) == [PmbrRegion, HeaderRegion, MovedTable]
  {
  }

  lemma InsertEarly()
    ensures Layout.Insert(Early, [PmbrRegion, HeaderRegion, MovedTable]) == [PmbrRegion, HeaderRegion, Early, MovedTable]
  {
    Layout.InsertAt(Early, [PmbrRegion, HeaderRegion], [MovedTable]);
    assert [PmbrRegion, HeaderRegion] + [MovedTable] == [PmbrRegion, HeaderRegion, MovedTable];
  }

  lemma InsertLate()
    ensures Layout.Insert(Late, [PmbrRegion, HeaderRegion, Early, MovedTable]) == LateEarlySorted()
  {
    var a := [PmbrRegion, HeaderRegion, Early, MovedTable];
    Layout.InsertAt(Late, a, []);
    assert a + [] == a;
  }

  lemma LateEarlySort()
    ensures Layout.Sort(LateEarlyMoved()) == LateEarlySorted()
  {
    assert Layout.Sort([MovedTable]) == [MovedTable] by {
      SortStep(MovedTable, [], []);
    }
    InsertSteps();
    SortStep(HeaderRegion, [MovedTable], [MovedTable]);
    SortStep(PmbrRegion, [HeaderRegion, MovedTable], [HeaderRegion, MovedTable]);
    InsertEarly();
    SortStep(Early, [PmbrRegion, HeaderRegion, MovedTable], [PmbrRegion, HeaderRegion, MovedTable]);
    InsertLate();
    SortStep(Late, [Early, PmbrRegion, HeaderRegion, MovedTable], [PmbrRegion, HeaderRegion, Early, MovedTable]);
  }

  lemma LateEarlySums(u: seq<Region>)
    requires u == LateEarlySorted()
    ensures AllPlaced(u)
    ensures Layout.SumBefore(u, 1) == 512 && Layout.SumBefore(u, 2) == 1024
    ensures Layout.SumBefore(u, 3) == 2048 && Layout.SumBefore(u, 4) == 18432
  {
    assert Layout.SumBefore(u, 1) == 512;
    assert Layout.SumBefore(u, 2) == 1024;
    assert Layout.SumBefore(u, 3) == 2048;
  }

  lemma LateEarlyValid(u: seq<Region>)
    requires u == LateEarlySorted()
    ensures AllPlaced(u) && Layout.Validate(u) == Ok(u)
  {
    LateEarlySortedIsSorted(u);
    Layout.SortIdempotent(u);
    LateEarlyCovers(u);
  }

  lemma LateEarlyCovers(u: seq<Region>)
    requires u == LateEarlySorted()
    ensures AllPlaced(u) && Layout.StartsCoverSizes(u)
  {
    LateEarlySums(u);
    forall j | 0 <= j < |u|
      ensures u[j].start.value >= Layout.SumBefore(u, j)
    {
      if j == 0 {
      } else if j == 1 {
      } else if j == 2 {
      } else if j == 3 {
      } else {
      }
    }
  }

  lemma LateEarlySortedIsSorted(u: seq<Region>)
    requires u == LateEarlySorted()
    ensures Layout.Sorted(u)
  {
    assert Layout.SortedAdjacent(u);
    Layout.AdjacentIsSorted(u);
  }

  lemma LateEarlySortedPlaced(u: seq<Region>)
    requires u == LateEarlySorted()
    ensures AllPlaced(u) && Layout.AssignStarts(u, 0) == Ok(u)
  {
    assert AllPlaced(u);
    Layout.AssignKeepsPlaced(u, 0);
  }

  lemma LateEarlyArranged(s: seq<Region>)
    requires s == LateEarlyMoved()
    ensures Layout.Arrange(s) == Ok(LateEarlySorted())
  {
    LateEarlySort();
    LateEarlySortedPlaced(LateEarlySorted());
  }

  lemma LateEarlyPlaced(s: seq<Region>)
    requires s == LateEarlyMoved()
    ensures Layout.Place(s) == Ok(LateEarlySorted())
  {
    LateEarlyArranged(s);
    LateEarlyValid(LateEarlySorted());
  }

  /** The preparation once the relocation and the common layout are known. */
  lemma PrepareValue(parts: seq<Region>, cp: ContentPrepare, t: nat, placed: seq<Region>)
    requires Relocate(WithFixedRegions(parts), TableStart) == Ok(t)
    requires Layout.Prepare(MoveTable(WithFixedRegions(parts), t), cp) == Ok(placed)
    ensures |placed| > 0 && AllPlaced(placed) && Layout.Sorted(placed) && Layout.StartsCoverSizes(placed)
    ensures Prepare(parts, cp) == Ok(Finish(placed, t))
  {
  }

  /**
   * On the counterexample the whole preparation as written succeeds with
   * the partition table at 17408, where it shares the bytes 20000 to 20511
   * with the region the user placed there.
   */
  lemma PrepareOverlapsTable(cp: ContentPrepare)
    ensures Prepare(LateEarly(), cp) ==
      Ok(Prepared(LateEarlySorted() + [BackupRegion.(start := Some(20512))], 17408, true, 20512))
    ensures Overlaps(MovedTable, Late)
  {
    LateEarlyFixed();
    RelocateMissesCollision(LateEarlyAll());
    var s := LateEarlyMoved();
    LateEarlyMovedPrepared(s, cp);
    LateEarlyPlaced(s);
    PrepareValue(LateEarly(), cp, 17408, LateEarlySorted());
    assert Finish(LateEarlySorted(), 17408) ==
      Prepared(LateEarlySorted() + [BackupRegion.(start := Some(20512))], 17408, true, 20512);
  }

  /**
   * A sorted layout that passes the size check cannot hold a region
   * reaching into the primary header's sector next to the protective MBR
   * and the header: the sizes of two of them already exceed the third's
   * start.
   */
  lemma HeaderSqueezed(r: seq<Region>, p: Region)
    requires AllPlaced(r) && Layout.Sorted(r)
    requires PmbrRegion in r && HeaderRegion in r && p in r && p.kind.Data?
    requires Placed(p) && p.start.value < 1024 && 512 < End(p)
    ensures !Layout.StartsCoverSizes(r)
  {
    var a :| 0 <= a < |r| && r[a] == PmbrRegion;
    var h :| 0 <= h < |r| && r[h] == HeaderRegion;
    var q :| 0 <= q < |r| && r[q] == p;
    assert a < h;
    if q < h {
      assert KeyLe(r[q].start, r[h].start);
      if a < q {
        Layout.SumBeforeTwo(r, h, a, q);
      } else {
        Layout.SumBeforeTwo(r, h, q, a);
      }
      assert r[h].start.value < Layout.SumBefore(r, h);
    } else {
      assert KeyLe(r[h].start, r[q].start);
      Layout.SumBeforeTwo(r, q, a, h);
      assert r[q].start.value < Layout.SumBefore(r, q);
    }
  }

  /** A fixed region without content, not the table, between the header's start and the table's. */
  predicate InHeaderSector(p: Region)
  {
    !p.kind.GptTable? && p.content.None? && Placed(p) &&
    HeaderRegion.start.value <= p.start.value < TableStart && End(p) <= TableStart
  }

  /**
   * A label holding its three fixed regions and a region placed in the
   * primary header's sector: preparation fails naming that region and the
   * header it runs into.
   */
  lemma HeaderOverlapNamed(p: Region, cp: ContentPrepare)
    requires InHeaderSector(p)
    ensures Prepare([PmbrRegion, HeaderRegion, TableRegion, p], cp) == Err(Overlap(p.name, "GPT Header"))
  {
    var parts := [PmbrRegion, HeaderRegion, TableRegion, p];
    NamedOverlapStays(parts, p);
    NamedOverlapLayout(parts, p, cp);
  }

  /** The three fixed regions are present and the region leaves the table where it is. */
  lemma NamedOverlapStays(parts: seq<Region>, p: Region)
    requires InHeaderSector(p) && parts == [PmbrRegion, HeaderRegion, TableRegion, p]
    ensures WithFixedRegions(parts) == parts && Relocate(parts, TableStart) == Ok(TableStart)
    ensures MoveTable(parts, TableStart) == parts
  {
    assert parts[0].kind == Pmbr && parts[1].kind == GptHeader && parts[2].kind == GptTable;
    assert Scan(parts, TableStart, 4, 1) == Ok(TableStart);
    assert Scan(parts, TableStart, 3, 1) == Ok(TableStart);
    assert Scan(parts, TableStart, 2, 1) == Ok(TableStart);
    assert Scan(parts, TableStart, 1, 1) == Ok(TableStart);
  }

  /** Sorted, the region follows the header and starts before the header's end. */
  lemma NamedOverlapLayout(parts: seq<Region>, p: Region, cp: ContentPrepare)
    requires InHeaderSector(p) && parts == [PmbrRegion, HeaderRegion, TableRegion, p]
    ensures Layout.Prepare(parts, cp) == Err(Overlap(p.name, "GPT Header"))
  {
    FourPrepared(PmbrRegion, HeaderRegion, TableRegion, p, cp);
    HeaderSectorPlaced(PmbrRegion, HeaderRegion, TableRegion, p);
  }

  lemma FourPrepared(a: Region, h: Region, t: Region, p: Region, cp: ContentPrepare)
    requires a.content.None? && h.content.None? && t.content.None? && p.content.None?
    ensures PrepareAll([a, h, t, p], cp) == Ok([a, h, t, p])
  {
    var s := [a, h, t, p];
    forall i | 0 <= i < |s|
      ensures PrepareRegion(s[i], cp) == Ok(s[i])
    {
      assert s[i].content.None?;
    }
    assert PrepareAll(s, cp).value == s;
  }

  /**
   * Regions at 0 and 512 of a sector each, one at `TableStart`, and `p`
   * between the second's start and `TableStart`: the layout refuses `p`
   * as overlapping the second.
   */
  lemma HeaderSectorPlaced(a: Region, h: Region, t: Region, p: Region)
    requires a.start == Some(0) && a.size == Some(512)
    requires h.start == Some(512) && h.size == Some(512)
    requires t.start == Some(TableStart) && t.size.Some?
    requires Placed(p) && 512 <= p.start.value < TableStart
    ensures Layout.Place([a, h, t, p]) == Err(Overlap(p.name, h.name))
  {
    FourPlaced(a, h, t, p);
    HeaderSectorSorted(a, h, t, p);
    var sorted := Layout.Sort([a, h, t, p]);
    assert sorted[0] == a && sorted[1] == h && sorted[2] == p;
    HeaderSectorRefused([a, h, t, p]);
  }

  lemma FourPlaced(a: Region, h: Region, t: Region, p: Region)
    requires Placed(a) && Placed(h) && Placed(t) && Placed(p)
    ensures AllPlaced([a, h, t, p])
  {
    var s := [a, h, t, p];
    forall i | 0 <= i < |s|
      ensures Placed(s[i])
    {
    }
  }

  /** `Place` on four fixed regions whose third, once sorted, starts inside the second. */
  lemma HeaderSectorRefused(s: seq<Region>)
    requires |s| == 4 && AllPlaced(s)
    requires var r := Layout.Sort(s);
      r[0].start == Some(0) && r[0].size == Some(512) &&
      r[1].start == Some(512) && r[1].size == Some(512) && r[2].start.Some? && r[2].start.value < TableStart
    ensures Layout.Place(s) == Err(Overlap(Layout.Sort(s)[2].name, Layout.Sort(s)[1].name))
  {
    var sorted := Layout.Sort(s);
    Layout.ArrangeFixed(s);
    Layout.PermutationKeepsPlaced(s, sorted);
    Layout.SortIdempotent(sorted);
    HeaderSectorChecked(sorted);
  }

  /** The sequences of `HeaderSectorSorted`, built up one region at a time. */
  lemma HeaderSectorShape(a: Region, h: Region, t: Region, p: Region)
    ensures [a, h, t, p] == [a] + ([h] + ([t] + [p]))
    ensures [a, h, p, t] == [a] + ([h] + ([p] + [t]))
    ensures [p] + [] == [p]
  {
  }

  lemma HeaderSectorSorted(a: Region, h: Region, t: Region, p: Region)
    requires a.start == Some(0) && h.start == Some(512) && t.start == Some(TableStart)
    requires p.start.Some? && 512 <= p.start.value < TableStart
    ensures Layout.Sort([a, h, t, p]) == [a, h, p, t]
  {
    HeaderSectorShape(a, h, t, p);
    Layout.SortCons(p, []);
    Layout.SortCons(t, [p]);
    Layout.InsertPast(t, p, []);
    Layout.SortCons(h, [t] + [p]);
    Layout.InsertFront(h, [p] + [t]);
    Layout.SortCons(a, [h] + ([t] + [p]));
    Layout.InsertFront(a, [h] + ([p] + [t]));
  }

  /** The sizes check stops at the third region, which starts inside the second. */
  lemma HeaderSectorChecked(s: seq<Region>)
    requires |s| == 4 && AllPlaced(s) && Layout.Sort(s) == s
    requires s[0].start == Some(0) && s[0].size == Some(512)
    requires s[1].start == Some(512) && s[1].size == Some(512)
    requires s[2].start.value < TableStart
    ensures Layout.Validate(s) == Err(Overlap(s[2].name, s[1].name))
  {
    assert Layout.SumBefore(s, 1) == 512;
    assert Layout.SumBefore(s, 2) == 1024;
    var e := Overlap(s[2].name, s[1].name);
    assert Layout.Shortfall(s, 2, 1024) == e;
    assert Layout.CheckSizesFrom(s, 2, 1024) == Some(e);
    assert Layout.CheckSizesFrom(s, 1, 512) == Some(e);
    assert Layout.CheckSizesFrom(s, 0, 0) == Some(e);
  }

  /**
   * A fixed region reaching into the primary header's sector is refused
   * when the label adds the protective MBR and the header itself.
   */
  lemma HeaderOverlapRefused(parts: seq<Region>, cp: ContentPrepare, p: Region)
    requires !HasKind(parts, GptHeader) && !HasKind(parts, Pmbr)
    requires p in parts && p.kind.Data? && p.content.None? && Placed(p)
    requires p.start.value < 1024 && 512 < End(p)
    ensures Prepare(parts, cp).Err?
  {
    var all := WithFixedRegions(parts);
    if Relocate(all, TableStart).Ok? {
      var t := Relocate(all, TableStart).value;
      var moved := MoveTable(all, t);
      if Layout.Prepare(moved, cp).Ok? {
        var prepared := PrepareAll(moved, cp).value;
        var r := Layout.Prepare(moved, cp).value;
        assert p in all by {
          assert all[..|parts|] == parts;
        }
        MoveTableKeeps(all, t, PmbrRegion);
        MoveTableKeeps(all, t, HeaderRegion);
        MoveTableKeeps(all, t, p);
        PrepareAllKeeps(moved, cp, PmbrRegion);
        PrepareAllKeeps(moved, cp, HeaderRegion);
        PrepareAllKeeps(moved, cp, p);
        HeaderSqueezed(r, p);
      }
    }
  }

  // ---------------------------------------------------------------- writing

  /** The CRC field holds the CRC-32 of the header read with the CRC field zeroed. */
  predicate HeaderCrcValid(g: seq<byte>)
  {
    |g| >= HeaderCrcField + 4 &&
    var size := Le32Value(g[HeaderSizeField .. HeaderSizeField + 4]);
    Le32Value(g[HeaderCrcField .. HeaderCrcField + 4]) ==
      Crc32(ReadAt(WriteAt(g, HeaderCrcField, Le32(0)), HeaderOffset, size))
  }

  /**
   * The header part of `GPTPartitionTable.write`: point the header at the
   * table's sector and recompute the header's CRC.
   */
  function PatchHeader(f: seq<byte>, start: nat): (r: Result<seq<byte>, Error>)
    ensures r.Err? <==> start / SectorSize >= TwoTo32
    ensures r.Err? ==> r.error == PackRange(start / SectorSize)
    ensures r.Ok? ==> |r.value| == Max(|f|, TableLbaField + 4)
    ensures r.Ok? ==> r.value[TableLbaField .. TableLbaField + 4] == Le32(start / SectorSize)
    ensures r.Ok? ==> HeaderCrcValid(r.value)
    ensures r.Ok? ==> forall k :: 0 <= k < |r.value| ==>
      (HeaderCrcField <= k < HeaderCrcField + 4 || TableLbaField <= k < TableLbaField + 4 ||
       r.value[k] == (if k < |f| then f[k] else 0))
  {
    var lba := start / SectorSize;
    if lba >= TwoTo32 then Err(PackRange(lba))
    else
      var f1 := WriteAt(f, TableLbaField, Le32(lba));
      var size := Le32Value(ReadAt(f1, HeaderSizeField, 4));
      var f2 := WriteAt(f1, HeaderCrcField, Le32(0));
      var crc := Crc32(ReadAt(f2, HeaderOffset, size));
      var f3 := WriteAt(f2, HeaderCrcField, Le32(crc));
      PatchedHeader(f, lba, f1, f2, crc, f3);
      Ok(f3)
  }

  /** The three writes of `PatchHeader`, given their results. */
  lemma PatchedHeader(f: seq<byte>, lba: nat, f1: seq<byte>, f2: seq<byte>, crc: nat, f3: seq<byte>)
    requires lba < TwoTo32 && crc < TwoTo32
    requires f1 == WriteAt(f, TableLbaField, Le32(lba))
    requires f2 == WriteAt(f1, HeaderCrcField, Le32(0))
    requires crc == Crc32(ReadAt(f2, HeaderOffset, Le32Value(ReadAt(f1, HeaderSizeField, 4))))
    requires f3 == WriteAt(f2, HeaderCrcField, Le32(crc))
    ensures |f3| == Max(|f|, TableLbaField + 4)
    ensures f3[TableLbaField .. TableLbaField + 4] == Le32(lba)
    ensures HeaderCrcValid(f3)
    ensures forall k :: 0 <= k < |f3| ==>
      (HeaderCrcField <= k < HeaderCrcField + 4 || TableLbaField <= k < TableLbaField + 4 ||
       f3[k] == (if k < |f| then f[k] else 0))
  {
    assert f3[HeaderSizeField .. HeaderSizeField + 4] == ReadAt(f1, HeaderSizeField, 4);
    WriteTwice(f2, HeaderCrcField, Le32(crc), Le32(0));
    WriteTwice(f1, HeaderCrcField, Le32(0), Le32(0));
    assert Le32Value(f3[HeaderCrcField .. HeaderCrcField + 4]) == crc by {
      assert f3[HeaderCrcField .. HeaderCrcField + 4] == Le32(crc);
    }
  }

  /** A second write over the same range replaces the first. */
  lemma WriteTwice(f: seq<byte>, off: nat, a: seq<byte>, b: seq<byte>)
    requires |a| == |b| > 0
    ensures WriteAt(WriteAt(f, off, a), off, b) == WriteAt(f, off, b)
  {
  }

  /**
   * `GPTPartitionTable.write`: nothing when the table stayed in place;
   * otherwise patch the header and copy the table from the backup.
   */
  function WriteTable(f: seq<byte>, start: nat, backupStart: nat, relocated: bool): (r: Result<seq<byte>, Error>)
    ensures !relocated ==> r == Ok(f)
    ensures relocated ==> (r.Err? <==> start / SectorSize >= TwoTo32)
    ensures relocated && r.Ok? ==>
      var patched := PatchHeader(f, start).value;
      var table := ReadAt(patched, backupStart, TableSize);
      r.value == WriteAt(patched, start, table)
  {
    if !relocated then Ok(f)
    else
      var patched :- PatchHeader(f, start);
      var table := ReadAt(patched, backupStart, TableSize);
      Ok(WriteAt(patched, start, table))
  }

  /** Header validity only looks at the first two sectors when the header fits its sector. */
  lemma CrcValidFromPrefix(g: seq<byte>, h: seq<byte>)
    requires |g| >= TableStart && |h| >= TableStart && g[..TableStart] == h[..TableStart]
    requires Le32Value(g[HeaderSizeField .. HeaderSizeField + 4]) <= 512
    requires HeaderCrcValid(h)
    ensures HeaderCrcValid(g)
  {
    assert g[HeaderSizeField .. HeaderSizeField + 4] == h[HeaderSizeField .. HeaderSizeField + 4];
    assert g[HeaderCrcField .. HeaderCrcField + 4] == h[HeaderCrcField .. HeaderCrcField + 4];
    var size := Le32Value(g[HeaderSizeField .. HeaderSizeField + 4]);
    var zg := WriteAt(g, HeaderCrcField, Le32(0));
    var zh := WriteAt(h, HeaderCrcField, Le32(0));
    assert ReadAt(zg, HeaderOffset, size) == ReadAt(zh, HeaderOffset, size);
  }

  /** The copy of the table lands at the new start and leaves the header sectors alone. */
  lemma CopyTableEffect(patched: seq<byte>, start: nat, backupStart: nat)
    requires start >= TableStart && |patched| >= TableStart
    requires backupStart + TableSize <= |patched|
    ensures var g := WriteAt(patched, start, ReadAt(patched, backupStart, TableSize));
      |g| >= TableStart && g[..TableStart] == patched[..TableStart] &&
      g[start .. start + TableSize] == patched[backupStart .. backupStart + TableSize]
  {
    var table := ReadAt(patched, backupStart, TableSize);
    assert table == patched[backupStart .. backupStart + TableSize];
    var g := WriteAt(patched, start, table);
    assert g[..TableStart] == patched[..TableStart];
    assert g[start .. start + TableSize] == table;
  }

  /**
   * After a relocation past the primary header, the image holds the backup
   * table at the table's new place, points the header at it and carries a
   * valid header CRC, as long as the header's size field keeps the header
   * inside its sector.
   */
  lemma WriteTableConsistent(f: seq<byte>, start: nat, backupStart: nat)
    requires start >= TableStart && start / SectorSize < TwoTo32
    requires backupStart >= TableStart && backupStart + TableSize <= |f|
    requires Le32Value(f[HeaderSizeField .. HeaderSizeField + 4]) <= 512
    ensures WriteTable(f, start, backupStart, true).Ok?
    ensures var g := WriteTable(f, start, backupStart, true).value;
      g[start .. start + TableSize] == f[backupStart .. backupStart + TableSize] &&
      g[TableLbaField .. TableLbaField + 4] == Le32(start / SectorSize) &&
      HeaderCrcValid(g)
  {
    var patched := PatchHeader(f, start).value;
    PatchKeeps(f, patched, backupStart, backupStart + TableSize);
    PatchKeeps(f, patched, HeaderSizeField, HeaderSizeField + 4);
    CopyTableEffect(patched, start, backupStart);
    var g := WriteAt(patched, start, ReadAt(patched, backupStart, TableSize));
    assert WriteTable(f, start, backupStart, true) == Ok(g);
    assert g[start .. start + TableSize] == f[backupStart .. backupStart + TableSize];
    SliceOfPrefix(g, patched, TableStart, TableLbaField, TableLbaField + 4);
    SliceOfPrefix(g, patched, TableStart, HeaderSizeField, HeaderSizeField + 4);
    CrcValidFromPrefix(g, patched);
  }

  /** Patching the header leaves every byte range outside its two fields as it was. */
  lemma PatchKeeps(f: seq<byte>, p: seq<byte>, a: nat, b: nat)
    requires a <= b <= |f| <= |p|
    requires forall k :: 0 <= k < |p| ==>
      (HeaderCrcField <= k < HeaderCrcField + 4 || TableLbaField <= k < TableLbaField + 4 ||
       p[k] == (if k < |f| then f[k] else 0))
    requires b <= HeaderCrcField || TableLbaField + 4 <= a
    ensures p[a..b] == f[a..b]
  {
    assert forall i :: 0 <= i < b - a ==> p[a..b][i] == f[a..b][i];
  }

  /** Two byte strings with the same first `n` bytes agree on every slice inside them. */
  lemma SliceOfPrefix(g: seq<byte>, p: seq<byte>, n: nat, a: nat, b: nat)
    requires a <= b <= n <= |g| && n <= |p| && g[..n] == p[..n]
    ensures g[a..b] == p[a..b]
  {
    assert g[a..b] == g[..n][a..b] && p[a..b] == p[..n][a..b];
  }
}

=== FILE: image.dfy ===
/**
 * The image file helpers: an empty sparse image, and the sparse copy that
 * every content uses to put its bytes into the image.
 */
module Image {
  import opened Wrappers
  import opened Errors
  import opened Bytes

  /** Only blocks of this many zero bytes are turned into holes. */
  const BlockSize: nat := 4096

  /** `create_empty_image`: truncating a new file to `size` gives that many zero bytes. */
  function CreateEmptyImage(size: nat): (r: seq<byte>)
    ensures |r| == size && AllZero(r)
  {
    Zeros(size)
  }

  /** A block is made sparse only when it is a full block of zeros. */
  predicate IsZeroBlock(data: seq<byte>)
  {
    data == Zeros(BlockSize)
  }

  /** The input byte that belongs at output offset `k`, once the output has reached `op`. */
  function WindowByte(inp: seq<byte>, inPos: nat, outPos: nat, op: nat, k: nat): byte
    requires outPos <= k < op && inPos + (op - outPos) <= |inp|
  {
    inp[inPos + (k - outPos)]
  }

  /**
   * The output byte at `k` once everything up to output offset `op` has
   * been copied: the input inside the window, the old output before it,
   * zeros in a gap past the old end.
   */
  function Expected(out: seq<byte>, outPos: nat, inp: seq<byte>, inPos: nat, op: nat, k: nat): byte
    requires outPos <= op && (op == outPos || inPos + (op - outPos) <= |inp|)
  {
    if outPos <= k < op then WindowByte(inp, inPos, outPos, op, k) else if k < |out| then out[k] else 0
  }

  /**
   * The copy loop's invariant: every byte present is the expected one, and
   * a byte not yet present (a hole punched past the end) is expected to be zero.
   */
  predicate CopiedUpTo(out: seq<byte>, outPos: nat, inp: seq<byte>, inPos: nat, o: seq<byte>, op: nat)
  {
    outPos <= op && (op == outPos || inPos + (op - outPos) <= |inp|) &&
    |out| <= |o| <= Max(|out|, op) &&
    (forall k :: 0 <= k < |o| ==> o[k] == Expected(out, outPos, inp, inPos, op, k)) &&
    (forall k :: |o| <= k < op && outPos <= k ==> WindowByte(inp, inPos, outPos, op, k) == 0)
  }

  /** Writing the next block of input keeps the invariant. */
  lemma WriteStep(out: seq<byte>, outPos: nat, inp: seq<byte>, inPos: nat, o: seq<byte>, op: nat, ip: nat, b: nat)
    requires CopiedUpTo(out, outPos, inp, inPos, o, op) && ip == inPos + (op - outPos)
    requires ip + b <= |inp| && b > 0
    ensures CopiedUpTo(out, outPos, inp, inPos, WriteAt(o, op, inp[ip .. ip + b]), op + b)
  {
    var data := inp[ip .. ip + b];
    var o' := WriteAt(o, op, data);
    forall k | 0 <= k < |o'|
      ensures o'[k] == Expected(out, outPos, inp, inPos, op + b, k)
    {
      if k < op && k >= |o| && outPos <= k {
        assert WindowByte(inp, inPos, outPos, op, k) == 0;
      }
    }
  }

  /** Punching a hole for the next block, when it is all zeros, keeps the invariant. */
  lemma PunchStep(out: seq<byte>, outPos: nat, inp: seq<byte>, inPos: nat, o: seq<byte>, op: nat, ip: nat, b: nat)
    requires CopiedUpTo(out, outPos, inp, inPos, o, op) && ip == inPos + (op - outPos)
    requires ip + b <= |inp| && AllZero(inp[ip .. ip + b])
    ensures CopiedUpTo(out, outPos, inp, inPos, PunchHole(o, op, b), op + b)
  {
    var data := inp[ip .. ip + b];
    var o' := PunchHole(o, op, b);
    forall k | 0 <= k < |o'|
      ensures o'[k] == Expected(out, outPos, inp, inPos, op + b, k)
    {
      if op <= k < op + b {
        assert data[k - op] == 0;
      }
    }
    var op' := op + b;
    forall k | outPos <= k && |o'| <= k < op'
      ensures WindowByte(inp, inPos, outPos, op', k) == 0
    {
      if k < op {
        assert WindowByte(inp, inPos, outPos, op, k) == 0;
      } else {
        assert data[k - op] == 0;
      }
    }
  }

  /** The end of `copy_sparse`: a hole at the end is made part of the file by writing its last byte. */
  function Tail(o: seq<byte>, op: nat): seq<byte>
  {
    if op > |o| then WriteAt(o, op - 1, [0]) else o
  }

  /** One block of the copy: a zero block becomes a hole, any other block is written. */
  function CopyBlock(o: seq<byte>, op: nat, data: seq<byte>): seq<byte>
  {
    if IsZeroBlock(data) then PunchHole(o, op, |data|) else WriteAt(o, op, data)
  }

  /** Either way, copying the next block keeps the invariant. */
  lemma BlockStep(out: seq<byte>, outPos: nat, inp: seq<byte>, inPos: nat, o: seq<byte>, op: nat, ip: nat, b: nat)
    requires CopiedUpTo(out, outPos, inp, inPos, o, op) && ip == inPos + (op - outPos)
    requires ip + b <= |inp| && b > 0
    ensures CopiedUpTo(out, outPos, inp, inPos, CopyBlock(o, op, inp[ip .. ip + b]), op + b)
  {
    if IsZeroBlock(inp[ip .. ip + b]) {
      PunchStep(out, outPos, inp, inPos, o, op, ip, b);
    } else {
      WriteStep(out, outPos, inp, inPos, o, op, ip, b);
    }
  }

  /** With nothing to copy the tail only pads the output with zeros up to its position. */
  lemma PadOnly(out: seq<byte>, outPos: nat)
    ensures |Tail(out, outPos)| == Max(|out|, outPos)
    ensures forall k :: 0 <= k < |Tail(out, outPos)| ==> Tail(out, outPos)[k] == (if k < |out| then out[k] else 0)
  {
    var t := Tail(out, outPos);
    forall k | 0 <= k < |t|
      ensures t[k] == (if k < |out| then out[k] else 0)
    {
      if outPos > |out| {
        assert t[k] == Written(out, outPos - 1, [0], k);
      }
    }
  }

  /** After the tail the output has its full length and every expected byte. */
  lemma TailComplete(out: seq<byte>, outPos: nat, inp: seq<byte>, inPos: nat, o: seq<byte>, op: nat)
    requires CopiedUpTo(out, outPos, inp, inPos, o, op)
    ensures |Tail(o, op)| == Max(|out|, op)
    ensures forall k :: 0 <= k < |Tail(o, op)| ==> Tail(o, op)[k] == Expected(out, outPos, inp, inPos, op, k)
  {
    var t := Tail(o, op);
    forall k | 0 <= k < |t|
      ensures t[k] == Expected(out, outPos, inp, inPos, op, k)
    {
      if k >= |o| && outPos <= k {
        assert WindowByte(inp, inPos, outPos, op, k) == 0;
      }
    }
  }

  /** A complete copy of a non-empty window is a plain write of that window. */
  lemma CompleteIsWrite(out: seq<byte>, outPos: nat, inp: seq<byte>, inPos: nat, o: seq<byte>, op: nat)
    requires CopiedUpTo(out, outPos, inp, inPos, o, op) && op > outPos
    ensures Tail(o, op) == WriteAt(out, outPos, inp[inPos .. inPos + (op - outPos)])
  {
    TailComplete(out, outPos, inp, inPos, o, op);
    var t := Tail(o, op);
    var w := WriteAt(out, outPos, inp[inPos .. inPos + (op - outPos)]);
    forall k | 0 <= k < |t|
      ensures t[k] == w[k]
    {
      assert w[k] == Written(out, outPos, inp[inPos .. inPos + (op - outPos)], k);
    }
  }

  /** Both files and both file positions after a copy. */
  datatype Copied = Copied(out: seq<byte>, outPos: nat, inPos: nat)

  /** The number of bytes left in the input after its position (negative past its end). */
  function Left(inp: seq<byte>, inPos: nat): int
  {
    |inp| - inPos
  }

  /** An absent or zero size means "the rest of the input". */
  function CopyLength(inp: seq<byte>, inPos: nat, size: Option<int>): int
  {
    if size.None? || size.value == 0 then Left(inp, inPos) else size.value
  }

  /**
   * `copy_sparse`: copy `size` bytes from the input's position to the
   * output's position; zero blocks become holes instead of writes, and a
   * hole at the end is made part of the file. Whatever blocks were punched,
   * the output ends up exactly as if the bytes had been written plainly.
   */
  method CopySparse(out: seq<byte>, outPos: nat, inp: seq<byte>, inPos: nat, size: Option<int>)
    returns (r: Result<Copied, Error>)
    ensures r.Err? <==> size.Some? && size.value != 0 && size.value > Left(inp, inPos)
    ensures r.Err? ==> r.error == CopyTooLarge(size.value, Left(inp, inPos))
    ensures r.Ok? && CopyLength(inp, inPos, size) == 0 ==> r.value == Copied(out, outPos, inPos)
    ensures r.Ok? && CopyLength(inp, inPos, size) < 0 ==>
      r.value.outPos == outPos && r.value.inPos == inPos &&
      |r.value.out| == Max(|out|, outPos) &&
      forall k :: 0 <= k < |r.value.out| ==> r.value.out[k] == (if k < |out| then out[k] else 0)
    ensures r.Ok? && CopyLength(inp, inPos, size) > 0 ==>
      var n := CopyLength(inp, inPos, size);
      inPos + n <= |inp| &&
      r.value == Copied(WriteAt(out, outPos, inp[inPos .. inPos + n]), outPos + n, inPos + n)
  {
    var n := CopyLength(inp, inPos, size);
    if size.Some? && size.value != 0 && size.value > Left(inp, inPos) {
      return Err(CopyTooLarge(size.value, Left(inp, inPos)));
    }
    if n == 0 {
      return Ok(Copied(out, outPos, inPos));
    }
    var o := out;
    var op := outPos;
    var ip := inPos;
    var toCopy := n;
    while toCopy > 0
      invariant inPos <= ip && op == outPos + (ip - inPos)
      invariant n > 0 ==> 0 <= toCopy && (ip - inPos) + toCopy == n && inPos + n <= |inp|
      invariant n <= 0 ==> ip == inPos && toCopy == n && o == out
      invariant CopiedUpTo(out, outPos, inp, inPos, o, op)
      decreases toCopy
    {
      var blockSize := Min(BlockSize, toCopy);
      BlockStep(out, outPos, inp, inPos, o, op, ip, blockSize);
      o := CopyBlock(o, op, inp[ip .. ip + blockSize]);
      ip := ip + blockSize;
      toCopy := toCopy - blockSize;
      op := op + blockSize;
    }
    if n > 0 {
      assert op == outPos + n && ip == inPos + n;
      CompleteIsWrite(out, outPos, inp, inPos, o, op);
      return Ok(Copied(Tail(o, op), op, ip));
    }
    assert o == out && op == outPos;
    PadOnly(out, outPos);
    return Ok(Copied(Tail(o, op), op, ip));
  }
}

=== FILE: layout.dfy ===
/**
 * The generic layout engine of a label (`BaseLabel`): sort the regions by
 * start, give every floating region the end of its predecessor, validate,
 * and derive the partition-table plan and the image size.
 */
module Layout {
  import opened Wrappers
  import opened Errors
  import opened Sizes
  import opened Regions
  import opened Bytes

  // ---------------------------------------------------------------- sorting

  predicate Sorted(s: seq<Region>)
  {
    forall i, j :: 0 <= i < j < |s| ==> KeyLe(s[i].start, s[j].start)
  }

  predicate SortedAdjacent(s: seq<Region>)
  {
    forall i :: 0 < i < |s| ==> KeyLe(s[i - 1].start, s[i].start)
  }

  lemma {:induction false} AdjacentIsSorted(s: seq<Region>)
    requires SortedAdjacent(s)
    ensures Sorted(s)
    decreases |s|
  {
    if |s| > 1 {
      AdjacentIsSorted(s[1..]);
      forall j | 1 < j < |s|
        ensures KeyLe(s[0].start, s[j].start)
      {
        assert KeyLe(s[1].start, s[j].start) by {
          assert s[1..][0] == s[1] && s[1..][j - 1] == s[j];
        }
      }
      forall i, j | 0 <= i < j < |s|
        ensures KeyLe(s[i].start, s[j].start)
      {
        if i > 0 {
          assert s[1..][i - 1] == s[i] && s[1..][j - 1] == s[j];
        }
      }
    }
  }

  /**
   * Stable insertion: `x` goes before the first element whose start is not
   * smaller than its own, so it stays ahead of later elements with an equal key.
   */
  function Insert(x: Region, t: seq<Region>): (r: seq<Region>)
    ensures |r| == |t| + 1
    ensures multiset(r) == multiset(t) + multiset{x}
  {
    if |t| == 0 then [x]
    else if KeyLe(x.start, t[0].start) then [x] + t
    else
      assert t == [t[0]] + t[1..];
      [t[0]] + Insert(x, t[1..])
  }

  lemma {:induction false} InsertSorted(x: Region, t: seq<Region>)
    requires Sorted(t)
    ensures Sorted(Insert(x, t))
    decreases |t|
  {
    if |t| > 0 && !KeyLe(x.start, t[0].start) {
      assert Sorted(t[1..]);
      InsertSorted(x, t[1..]);
      var rest := Insert(x, t[1..]);
      assert t == [t[0]] + t[1..];
      forall j | 0 <= j < |rest|
        ensures KeyLe(t[0].start, rest[j].start)
      {
        assert rest[j] in multiset(rest);
        if rest[j] != x {
          assert rest[j] in t[1..];
        } else {
          KeyLeTotal(x.start, t[0].start);
        }
      }
      ConsSorted(t[0], rest);
    } else if |t| > 0 {
      forall j | 0 <= j < |t|
        ensures KeyLe(x.start, t[j].start)
      {
        if j > 0 {
          KeyLeTrans(x.start, t[0].start, t[j].start);
        }
      }
      ConsSorted(x, t);
    }
  }

  /** A sorted list stays sorted behind a region whose start comes no later than any of its own. */
  lemma ConsSorted(y: Region, rest: seq<Region>)
    requires Sorted(rest)
    requires forall j :: 0 <= j < |rest| ==> KeyLe(y.start, rest[j].start)
    ensures Sorted([y] + rest)
  {
    var r := [y] + rest;
    forall i, j | 0 <= i < j < |r|
      ensures KeyLe(r[i].start, r[j].start)
    {
      assert r[j] == rest[j - 1];
      if i > 0 {
        assert r[i] == rest[i - 1];
      }
    }
  }

  /**
   * Insertion puts `x` after the regions whose starts come strictly before
   * its own and in front of the first one that does not.
   */
  lemma {:induction false} InsertAt(x: Region, a: seq<Region>, b: seq<Region>)
    requires forall j :: 0 <= j < |a| ==> !KeyLe(x.start, a[j].start)
    requires |b| > 0 ==> KeyLe(x.start, b[0].start)
    ensures Insert(x, a + b) == a + [x] + b
    decreases |a|
  {
    if |a| > 0 {
      AppendParts(a, b, x);
      InsertUnfold(x, a + b);
      TailBefore(x, a);
      InsertAt(x, a[1..], b);
      assert Insert(x, a + b) == [a[0]] + (a[1..] + [x] + b);
    } else {
      assert a + b == b;
    }
  }

  lemma TailBefore(x: Region, a: seq<Region>)
    requires |a| > 0
    requires forall j :: 0 <= j < |a| ==> !KeyLe(x.start, a[j].start)
    ensures forall j :: 0 <= j < |a[1..]| ==> !KeyLe(x.start, a[1..][j].start)
  {
    forall j | 0 <= j < |a[1..]|
      ensures !KeyLe(x.start, a[1..][j].start)
    {
      assert a[1..][j] == a[j + 1];
    }
  }

  lemma InsertUnfold(x: Region, t: seq<Region>)
    requires |t| > 0 && !KeyLe(x.start, t[0].start)
    ensures Insert(x, t) == [t[0]] + Insert(x, t[1..])
  {
  }

  lemma AppendParts(a: seq<Region>, b: seq<Region>, x: Region)
    requires |a| > 0
    ensures (a + b)[0] == a[0] && (a + b)[1..] == a[1..] + b
    ensures a + [x] + b == [a[0]] + (a[1..] + [x] + b)
  {
    assert a == [a[0]] + a[1..];
  }

  lemma KeyLeTrans(a: SizeType, b: SizeType, c: SizeType)
    requires KeyLe(a, b) && KeyLe(b, c)
    ensures KeyLe(a, c)
  {
  }

  /**
   * `parts.sort(key=lambda x: x.start)`: a stable sort in which undefined
   * starts come after all defined ones.
   */
  function Sort(s: seq<Region>): (r: seq<Region>)
    ensures |r| == |s|
    ensures multiset(r) == multiset(s)
    ensures Sorted(r)
  {
    if |s| == 0 then []
    else
      assert s == [s[0]] + s[1..];
      InsertSorted(s[0], Sort(s[1..]));
      Insert(s[0], Sort(s[1..]))
  }

  lemma SortCons(x: Region, s: seq<Region>)
    ensures Sort([x] + s) == Insert(x, Sort(s))
  {
    assert ([x] + s)[1..] == s;
  }

  lemma InsertFront(x: Region, t: seq<Region>)
    requires |t| > 0 && KeyLe(x.start, t[0].start)
    ensures Insert(x, t) == [x] + t
  {
  }

  lemma InsertPast(x: Region, y: Region, t: seq<Region>)
    requires !KeyLe(x.start, y.start)
    ensures Insert(x, [y] + t) == [y] + Insert(x, t)
  {
    assert ([y] + t)[1..] == t;
  }

  /** The regions of a list whose start is `k`, in list order. */
  function WithStart(s: seq<Region>, k: SizeType): seq<Region>
  {
    if |s| == 0 then [] else (if s[0].start == k then [s[0]] else []) + WithStart(s[1..], k)
  }

  lemma WithStartCons(a: Region, s: seq<Region>, k: SizeType)
    ensures WithStart([a] + s, k) == (if a.start == k then [a] else []) + WithStart(s, k)
  {
    assert ([a] + s)[1..] == s;
  }

  lemma {:induction false} InsertWithStart(x: Region, t: seq<Region>, k: SizeType)
    ensures WithStart(Insert(x, t), k) == (if x.start == k then [x] else []) + WithStart(t, k)
    decreases |t|
  {
    if |t| == 0 {
      WithStartCons(x, [], k);
    } else if KeyLe(x.start, t[0].start) {
      WithStartCons(x, t, k);
    } else {
      InsertWithStart(x, t[1..], k);
      WithStartCons(t[0], Insert(x, t[1..]), k);
      WithStartCons(t[0], t[1..], k);
      assert [t[0]] + t[1..] == t;
      assert x.start != t[0].start;
    }
  }

  /**
   * The sort is stable: regions with equal starts keep their relative
   * order, and so do the floating regions (`k` undefined).
   */
  lemma {:induction false} SortIsStable(s: seq<Region>, k: SizeType)
    ensures WithStart(Sort(s), k) == WithStart(s, k)
    decreases |s|
  {
    if |s| > 0 {
      SortIsStable(s[1..], k);
      InsertWithStart(s[0], Sort(s[1..]), k);
      WithStartCons(s[0], s[1..], k);
      assert [s[0]] + s[1..] == s;
    }
  }

  /** A list of floating regions is its own floating part. */
  lemma {:induction false} AllFloatingKept(y: seq<Region>)
    requires forall i :: 0 <= i < |y| ==> y[i].start.None?
    ensures WithStart(y, None) == y
    decreases |y|
  {
    if |y| > 0 {
      AllFloatingKept(y[1..]);
      assert [y[0]] + y[1..] == y;
    }
  }

  /**
   * In a sorted list the floating regions come last, in the order of the
   * floating part; every region before them has a start.
   */
  lemma {:induction false} SortedFloatingSuffix(y: seq<Region>)
    requires Sorted(y)
    ensures |WithStart(y, None)| <= |y|
    ensures y[|y| - |WithStart(y, None)|..] == WithStart(y, None)
    ensures forall i :: 0 <= i < |y| - |WithStart(y, None)| ==> y[i].start.Some?
    decreases |y|
  {
    if |y| > 0 {
      assert [y[0]] + y[1..] == y;
      if y[0].start.None? {
        forall i | 0 <= i < |y|
          ensures y[i].start.None?
        {
          if i > 0 { assert KeyLe(y[0].start, y[i].start); }
        }
        AllFloatingKept(y);
      } else {
        assert Sorted(y[1..]);
        SortedFloatingSuffix(y[1..]);
        var n := |y| - |WithStart(y, None)|;
        forall i | 1 <= i < n
          ensures y[i].start.Some?
        {
          assert y[i] == y[1..][i - 1];
        }
        assert y[n..] == y[1..][n - 1..];
      }
    }
  }

  /** Sorting a list that is already sorted leaves it unchanged. */
  lemma {:induction false} SortIdempotent(s: seq<Region>)
    requires Sorted(s)
    ensures Sort(s) == s
    decreases |s|
  {
    if |s| > 0 {
      assert Sorted(s[1..]);
      SortIdempotent(s[1..]);
      if |s| > 1 {
        assert KeyLe(s[0].start, s[1..][0].start);
      }
      assert s == [s[0]] + s[1..];
    }
  }

  lemma PermutationKeepsPlaced(s: seq<Region>, t: seq<Region>)
    requires multiset(s) == multiset(t)
    requires AllPlaced(s)
    ensures AllPlaced(t)
  {
    forall i | 0 <= i < |t|
      ensures Placed(t[i])
    {
      assert t[i] in multiset(t);
      assert t[i] in s;
    }
  }

  // ---------------------------------------------------------------- placing

  predicate SizesDefined(s: seq<Region>)
  {
    forall i :: 0 <= i < |s| ==> s[i].size.Some?
  }

  /**
   * The placement pass of `prepare`: a floating region gets the running
   * offset, and the running offset becomes `start + size` of every region.
   * An undefined size makes that addition raise.
   */
  function AssignStarts(s: seq<Region>, cur: nat): (r: Result<seq<Region>, Error>)
    ensures r.Ok? <==> SizesDefined(s)
    ensures r.Err? ==> r.error == UndefinedValue
    ensures r.Ok? ==> |r.value| == |s|
  {
    if |s| == 0 then Ok([])
    else if s[0].size.None? then Err(UndefinedValue)
    else
      var start := if s[0].start.Some? then s[0].start.value else cur;
      var rest :- AssignStarts(s[1..], start + s[0].size.value);
      Ok([s[0].(start := Some(start))] + rest)
  }

  /**
   * After the placement pass every start is defined, a defined start is
   * kept, nothing else about a region changes, and a floating region starts
   * where its predecessor ends (at the initial offset if it is first).
   */
  lemma {:induction false} AssignStartsPlaces(s: seq<Region>, cur: nat)
    requires SizesDefined(s)
    ensures AssignStarts(s, cur).Ok?
    ensures AllPlaced(AssignStarts(s, cur).value)
    ensures forall i :: 0 <= i < |s| ==>
      AssignStarts(s, cur).value[i] == s[i].(start := AssignStarts(s, cur).value[i].start)
    ensures forall i :: 0 <= i < |s| && s[i].start.Some? ==> AssignStarts(s, cur).value[i].start == s[i].start
    ensures |s| > 0 && s[0].start.None? ==> AssignStarts(s, cur).value[0].start == Some(cur)
    ensures forall i :: 0 < i < |s| && s[i].start.None? ==>
      AssignStarts(s, cur).value[i].start == Some(End(AssignStarts(s, cur).value[i - 1]))
    decreases |s|
  {
    if |s| > 0 {
      var start := if s[0].start.Some? then s[0].start.value else cur;
      var next := start + s[0].size.value;
      assert SizesDefined(s[1..]);
      AssignStartsPlaces(s[1..], next);
      var rest := AssignStarts(s[1..], next).value;
      var r := AssignStarts(s, cur).value;
      assert r == [s[0].(start := Some(start))] + rest;
      forall i | 1 <= i < |s|
        ensures r[i] == rest[i - 1] && s[1..][i - 1] == s[i]
      {
      }
      assert |rest| > 0 && s[1].start.None? ==> rest[0].start == Some(End(r[0]));
    }
  }

  /** Placing a sorted list keeps it sorted, so the re-sort of validation is a no-op. */
  lemma AssignKeepsSorted(s: seq<Region>, cur: nat)
    requires Sorted(s)
    requires AssignStarts(s, cur).Ok?
    ensures Sorted(AssignStarts(s, cur).value)
    ensures Sort(AssignStarts(s, cur).value) == AssignStarts(s, cur).value
  {
    var r := AssignStarts(s, cur).value;
    AssignStartsPlaces(s, cur);
    forall i | 0 < i < |r|
      ensures KeyLe(r[i - 1].start, r[i].start)
    {
      if s[i].start.Some? {
        assert s[i - 1].start.Some?;
      }
    }
    AdjacentIsSorted(r);
    SortIdempotent(r);
  }

  // ------------------------------------------------------------- validation

  /** The sum of the sizes of the first `n` regions of a list. */
  function SumBefore(s: seq<Region>, n: nat): nat
    requires n <= |s| && AllPlaced(s)
  {
    if n == 0 then 0 else SumBefore(s, n - 1) + s[n - 1].size.value
  }

  /** The error `_validate_parts` raises at index `i` of the sorted list. */
  function Shortfall(t: seq<Region>, i: nat, expected: nat): Error
    requires AllPlaced(t) && i < |t|
  {
    if i > 0 then Overlap(t[i].name, t[i - 1].name)
    else StartsBefore(t[i].name, t[i].start.value, expected)
  }

  /** What `_validate_parts` accepts: every start reaches the sum of the sizes before it. */
  predicate StartsCoverSizes(t: seq<Region>)
    requires AllPlaced(t)
  {
    forall j :: 0 <= j < |t| ==> t[j].start.value >= SumBefore(t, j)
  }

  /** The regions from index `i` up to `j` pass the size check. */
  predicate CoverFrom(t: seq<Region>, i: nat, j: nat)
    requires AllPlaced(t) && j <= |t|
  {
    forall k :: i <= k < j ==> t[k].start.value >= SumBefore(t, k)
  }

  /** The loop of `_validate_parts` as written, from index `i` on. */
  function CheckSizesFrom(t: seq<Region>, i: nat, cur: nat): (r: Option<Error>)
    requires AllPlaced(t) && i <= |t| && cur == SumBefore(t, i)
    ensures r.None? <==> CoverFrom(t, i, |t|)
    ensures r.Some? ==> exists j :: (i <= j < |t| && t[j].start.value < SumBefore(t, j)
                                     && r.value == Shortfall(t, j, SumBefore(t, j))
                                     && CoverFrom(t, i, j))
    decreases |t| - i
  {
    if i == |t| then None
    else if t[i].start.value < cur then Some(Shortfall(t, i, cur))
    else
      var next := cur + t[i].size.value;
      assert next == SumBefore(t, i + 1);
      assert forall j :: i + 1 <= j <= |t| && CoverFrom(t, i + 1, j) ==> CoverFrom(t, i, j);
      CheckSizesFrom(t, i + 1, next)
  }

  /**
   * `_validate_parts` as written: re-sort, then demand that each start is at
   * least the sum of the sizes of the regions before it. The first failure
   * names the region and its predecessor; the "starts at" message can never
   * be produced because a start is never below zero.
   */
  function Validate(s: seq<Region>): (r: Result<seq<Region>, Error>)
    requires AllPlaced(s)
    ensures AllPlaced(Sort(s))
    ensures r.Ok? <==> StartsCoverSizes(Sort(s))
    ensures r.Ok? ==> r.value == Sort(s)
    ensures r.Err? ==> exists j :: (0 < j < |s| && r.error == Overlap(Sort(s)[j].name, Sort(s)[j - 1].name)
                                    && Sort(s)[j].start.value < SumBefore(Sort(s), j)
                                    && CoverFrom(Sort(s), 0, j))
  {
    var t := Sort(s);
    PermutationKeepsPlaced(s, t);
    match CheckSizesFrom(t, 0, 0)
    case None => Ok(t)
    case Some(e) => Err(e)
  }

  /** Each region starts at or after the end of the one before it. */
  predicate Chained(t: seq<Region>)
    requires AllPlaced(t)
  {
    forall i :: 0 < i < |t| ==> End(t[i - 1]) <= t[i].start.value
  }

  /** The regions from index `i` up to `j` each start at or after the end of the one before. */
  predicate ChainedFrom(t: seq<Region>, i: nat, j: nat)
    requires AllPlaced(t) && j <= |t|
  {
    forall k :: i <= k < j && 0 < k ==> End(t[k - 1]) <= t[k].start.value
  }

  /**
   * Index `j` is the first from `i` on whose region starts before the end
   * of the one in front of it, and `e` is the overlap error naming both.
   */
  predicate FirstOverlapAt(t: seq<Region>, i: nat, j: nat, e: Error)
    requires AllPlaced(t)
  {
    i <= j < |t| && 0 < j && t[j].start.value < End(t[j - 1]) &&
    e == Overlap(t[j].name, t[j - 1].name) && ChainedFrom(t, i, j)
  }

  /** The validation loop with the running offset advanced to each region's end. */
  function CheckEndsFrom(t: seq<Region>, i: nat, cur: nat): (r: Option<Error>)
    requires AllPlaced(t) && i <= |t| && cur == (if i == 0 then 0 else End(t[i - 1]))
    ensures r.None? <==> ChainedFrom(t, i, |t|)
    ensures r.Some? ==> exists j :: FirstOverlapAt(t, i, j, r.value)
    decreases |t| - i
  {
    if i == |t| then None
    else if t[i].start.value < cur then
      assert i > 0 && !ChainedFrom(t, i, |t|) && FirstOverlapAt(t, i, i, Shortfall(t, i, cur));
      Some(Shortfall(t, i, cur))
    else
      var r := CheckEndsFrom(t, i + 1, End(t[i]));
      assert ChainedFrom(t, i, |t|) <==> ChainedFrom(t, i + 1, |t|);
      assert r.Some? ==> exists j :: FirstOverlapAt(t, i, j, r.value) by {
        if r.Some? {
          var j :| FirstOverlapAt(t, i + 1, j, r.value);
          assert FirstOverlapAt(t, i, j, r.value);
        }
      }
      r
  }

  /**
   * `_validate_parts` as its overlap message describes it: the running
   * offset kept at the end of the last region. It accepts exactly the
   * chained lists.
   */
  function ValidateIntended(s: seq<Region>): (r: Result<seq<Region>, Error>)
    requires AllPlaced(s)
    ensures AllPlaced(Sort(s))
    ensures r.Ok? <==> Chained(Sort(s))
    ensures r.Ok? ==> r.value == Sort(s)
    ensures r.Err? ==> exists j :: (0 < j < |s| && r.error == Overlap(Sort(s)[j].name, Sort(s)[j - 1].name)
                                    && Sort(s)[j].start.value < End(Sort(s)[j - 1])
                                    && ChainedFrom(Sort(s), 0, j))
  {
    var t := Sort(s);
    PermutationKeepsPlaced(s, t);
    match CheckEndsFrom(t, 0, 0)
    case None => Ok(t)
    case Some(e) => Err(e)
  }

  /** Three regions, the last two of which share the bytes 105 to 109. */
  function OverlapExample(): (s: seq<Region>)
    ensures AllPlaced(s) && Sorted(s)
  {
    [Region("a", Data, Some(0), Some(10), None),
     Region("b", Data, Some(100), Some(10), None),
     Region("c", Data, Some(105), Some(10), None)]
  }

  /**
   * The validation as written lets two overlapping regions through, because
   * their starts only have to reach the sums 10 and 20 of the sizes before
   * them; the intended validation refuses them.
   */
  lemma ValidateAcceptsOverlap(s: seq<Region>)
    requires s == OverlapExample()
    ensures Overlaps(s[1], s[2])
    ensures Validate(s) == Ok(s)
    ensures ValidateIntended(s).Err?
  {
    AcceptsExample(s);
    IntendedRefusesExample(s);
  }

  lemma AcceptsExample(s: seq<Region>)
    requires s == OverlapExample()
    ensures Validate(s) == Ok(s)
  {
    SortIdempotent(s);
    SizesCoverExample(s);
  }

  lemma IntendedRefusesExample(s: seq<Region>)
    requires s == OverlapExample()
    ensures ValidateIntended(s).Err?
  {
    SortIdempotent(s);
    EndsRefuseExample(s);
  }

  lemma SizesCoverExample(s: seq<Region>)
    requires s == OverlapExample()
    ensures CheckSizesFrom(s, 0, 0) == None
  {
    assert CheckSizesFrom(s, 2, 20) == CheckSizesFrom(s, 3, 30);
    assert CheckSizesFrom(s, 1, 10) == CheckSizesFrom(s, 2, 20);
  }

  lemma EndsRefuseExample(s: seq<Region>)
    requires s == OverlapExample()
    ensures CheckEndsFrom(s, 0, 0).Some?
  {
    assert CheckEndsFrom(s, 2, 110).Some?;
    assert CheckEndsFrom(s, 1, 10) == CheckEndsFrom(s, 2, 110);
  }

  /** In a chained list each start reaches the sum of the sizes before it. */
  lemma {:induction false} ChainedStartCovers(t: seq<Region>, j: nat)
    requires AllPlaced(t) && Chained(t) && j < |t|
    ensures t[j].start.value >= SumBefore(t, j)
    decreases j
  {
    if j > 0 {
      ChainedStartCovers(t, j - 1);
    }
  }

  /**
   * The intended validation only refuses more: whatever it accepts, the
   * validation as written accepts with the same result.
   */
  lemma IntendedImpliesValidate(s: seq<Region>)
    requires AllPlaced(s) && ValidateIntended(s).Ok?
    ensures Validate(s) == ValidateIntended(s)
  {
    var t := Sort(s);
    forall j | 0 <= j < |t|
      ensures t[j].start.value >= SumBefore(t, j)
    {
      ChainedStartCovers(t, j);
    }
  }

  /** In a chained list every region ends before any later region starts. */
  lemma {:induction false} ChainedOrdered(t: seq<Region>, i: nat, j: nat)
    requires AllPlaced(t) && Chained(t)
    requires i < j < |t|
    ensures End(t[i]) <= t[j].start.value
    decreases j - i
  {
    if i + 1 < j {
      ChainedOrdered(t, i + 1, j);
    }
  }

  /** So no two regions of a chained list overlap. */
  lemma ChainedDisjoint(t: seq<Region>)
    requires AllPlaced(t) && Chained(t)
    ensures forall i, j :: 0 <= i < |t| && 0 <= j < |t| && i != j ==> !Overlaps(t[i], t[j])
  {
    forall i, j | 0 <= i < |t| && 0 <= j < |t| && i != j
      ensures !Overlaps(t[i], t[j])
    {
      if i < j {
        ChainedOrdered(t, i, j);
      } else {
        ChainedOrdered(t, j, i);
      }
    }
  }

  /** The accepted lists with positive sizes are exactly the sorted, pairwise disjoint ones. */
  lemma DisjointIsChained(t: seq<Region>)
    requires AllPlaced(t) && Sorted(t)
    requires forall i :: 0 <= i < |t| ==> t[i].size.value > 0
    requires forall i, j :: 0 <= i < |t| && 0 <= j < |t| && i != j ==> !Overlaps(t[i], t[j])
    ensures Chained(t)
  {
    forall i | 0 < i < |t|
      ensures End(t[i - 1]) <= t[i].start.value
    {
      assert !Overlaps(t[i - 1], t[i]);
      assert KeyLe(t[i - 1].start, t[i].start);
    }
  }

  // ------------------------------------------------------------- the passes

  lemma SortKeepsSizes(s: seq<Region>)
    ensures SizesDefined(Sort(s)) <==> SizesDefined(s)
  {
    var t := Sort(s);
    if SizesDefined(s) {
      forall i | 0 <= i < |t|
        ensures t[i].size.Some?
      {
        assert t[i] in multiset(s);
      }
    } else {
      var i :| 0 <= i < |s| && s[i].size.None?;
      assert s[i] in multiset(t);
    }
  }

  lemma SortSameElements(s: seq<Region>)
    ensures forall x :: x in Sort(s) <==> x in s
  {
    var t := Sort(s);
    forall x
      ensures x in t <==> x in s
    {
      assert x in t <==> x in multiset(t);
      assert x in s <==> x in multiset(s);
    }
  }

  /**
   * `r` is `t` with starts filled in: position by position the same region,
   * a defined start kept, only an undefined one given a value.
   */
  predicate FilledIn(t: seq<Region>, r: seq<Region>)
  {
    |r| == |t| &&
    forall i :: 0 <= i < |r| ==> r[i] == t[i].(start := r[i].start) && (t[i].start.Some? ==> r[i] == t[i])
  }

  /**
   * `r` is `src` laid out: a rearrangement of `src` with only the missing
   * starts filled in, so every region of `src` occurs in it exactly as often
   * as in `src`; every region placed, every fixed region of `src` kept as it
   * is, and every other region a floating one of `src` given the end of its
   * predecessor, or 0 when it is first.
   */
  ghost predicate PlacementOf(src: seq<Region>, r: seq<Region>)
  {
    |r| == |src| && AllPlaced(r) &&
    (exists t :: multiset(t) == multiset(src) && FilledIn(t, r)) &&
    (forall x :: x in src && x.start.Some? ==> x in r) &&
    (forall i :: 0 <= i < |r| ==> r[i] in src || r[i].(start := None) in src) &&
    (forall i :: 0 <= i < |r| && r[i] !in src ==> r[i].start.value == (if i == 0 then 0 else End(r[i - 1])))
  }

  /** The placement pass keeps fixed regions and only gives floating ones a start. */
  lemma AssignedFrom(s: seq<Region>, placed: seq<Region>, src: seq<Region>)
    requires SizesDefined(s) && |s| == |src|
    requires AssignStarts(s, 0).Ok? && placed == AssignStarts(s, 0).value
    requires multiset(s) == multiset(src)
    ensures PlacementOf(src, placed)
  {
    AssignStartsPlaces(s, 0);
    assert FilledIn(s, placed);
    forall x
      ensures x in s <==> x in src
    {
      assert x in s <==> x in multiset(s);
      assert x in src <==> x in multiset(src);
    }
    forall x | x in src && x.start.Some?
      ensures x in placed
    {
      assert x in s;
      var k :| 0 <= k < |s| && s[k] == x;
      assert placed[k] == x;
    }
    forall i | 0 <= i < |placed|
      ensures placed[i] in src ||
        (placed[i].(start := None) in src &&
         placed[i].start.value == (if i == 0 then 0 else End(placed[i - 1])))
    {
      if s[i].start.None? {
        assert placed[i].(start := None) == s[i];
        assert s[i] in s;
      } else {
        assert placed[i] == s[i];
        assert s[i] in s;
      }
    }
  }

  /** The regions of `s` with their starts erased. */
  function Unstarted(s: seq<Region>): (r: seq<Region>)
    ensures |r| == |s|
  {
    if |s| == 0 then [] else [s[0].(start := None)] + Unstarted(s[1..])
  }

  lemma {:induction false} UnstartedAt(s: seq<Region>, i: nat)
    requires i < |s|
    ensures Unstarted(s)[i] == s[i].(start := None)
    decreases i
  {
    if i > 0 {
      UnstartedAt(s[1..], i - 1);
    }
  }

  lemma {:induction false} UnstartedAppend(a: seq<Region>, b: seq<Region>)
    ensures Unstarted(a + b) == Unstarted(a) + Unstarted(b)
    decreases |a|
  {
    if |a| == 0 {
      assert a + b == b;
    } else {
      assert (a + b)[1..] == a[1..] + b;
      UnstartedAppend(a[1..], b);
      var h := [a[0].(start := None)];
      assert h + (Unstarted(a[1..]) + Unstarted(b)) == (h + Unstarted(a[1..])) + Unstarted(b);
    }
  }

  lemma MultisetShuffle(a: multiset<Region>, y: multiset<Region>, b: multiset<Region>)
    ensures y + (a + b) == a + y + b
  {
  }

  /** Erasing starts maps a rearrangement to a rearrangement. */
  lemma {:induction false} UnstartedPermutes(t: seq<Region>, u: seq<Region>)
    requires multiset(t) == multiset(u)
    ensures multiset(Unstarted(t)) == multiset(Unstarted(u))
    decreases |t|
  {
    if |t| == 0 {
      assert |multiset(u)| == 0;
    } else {
      var x := t[0];
      assert x in multiset(u);
      var k :| 0 <= k < |u| && u[k] == x;
      var left, right := u[..k], u[k + 1..];
      var rest := left + right;
      assert u == (left + [x]) + right;
      assert t == [x] + t[1..];
      assert multiset(u) == multiset(left) + multiset{x} + multiset(right);
      assert multiset(rest) == multiset(u) - multiset{x};
      assert multiset(t[1..]) == multiset(t) - multiset{x};
      UnstartedPermutes(t[1..], rest);
      var y := Unstarted([x]);
      UnstartedAppend(left + [x], right);
      UnstartedAppend(left, [x]);
      UnstartedAppend(left, right);
      UnstartedAppend([x], t[1..]);
      var ma, my, mb := multiset(Unstarted(left)), multiset(y), multiset(Unstarted(right));
      assert multiset(Unstarted(u)) == ma + my + mb;
      assert multiset(Unstarted(rest)) == ma + mb;
      assert multiset(Unstarted(t)) == my + (ma + mb);
      MultisetShuffle(ma, my, mb);
    }
  }

  /**
   * A placement holds the regions of its source, each as often as the
   * source does: with the starts erased the two are the same multiset.
   */
  lemma PlacementKeepsRegions(src: seq<Region>, r: seq<Region>)
    requires PlacementOf(src, r)
    ensures multiset(Unstarted(r)) == multiset(Unstarted(src))
  {
    var t :| multiset(t) == multiset(src) && FilledIn(t, r);
    forall i | 0 <= i < |r|
      ensures Unstarted(r)[i] == Unstarted(t)[i]
    {
      UnstartedAt(r, i);
      UnstartedAt(t, i);
    }
    assert Unstarted(r) == Unstarted(t);
    UnstartedPermutes(t, src);
  }

  /**
   * The placement pass of `prepare` on regions that have already prepared
   * themselves: sort, then give every floating region the running offset.
   */
  function Arrange(prepared: seq<Region>): (r: Result<seq<Region>, Error>)
    ensures r.Ok? <==> SizesDefined(prepared)
    ensures r.Err? ==> r.error == UndefinedValue
    ensures r.Ok? ==> PlacementOf(prepared, r.value) && Sorted(r.value) && Sort(r.value) == r.value
  {
    var sorted := Sort(prepared);
    SortKeepsSizes(prepared);
    match AssignStarts(sorted, 0)
    case Err(e) => Err(e)
    case Ok(placed) =>
      AssignKeepsSorted(sorted, 0);
      SortSameElements(prepared);
      AssignedFrom(sorted, placed, prepared);
      Ok(placed)
  }

  /** Regions that all have a start and a size are only sorted. */
  lemma ArrangeFixed(s: seq<Region>)
    requires AllPlaced(s)
    ensures Arrange(s) == Ok(Sort(s))
  {
    var sorted := Sort(s);
    PermutationKeepsPlaced(s, sorted);
    AssignFixed(sorted, 0);
  }

  /** The placement pass leaves regions that all have a start and a size as they are. */
  lemma {:induction false} AssignFixed(s: seq<Region>, cur: nat)
    requires AllPlaced(s)
    ensures AssignStarts(s, cur) == Ok(s)
    decreases |s|
  {
    if |s| > 0 {
      assert AllPlaced(s[1..]) by {
        forall i | 0 <= i < |s[1..]|
          ensures Placed(s[1..][i])
        {
          assert s[1..][i] == s[i + 1];
        }
      }
      AssignFixed(s[1..], s[0].start.value + s[0].size.value);
      assert s[0].(start := Some(s[0].start.value)) == s[0];
      assert [s[0]] + s[1..] == s;
    }
  }

  /**
   * The layout part of `BaseLabel.prepare` as written: place, then validate
   * by sums of sizes. It succeeds exactly when the placed list passes that
   * check; a failure is the undefined-size error or an overlap.
   */
  function Place(prepared: seq<Region>): (r: Result<seq<Region>, Error>)
    ensures r.Ok? ==> PlacementOf(prepared, r.value) && Sorted(r.value) && StartsCoverSizes(r.value)
    ensures SizesDefined(prepared) ==> (r.Ok? <==> StartsCoverSizes(Arrange(prepared).value))
    ensures r.Err? ==> (r.error == UndefinedValue <==> !SizesDefined(prepared))
    ensures r.Err? && SizesDefined(prepared) ==> r.error.Overlap?
  {
    var placed :- Arrange(prepared);
    Validate(placed)
  }

  /** The layout with the intended validation: the result is chained. */
  function PlaceIntended(prepared: seq<Region>): (r: Result<seq<Region>, Error>)
    ensures r.Ok? ==> PlacementOf(prepared, r.value) && Sorted(r.value) && Chained(r.value)
    ensures SizesDefined(prepared) ==> (r.Ok? <==> Chained(Arrange(prepared).value))
    ensures r.Err? ==> (r.error == UndefinedValue <==> !SizesDefined(prepared))
  {
    var placed :- Arrange(prepared);
    ValidateIntended(placed)
  }

  /** Whatever the intended layout accepts, the layout as written accepts the same way. */
  lemma PlaceIntendedAgrees(prepared: seq<Region>)
    requires PlaceIntended(prepared).Ok?
    ensures Place(prepared) == PlaceIntended(prepared)
  {
    IntendedImpliesValidate(Arrange(prepared).value);
  }

  /** Two distinct fixed regions that overlap make the intended layout fail. */
  lemma PlaceIntendedRejectsOverlap(prepared: seq<Region>, a: Region, b: Region)
    requires a in prepared && b in prepared && a != b
    requires Placed(a) && Placed(b) && Overlaps(a, b)
    ensures PlaceIntended(prepared).Err?
  {
    if PlaceIntended(prepared).Ok? {
      var r := PlaceIntended(prepared).value;
      var i :| 0 <= i < |r| && r[i] == a;
      var j :| 0 <= j < |r| && r[j] == b;
      ChainedDisjoint(r);
    }
  }

  /** The placement pass leaves a list of fixed regions as it is. */
  lemma {:induction false} AssignKeepsPlaced(s: seq<Region>, cur: nat)
    requires AllPlaced(s)
    ensures AssignStarts(s, cur) == Ok(s)
    decreases |s|
  {
    if |s| > 0 {
      AssignKeepsPlaced(s[1..], End(s[0]));
      assert s[0].(start := s[0].start) == s[0];
      assert [s[0]] + s[1..] == s;
    }
  }

  /**
   * The layout as written accepts the overlapping regions of the example
   * unchanged; the intended layout refuses them.
   */
  lemma PlaceAcceptsOverlap(s: seq<Region>)
    requires s == OverlapExample()
    ensures Overlaps(s[1], s[2])
    ensures Place(s) == Ok(s)
    ensures PlaceIntended(s).Err?
  {
    SortIdempotent(s);
    AssignKeepsPlaced(s, 0);
    assert Arrange(s) == Ok(s);
    PlaceValidates(s, s);
    ValidateAcceptsOverlap(s);
  }

  lemma PlaceValidates(prepared: seq<Region>, placed: seq<Region>)
    requires Arrange(prepared) == Ok(placed)
    ensures Place(prepared) == Validate(placed) && PlaceIntended(prepared) == ValidateIntended(placed)
  {
  }

  /** A region placed right at the end of a validated list passes the validation too. */
  lemma CoverAppend(t: seq<Region>, x: Region)
    requires AllPlaced(t) && Sorted(t) && StartsCoverSizes(t) && |t| > 0
    requires Placed(x) && x.start.value == End(t[|t| - 1])
    ensures AllPlaced(t + [x]) && Sorted(t + [x]) && StartsCoverSizes(t + [x])
  {
    CoverAppendSorted(t, x);
    CoverAppendSums(t, x);
  }

  lemma CoverAppendSorted(t: seq<Region>, x: Region)
    requires AllPlaced(t) && Sorted(t) && |t| > 0
    requires Placed(x) && x.start.value == End(t[|t| - 1])
    ensures Sorted(t + [x])
  {
    var u := t + [x];
    forall i, j | 0 <= i < j < |u|
      ensures KeyLe(u[i].start, u[j].start)
    {
      assert u[i] == t[i];
      if j < |t| {
        assert u[j] == t[j];
      } else if i < |t| - 1 {
        assert KeyLe(t[i].start, t[|t| - 1].start);
      }
    }
  }

  lemma CoverAppendSums(t: seq<Region>, x: Region)
    requires AllPlaced(t) && StartsCoverSizes(t) && |t| > 0
    requires Placed(x) && x.start.value == End(t[|t| - 1])
    ensures AllPlaced(t + [x]) && StartsCoverSizes(t + [x])
  {
    var u := t + [x];
    assert AllPlaced(u) && u[..|t|] == t && u[|t|] == x;
    forall j | 0 <= j < |u|
      ensures u[j].start.value >= SumBefore(u, j)
    {
      CoverAppendAt(t, u, j);
    }
  }

  /** One index of the extended list: `u` is `t` followed by one region at `t`'s end. */
  lemma CoverAppendAt(t: seq<Region>, u: seq<Region>, j: nat)
    requires AllPlaced(t) && AllPlaced(u) && StartsCoverSizes(t) && |t| > 0
    requires |u| == |t| + 1 && u[..|t|] == t && u[|t|].start.value == End(t[|t| - 1])
    requires j < |u|
    ensures u[j].start.value >= SumBefore(u, j)
  {
    if j < |t| {
      SumBeforePrefix(t, u, j);
      assert u[j] == u[..|t|][j];
    } else {
      var n := |t| - 1;
      SumBeforePrefix(t, u, n);
      assert u[n] == u[..|t|][n];
      SumBeforeStep(u, n);
    }
  }

  lemma SumBeforeStep(s: seq<Region>, n: nat)
    requires AllPlaced(s) && n < |s|
    ensures SumBefore(s, n + 1) == SumBefore(s, n) + s[n].size.value
  {
  }

  /** The sums of sizes only look at the regions before the index. */
  lemma {:induction false} SumBeforePrefix(t: seq<Region>, u: seq<Region>, n: nat)
    requires AllPlaced(t) && AllPlaced(u) && n <= |t| <= |u| && t == u[..|t|]
    ensures SumBefore(t, n) == SumBefore(u, n)
    decreases n
  {
    if n > 0 {
      SumBeforePrefix(t, u, n - 1);
      assert t[n - 1] == u[n - 1];
    }
  }

  /** Sums of sizes grow with the number of regions summed. */
  lemma {:induction false} SumBeforeMono(t: seq<Region>, m: nat, n: nat)
    requires AllPlaced(t) && m <= n <= |t|
    ensures SumBefore(t, m) <= SumBefore(t, n)
    decreases n - m
  {
    if m < n {
      SumBeforeMono(t, m, n - 1);
    }
  }

  /** The sum before index `n` counts any two earlier regions in full. */
  lemma SumBeforeTwo(t: seq<Region>, n: nat, i: nat, j: nat)
    requires AllPlaced(t) && i < j < n <= |t|
    ensures SumBefore(t, n) >= t[i].size.value + t[j].size.value
  {
    SumBeforeMono(t, i + 1, j);
    SumBeforeMono(t, j + 1, n);
  }

  /** `BaseLabel.prepare`: every region prepares itself, then the layout pass runs. */
  function Prepare(parts: seq<Region>, cp: ContentPrepare): (r: Result<seq<Region>, Error>)
    ensures r.Ok? ==> PrepareAll(parts, cp).Ok? && PlacementOf(PrepareAll(parts, cp).value, r.value)
    ensures r.Ok? ==> |r.value| == |parts| && Sorted(r.value) && StartsCoverSizes(r.value)
    ensures r.Ok? ==> forall i :: 0 <= i < |parts| ==> PrepareRegion(parts[i], cp).Ok?
  {
    var prepared :- PrepareAll(parts, cp);
    Place(prepared)
  }

  /** A successful layout is the placement pass over the sorted, prepared regions. */
  lemma PrepareAssigns(parts: seq<Region>, cp: ContentPrepare)
    requires Prepare(parts, cp).Ok?
    ensures PrepareAll(parts, cp).Ok? && SizesDefined(Sort(PrepareAll(parts, cp).value))
    ensures Prepare(parts, cp) == AssignStarts(Sort(PrepareAll(parts, cp).value), 0)
  {
    var prepared := PrepareAll(parts, cp).value;
    SortKeepsSizes(prepared);
    assert Arrange(prepared) == AssignStarts(Sort(prepared), 0);
  }

  /** The layout once the preparation and the placement pass are known. */
  lemma PrepareSteps(parts: seq<Region>, cp: ContentPrepare, prepared: seq<Region>, placed: seq<Region>)
    requires PrepareAll(parts, cp) == Ok(prepared) && AssignStarts(Sort(prepared), 0) == Ok(placed)
    ensures AllPlaced(placed) && Prepare(parts, cp) == Validate(placed)
  {
    AssignStartsPlaces(Sort(prepared), 0);
    SortKeepsSizes(prepared);
  }

  // --------------------------------------------------- partition plan, image

  datatype LabelType = Msdos | Gpt

  /** One `parted.Partition` the table builder is asked to create. */
  datatype PlanEntry = PlanEntry(
    name: string, startSector: nat, lengthSectors: nat, fstype: string, lba: bool, boot: bool)

  function Partitions(parts: seq<Region>): (r: seq<Region>)
    ensures forall i :: 0 <= i < |r| ==> IsPartition(r[i])
    ensures |r| <= |parts|
  {
    if |parts| == 0 then []
    else (if IsPartition(parts[0]) then [parts[0]] else []) + Partitions(parts[1..])
  }

  lemma PartitionsKeepPlaced(parts: seq<Region>)
    requires AllPlaced(parts)
    ensures AllPlaced(Partitions(parts))
  {
    if |parts| > 0 {
      PartitionsKeepPlaced(parts[1..]);
    }
  }

  /**
   * The entries of `_create_partition_table`: the partition regions in list
   * order, in sectors; under "msdos" each has the LBA flag, and the one
   * named `boot_partition` has the boot flag.
   */
  function PartitionPlan(parts: seq<Region>, ty: LabelType, boot: Option<string>): (r: seq<PlanEntry>)
    requires AllPlaced(parts)
    ensures AllPlaced(Partitions(parts))
    ensures |r| == |Partitions(parts)|
    ensures forall k :: 0 <= k < |r| ==>
      var p := Partitions(parts)[k];
      r[k].name == p.name && r[k].fstype == p.kind.fstype &&
      r[k].startSector == Sectors(p.start.value) && r[k].lengthSectors == Sectors(p.size.value)
    ensures forall k :: 0 <= k < |r| ==> (r[k].lba <==> ty == Msdos)
    ensures forall k :: 0 <= k < |r| ==> (r[k].boot <==> boot == Some(r[k].name))
  {
    PartitionsKeepPlaced(parts);
    var ps := Partitions(parts);
    seq(|ps|, k requires 0 <= k < |ps| =>
      PlanEntry(ps[k].name, Sectors(ps[k].start.value), Sectors(ps[k].size.value),
                ps[k].kind.fstype, ty == Msdos, boot == Some(ps[k].name)))
  }

  /** When partition names are distinct, at most one entry is bootable. */
  lemma AtMostOneBoot(parts: seq<Region>, ty: LabelType, boot: Option<string>, i: nat, j: nat)
    requires AllPlaced(parts)
    requires forall a, b :: 0 <= a < b < |Partitions(parts)| ==> Partitions(parts)[a].name != Partitions(parts)[b].name
    requires i < j < |PartitionPlan(parts, ty, boot)|
    ensures !(PartitionPlan(parts, ty, boot)[i].boot && PartitionPlan(parts, ty, boot)[j].boot)
  {
  }

  /** `create`: the image size is the end of the last region. */
  function ImageSize(parts: seq<Region>): (r: Result<nat, Error>)
    ensures |parts| == 0 ==> r == Err(EmptyLabel)
    ensures |parts| > 0 ==> (r.Ok? <==> Placed(parts[|parts| - 1]))
    ensures r.Ok? ==> r.value == End(parts[|parts| - 1])
  {
    if |parts| == 0 then Err(EmptyLabel)
    else Add(parts[|parts| - 1].start, parts[|parts| - 1].size)
  }

  /**
   * For a chained layout, which the intended validation guarantees, the
   * image holds every region.
   */
  lemma ImageCoversRegions(parts: seq<Region>)
    requires |parts| > 0 && AllPlaced(parts) && Chained(parts)
    ensures ImageSize(parts).Ok?
    ensures forall i :: 0 <= i < |parts| ==> End(parts[i]) <= ImageSize(parts).value
  {
    var n := |parts| - 1;
    forall i | 0 <= i < |parts|
      ensures End(parts[i]) <= End(parts[n])
    {
      if i < n {
        ChainedOrdered(parts, i, n);
      }
    }
  }

  /** A region at 150 nested inside one at 100 that reaches 200. */
  function NestedExample(): (s: seq<Region>)
    ensures AllPlaced(s) && Sorted(s)
  {
    [Region("outer", Data, Some(100), Some(100), None),
     Region("inner", Data, Some(150), Some(10), None)]
  }

  /**
   * The layout as written accepts a region nested inside another, since 150
   * reaches the size 100 before it; `create` then sizes the image by the
   * inner region, 40 bytes short of the outer one's end.
   */
  lemma ImageMissesRegion(s: seq<Region>)
    requires s == NestedExample()
    ensures Place(s) == Ok(s)
    ensures ImageSize(s) == Ok(160) && End(s[0]) == 200
  {
    SortIdempotent(s);
    AssignKeepsPlaced(s, 0);
    assert CheckSizesFrom(s, 1, 100) == CheckSizesFrom(s, 2, 110);
  }

  /** The region writes of `create`, in list order. */
  function WriteAll(f: seq<byte>, parts: seq<Region>, write: (seq<byte>, Region) -> seq<byte>): seq<byte>
    decreases |parts|
  {
    if |parts| == 0 then f else WriteAll(write(f, parts[0]), parts[1..], write)
  }

  /**
   * `create`: allocate a zero-filled image of the layout's size, let the
   * table builder write the partition table from the plan, then let every
   * region write itself in list order.
   */
  function Create(parts: seq<Region>, ty: LabelType, boot: Option<string>,
                  buildTable: (seq<byte>, seq<PlanEntry>) -> seq<byte>,
                  write: (seq<byte>, Region) -> seq<byte>): (r: Result<seq<byte>, Error>)
    requires AllPlaced(parts)
    ensures r.Ok? <==> |parts| > 0
    ensures r.Ok? ==> r.value == WriteAll(buildTable(Zeros(End(parts[|parts| - 1])), PartitionPlan(parts, ty, boot)), parts, write)
  {
    var size :- ImageSize(parts);
    var image := Zeros(size);
    Ok(WriteAll(buildTable(image, PartitionPlan(parts, ty, boot)), parts, write))
  }

  ghost predicate Grows(write: (seq<byte>, Region) -> seq<byte>)
  {
    forall f: seq<byte>, p: Region :: |write(f, p)| >= |f|
  }

  lemma {:induction false} WriteAllGrows(f: seq<byte>, parts: seq<Region>, write: (seq<byte>, Region) -> seq<byte>)
    requires Grows(write)
    ensures |WriteAll(f, parts, write)| >= |f|
    decreases |parts|
  {
    if |parts| > 0 {
      WriteAllGrows(write(f, parts[0]), parts[1..], write);
    }
  }

  /** When no writer shortens the file, the created image is at least the layout's size. */
  lemma CreateCoversImage(parts: seq<Region>, ty: LabelType, boot: Option<string>,
                          buildTable: (seq<byte>, seq<PlanEntry>) -> seq<byte>,
                          write: (seq<byte>, Region) -> seq<byte>)
    requires AllPlaced(parts) && |parts| > 0
    requires forall f: seq<byte>, e: seq<PlanEntry> :: |buildTable(f, e)| >= |f|
    requires Grows(write)
    ensures Create(parts, ty, boot, buildTable, write).Ok?
    ensures |Create(parts, ty, boot, buildTable, write).value| >= End(parts[|parts| - 1])
  {
    var image := Zeros(End(parts[|parts| - 1]));
    WriteAllGrows(buildTable(image, PartitionPlan(parts, ty, boot)), parts, write);
  }
}

=== FILE: mbr.dfy ===
/**
 * The MBR ("msdos") label: the disk signature area of the first sector,
 * and an EBR header in front of every logical partition once there are
 * more than four partitions.
 */
module Mbr {
  import opened Wrappers
  import opened Errors
  import opened Bytes
  import opened Sizes
  import opened Regions
  import Layout

  const DiskIdOffset: nat := 0x1B8

  /** The tail of the first sector: disk signature and the four primary entries. */
  const HeaderRegion := Region("MBR Header", MbrHeader, Some(0x1B8), Some(0x48), None)

  /** The extended boot record in front of a logical partition; it floats. */
  const EbrRegion := Region("EBR Header", EbrHeader, None, Some(0x200), None)

  function PartitionCount(parts: seq<Region>): nat
  {
    |Layout.Partitions(parts)|
  }

  lemma PartitionsAppend(a: seq<Region>, b: seq<Region>)
    ensures Layout.Partitions(a + b) == Layout.Partitions(a) + Layout.Partitions(b)
    decreases |a|
  {
    if |a| > 0 {
      assert (a + b)[1..] == a[1..] + b;
      PartitionsAppend(a[1..], b);
    } else {
      assert a + b == b;
    }
  }

  /**
   * The loop of `MBR.prepare` over the sorted regions: `seen` partitions
   * have gone by, and every partition after the third gets an EBR header
   * right in front of it.
   */
  function InsertEbrs(s: seq<Region>, seen: nat): (r: seq<Region>)
    ensures |s| <= |r|
    decreases |s|
  {
    if |s| == 0 then []
    else if IsPartition(s[0]) then
      (if seen + 1 > 3 then [EbrRegion, s[0]] else [s[0]]) + InsertEbrs(s[1..], seen + 1)
    else [s[0]] + InsertEbrs(s[1..], seen)
  }

  /** The regions other than EBR headers, in order. */
  function RemoveEbrs(s: seq<Region>): (r: seq<Region>)
    ensures |r| <= |s|
  {
    if |s| == 0 then []
    else (if s[0].kind.EbrHeader? then [] else [s[0]]) + RemoveEbrs(s[1..])
  }

  /** Dropping the EBR headers gives back the regions they were inserted into. */
  lemma {:induction false} RemoveInsertedEbrs(s: seq<Region>, seen: nat)
    requires !HasKind(s, EbrHeader)
    ensures RemoveEbrs(InsertEbrs(s, seen)) == s
    decreases |s|
  {
    if |s| > 0 {
      HasKindSplit(s, EbrHeader);
      RemoveInsertedEbrs(s[1..], if IsPartition(s[0]) then seen + 1 else seen);
      var rest := InsertEbrs(s[1..], if IsPartition(s[0]) then seen + 1 else seen);
      RemoveAppend(if IsPartition(s[0]) && seen + 1 > 3 then [EbrRegion, s[0]] else [s[0]], rest);
      if IsPartition(s[0]) && seen + 1 > 3 {
        RemoveAppend([EbrRegion], [s[0]]);
      }
      assert s == [s[0]] + s[1..];
    }
  }

  lemma HasKindSplit(s: seq<Region>, k: RegionKind)
    requires |s| > 0
    ensures HasKind(s, k) <==> s[0].kind == k || HasKind(s[1..], k)
  {
    if HasKind(s[1..], k) {
      var j :| 0 <= j < |s[1..]| && s[1..][j].kind == k;
      assert s[j + 1] == s[1..][j];
    }
    if HasKind(s, k) && s[0].kind != k {
      var j :| 0 <= j < |s| && s[j].kind == k;
      assert s[1..][j - 1] == s[j];
    }
  }

  lemma RemoveAppend(a: seq<Region>, b: seq<Region>)
    ensures RemoveEbrs(a + b) == RemoveEbrs(a) + RemoveEbrs(b)
    decreases |a|
  {
    if |a| > 0 {
      assert (a + b)[1..] == a[1..] + b;
      RemoveAppend(a[1..], b);
    } else {
      assert a + b == b;
    }
  }

  /**
   * The partitions are untouched, and one EBR header is added for every
   * partition numbered four or higher.
   */
  lemma {:induction false} InsertEbrsCounts(s: seq<Region>, seen: nat)
    ensures Layout.Partitions(InsertEbrs(s, seen)) == Layout.Partitions(s)
    ensures |InsertEbrs(s, seen)| == |s| + Max(0, seen + PartitionCount(s) - 3) - Max(0, seen - 3)
    decreases |s|
  {
    if |s| > 0 {
      var next := if IsPartition(s[0]) then seen + 1 else seen;
      InsertEbrsCounts(s[1..], next);
      var head := if IsPartition(s[0]) && seen + 1 > 3 then [EbrRegion, s[0]] else [s[0]];
      PartitionsAppend(head, InsertEbrs(s[1..], next));
      PartitionsAppend([s[0]], s[1..]);
      assert s == [s[0]] + s[1..];
      if |head| == 2 {
        PartitionsAppend([EbrRegion], [s[0]]);
      }
    }
  }

  /** Every EBR header sits right in front of a partition numbered four or higher. */
  lemma {:induction false} EbrPrecedesLogical(s: seq<Region>, seen: nat, k: nat)
    requires !HasKind(s, EbrHeader)
    requires k < |InsertEbrs(s, seen)| && InsertEbrs(s, seen)[k].kind.EbrHeader?
    ensures k + 1 < |InsertEbrs(s, seen)| && IsPartition(InsertEbrs(s, seen)[k + 1])
    ensures seen + PartitionCount(InsertEbrs(s, seen)[..k]) >= 3
    decreases |s|
  {
    var r := InsertEbrs(s, seen);
    var next := if IsPartition(s[0]) then seen + 1 else seen;
    var head := if IsPartition(s[0]) && seen + 1 > 3 then [EbrRegion, s[0]] else [s[0]];
    var rest := InsertEbrs(s[1..], next);
    assert r == head + rest;
    HasKindSplit(s, EbrHeader);
    if k < |head| {
      if k == 0 && |head| == 2 {
        assert r[..k] == [];
      } else {
        assert false;
      }
    } else {
      SplitAt(head, rest, k);
      assert !HasKind(s[1..], EbrHeader) && rest[k - |head|].kind.EbrHeader?;
      EbrPrecedesLogical(s[1..], next, k - |head|);
      assert k + 1 < |r|;
      SplitAt(head, rest, k + 1);
      PartitionsAppend(head, rest[..k - |head|]);
      if |head| == 2 {
        PartitionsAppend([EbrRegion], [s[0]]);
      }
    }
  }

  /** Every partition numbered four or higher has an EBR header right in front of it. */
  lemma {:induction false} LogicalHasEbr(s: seq<Region>, seen: nat, k: nat)
    requires k < |InsertEbrs(s, seen)| && IsPartition(InsertEbrs(s, seen)[k])
    requires seen + PartitionCount(InsertEbrs(s, seen)[..k]) >= 3
    ensures k > 0 && InsertEbrs(s, seen)[k - 1].kind.EbrHeader?
    decreases |s|
  {
    var r := InsertEbrs(s, seen);
    var next := if IsPartition(s[0]) then seen + 1 else seen;
    var head := if IsPartition(s[0]) && seen + 1 > 3 then [EbrRegion, s[0]] else [s[0]];
    var rest := InsertEbrs(s[1..], next);
    assert r == head + rest;
    if k < |head| {
      if k == 1 && |head| == 2 {
      } else {
        assert false;
      }
    } else {
      SplitAt(head, rest, k);
      PartitionsAppend(head, rest[..k - |head|]);
      if |head| == 2 {
        PartitionsAppend([EbrRegion], [s[0]]);
      }
      LogicalHasEbr(s[1..], next, k - |head|);
    }
  }

  /** Indexing past the head of a concatenation indexes its rest. */
  lemma SplitAt(head: seq<Region>, rest: seq<Region>, k: nat)
    requires |head| <= k < |head| + |rest|
    ensures (head + rest)[k] == rest[k - |head|]
    ensures (head + rest)[..k] == head + rest[..k - |head|]
    ensures k > |head| ==> (head + rest)[k - 1] == rest[k - |head| - 1]
  {
    assert (head + rest)[..k] == head + rest[..k - |head|];
  }

  /** The list `MBR.prepare` hands to the common layout. */
  function WithEbrs(parts: seq<Region>): (r: seq<Region>)
    ensures PartitionCount(parts) <= 4 ==> r == parts
  {
    if PartitionCount(parts) > 4 then InsertEbrs(Layout.Sort(parts), 0) else parts
  }

  /** Beyond four partitions, exactly one EBR header per logical partition is added. */
  lemma WithEbrsCounts(parts: seq<Region>)
    requires PartitionCount(parts) > 4
    ensures PartitionCount(WithEbrs(parts)) == PartitionCount(parts)
    ensures |WithEbrs(parts)| == |parts| + PartitionCount(parts) - 3
  {
    var t := Layout.Sort(parts);
    InsertEbrsCounts(t, 0);
    SortKeepsPartitions(parts);
  }

  lemma {:induction false} SortKeepsPartitions(s: seq<Region>)
    ensures PartitionCount(Layout.Sort(s)) == PartitionCount(s)
    decreases |s|
  {
    if |s| > 0 {
      SortKeepsPartitions(s[1..]);
      InsertKeepsPartitions(s[0], Layout.Sort(s[1..]));
      PartitionsAppend([s[0]], s[1..]);
      assert s == [s[0]] + s[1..];
    }
  }

  lemma {:induction false} InsertKeepsPartitions(x: Region, t: seq<Region>)
    ensures PartitionCount(Layout.Insert(x, t)) == PartitionCount(t) + (if IsPartition(x) then 1 else 0)
    decreases |t|
  {
    if |t| == 0 {
      assert Layout.Insert(x, t) == [x];
    } else if KeyLe(x.start, t[0].start) {
      PartitionsAppend([x], t);
    } else {
      InsertKeepsPartitions(x, t[1..]);
      PartitionsAppend([t[0]], Layout.Insert(x, t[1..]));
      PartitionsAppend([t[0]], t[1..]);
      assert t == [t[0]] + t[1..];
    }
  }

  /** Dropping the EBR headers from the list gives the sorted input back. */
  lemma WithEbrsRemovable(parts: seq<Region>)
    requires PartitionCount(parts) > 4 && !HasKind(parts, EbrHeader)
    ensures RemoveEbrs(WithEbrs(parts)) == Layout.Sort(parts)
  {
    var t := Layout.Sort(parts);
    assert !HasKind(t, EbrHeader) by {
      Layout.SortSameElements(parts);
      forall j | 0 <= j < |t| ensures t[j].kind != EbrHeader {
        assert t[j] in parts;
      }
    }
    RemoveInsertedEbrs(t, 0);
  }

  /**
   * `MBR.prepare`: add the header when missing, insert the EBR headers, run
   * the common layout. The result holds exactly those regions, each as often
   * as it occurs, with only the missing starts filled in.
   */
  function Prepare(parts: seq<Region>, cp: ContentPrepare): (r: Result<seq<Region>, Error>)
    ensures r.Ok? ==>
      var w := WithEbrs(AddMissing(parts, HeaderRegion));
      PrepareAll(w, cp).Ok? && Layout.PlacementOf(PrepareAll(w, cp).value, r.value)
    ensures r.Ok? ==> Layout.Sorted(r.value) && Layout.StartsCoverSizes(r.value)
  {
    Layout.Prepare(WithEbrs(AddMissing(parts, HeaderRegion)), cp)
  }

  /**
   * Every EBR header in the list is an inserted one and is immediately
   * followed by a floating partition.
   */
  predicate EbrsFollowed(x: seq<Region>)
  {
    forall k :: 0 <= k < |x| && x[k].kind.EbrHeader? ==>
      x[k] == EbrRegion && k + 1 < |x| && IsPartition(x[k + 1]) && x[k + 1].start.None?
  }

  /** The insertion puts a floating partition right after every EBR header. */
  lemma {:induction false} InsertedFollowed(s: seq<Region>, seen: nat)
    requires !HasKind(s, EbrHeader)
    requires forall j :: 0 <= j < |s| && IsPartition(s[j]) ==> s[j].start.None?
    ensures EbrsFollowed(InsertEbrs(s, seen))
    decreases |s|
  {
    if |s| > 0 {
      HasKindSplit(s, EbrHeader);
      var next := if IsPartition(s[0]) then seen + 1 else seen;
      var head := if IsPartition(s[0]) && seen + 1 > 3 then [EbrRegion, s[0]] else [s[0]];
      forall j | 0 <= j < |s[1..]| && IsPartition(s[1..][j])
        ensures s[1..][j].start.None?
      {
        assert s[1..][j] == s[j + 1];
      }
      InsertedFollowed(s[1..], next);
      var rest := InsertEbrs(s[1..], next);
      var r := head + rest;
      assert InsertEbrs(s, seen) == r;
      forall k | 0 <= k < |r| && r[k].kind.EbrHeader?
        ensures r[k] == EbrRegion && k + 1 < |r| && IsPartition(r[k + 1]) && r[k + 1].start.None?
      {
        if k >= |head| {
          SplitAt(head, rest, k);
          if k + 1 < |r| {
            SplitAt(head, rest, k + 1);
          }
        }
      }
    }
  }

  lemma EbrsFollowedTail(x: seq<Region>)
    requires |x| > 0 && EbrsFollowed(x)
    ensures EbrsFollowed(x[1..])
  {
    forall k | 0 <= k < |x| - 1 && x[1..][k].kind.EbrHeader?
      ensures x[1..][k] == EbrRegion && k + 1 < |x| - 1 && IsPartition(x[1..][k + 1]) && x[1..][k + 1].start.None?
    {
      assert x[1..][k] == x[k + 1];
      if k + 2 < |x| {
        assert x[1..][k + 1] == x[k + 2];
      }
    }
  }

  /** The floating regions keep every EBR header next to its partition. */
  lemma {:induction false} FloatingFollowed(x: seq<Region>)
    requires EbrsFollowed(x)
    ensures EbrsFollowed(Layout.WithStart(x, None))
    decreases |x|
  {
    if |x| > 0 {
      EbrsFollowedTail(x);
      FloatingFollowed(x[1..]);
      var f1 := Layout.WithStart(x[1..], None);
      if x[0].start.None? {
        assert Layout.WithStart(x, None) == [x[0]] + f1;
        if x[0].kind.EbrHeader? {
          assert x[1..][0] == x[1];
          Layout.WithStartCons(x[1], x[2..], None);
          assert x[1..] == [x[1]] + x[2..];
        }
        FollowedCons(x[0], f1);
      }
    }
  }

  /** A region in front of a list keeps it followed when it is no EBR header, or one placed right. */
  lemma FollowedCons(a: Region, f1: seq<Region>)
    requires EbrsFollowed(f1)
    requires a.kind.EbrHeader? ==> a == EbrRegion && |f1| > 0 && IsPartition(f1[0]) && f1[0].start.None?
    ensures EbrsFollowed([a] + f1)
  {
    var f := [a] + f1;
    forall k | 0 <= k < |f| && f[k].kind.EbrHeader?
      ensures f[k] == EbrRegion && k + 1 < |f| && IsPartition(f[k + 1]) && f[k + 1].start.None?
    {
      if k > 0 {
        assert f[k] == f1[k - 1];
        if k < |f1| {
          assert f[k + 1] == f1[k];
        }
      }
    }
  }

  /** Sorting keeps every EBR header next to its partition. */
  lemma SortFollowed(x: seq<Region>)
    requires EbrsFollowed(x)
    ensures EbrsFollowed(Layout.Sort(x))
  {
    var y := Layout.Sort(x);
    var f := Layout.WithStart(x, None);
    Layout.SortIsStable(x, None);
    FloatingFollowed(x);
    Layout.SortedFloatingSuffix(y);
    Layout.SortSameElements(x);
    var n := |y| - |f|;
    forall k | 0 <= k < |y| && y[k].kind.EbrHeader?
      ensures y[k] == EbrRegion && k + 1 < |y| && IsPartition(y[k + 1]) && y[k + 1].start.None?
    {
      assert y[k] in x;
      var j :| 0 <= j < |x| && x[j] == y[k];
      assert k >= n;
      assert y[k] == f[k - n];
      if k + 1 < |y| {
        assert y[k + 1] == f[k - n + 1];
      }
    }
  }

  /** Preparing the regions' contents keeps every EBR header next to its partition. */
  lemma PreparedFollowed(x: seq<Region>, cp: ContentPrepare)
    requires PrepareAll(x, cp).Ok? && EbrsFollowed(x)
    ensures EbrsFollowed(PrepareAll(x, cp).value)
  {
    var y := PrepareAll(x, cp).value;
    forall k | 0 <= k < |y| && y[k].kind.EbrHeader?
      ensures y[k] == EbrRegion && k + 1 < |y| && IsPartition(y[k + 1]) && y[k + 1].start.None?
    {
      assert y[k] == PrepareRegion(x[k], cp).value;
      assert y[k + 1] == PrepareRegion(x[k + 1], cp).value;
    }
  }

  /** The list handed to the common layout has every EBR header next to its partition. */
  lemma WithEbrsFollowed(parts: seq<Region>)
    requires !HasKind(parts, EbrHeader)
    requires forall j :: 0 <= j < |parts| && IsPartition(parts[j]) ==> parts[j].start.None?
    ensures EbrsFollowed(WithEbrs(AddMissing(parts, HeaderRegion)))
  {
    var a := AddMissing(parts, HeaderRegion);
    assert forall j :: 0 <= j < |a| ==> a[j] in parts || a[j] == HeaderRegion;
    assert !HasKind(a, EbrHeader);
    if PartitionCount(a) > 4 {
      var t := Layout.Sort(a);
      Layout.SortSameElements(a);
      forall j | 0 <= j < |t|
        ensures t[j].kind != EbrHeader
      {
        assert t[j] in a;
      }
      forall j | 0 <= j < |t| && IsPartition(t[j])
        ensures t[j].start.None?
      {
        assert t[j] in a;
        if t[j] in parts {
          var i :| 0 <= i < |parts| && parts[i] == t[j];
        }
      }
      InsertedFollowed(t, 0);
    }
  }

  /**
   * With floating partitions, each EBR header of the prepared MBR layout
   * starts where the region before it ends (at 0 if it is first), and the
   * logical partition after it starts one sector later.
   */
  lemma LogicalAfterEbr(parts: seq<Region>, cp: ContentPrepare, k: nat)
    requires !HasKind(parts, EbrHeader)
    requires forall j :: 0 <= j < |parts| && IsPartition(parts[j]) ==> parts[j].start.None?
    requires Prepare(parts, cp).Ok?
    requires k < |Prepare(parts, cp).value| && Prepare(parts, cp).value[k].kind.EbrHeader?
    ensures var r := Prepare(parts, cp).value;
      k + 1 < |r| && IsPartition(r[k + 1]) &&
      r[k].start.value == (if k == 0 then 0 else End(r[k - 1])) &&
      r[k + 1].start.value == r[k].start.value + 512
  {
    var w := WithEbrs(AddMissing(parts, HeaderRegion));
    WithEbrsFollowed(parts);
    Layout.PrepareAssigns(w, cp);
    var ws := PrepareAll(w, cp).value;
    PreparedFollowed(w, cp);
    var y := Layout.Sort(ws);
    SortFollowed(ws);
    Layout.AssignStartsPlaces(y, 0);
    var r := Prepare(parts, cp).value;
    assert r == Layout.AssignStarts(y, 0).value;
    assert r[k] == y[k].(start := r[k].start);
    assert y[k] == EbrRegion;
    assert r[k + 1] == y[k + 1].(start := r[k + 1].start);
  }

  /** An empty MBR label is the header alone and makes a one-sector image. */
  lemma EmptyMbrImage(cp: ContentPrepare)
    ensures Prepare([], cp) == Ok([HeaderRegion])
    ensures Layout.ImageSize(Prepare([], cp).value) == Ok(512)
  {
    var s := [HeaderRegion];
    assert AddMissing([], HeaderRegion) == s;
    assert WithEbrs(s) == s;
    assert PrepareRegion(s[0], cp) == Ok(s[0]);
    assert PrepareAll(s, cp).value == s;
    assert Layout.Sort(s) == s;
    assert Layout.AssignStarts(s, 0) == Ok(s);
    assert Layout.CheckSizesFrom(s, 0, 0) == None;
  }

  /**
   * When no region of an MBR label has a fixed start, the prepared layout
   * opens with the header, and the first of the floating regions
   * (partitions with or without content, EBR headers, others) starts
   * right after the first sector.
   */
  lemma FirstFloatingAfterHeader(parts: seq<Region>, cp: ContentPrepare)
    requires |parts| > 0
    requires !HasKind(parts, MbrHeader)
    requires forall j :: 0 <= j < |parts| ==> parts[j].start.None?
    requires Prepare(parts, cp).Ok?
    ensures var r := Prepare(parts, cp).value;
      |r| >= 2 && r[0] == HeaderRegion && r[1].start == Some(512)
  {
    var w := WithEbrs(AddMissing(parts, HeaderRegion));
    HeaderOnlyFixed(parts);
    Layout.PrepareAssigns(w, cp);
    var ws := PrepareAll(w, cp).value;
    PreparedHeaderOnly(w, cp);
    var y := Layout.Sort(ws);
    HeaderSortsFirst(ws);
    Layout.AssignStartsPlaces(y, 0);
    var r := Prepare(parts, cp).value;
    assert r == Layout.AssignStarts(y, 0).value;
    assert r[0] == y[0].(start := r[0].start);
  }

  /** Preparing the regions keeps the header the one region with a start. */
  lemma PreparedHeaderOnly(w: seq<Region>, cp: ContentPrepare)
    requires PrepareAll(w, cp).Ok?
    requires |w| >= 2 && |Layout.WithStart(w, None)| + 1 == |w|
    requires forall j :: 0 <= j < |w| && w[j].start.Some? ==> w[j] == HeaderRegion
    ensures var ws := PrepareAll(w, cp).value;
      |ws| >= 2 && |Layout.WithStart(ws, None)| + 1 == |ws| &&
      forall j :: 0 <= j < |ws| && ws[j].start.Some? ==> ws[j] == HeaderRegion
  {
    var ws := PrepareAll(w, cp).value;
    SameStartsFloating(w, ws);
    forall j | 0 <= j < |ws| && ws[j].start.Some?
      ensures ws[j] == HeaderRegion
    {
      assert w[j] == HeaderRegion;
    }
  }

  /** A list whose one region with a start is the header sorts with the header first and a floating region next. */
  lemma HeaderSortsFirst(ws: seq<Region>)
    requires |ws| >= 2 && |Layout.WithStart(ws, None)| + 1 == |ws|
    requires forall j :: 0 <= j < |ws| && ws[j].start.Some? ==> ws[j] == HeaderRegion
    ensures Layout.Sort(ws)[0] == HeaderRegion && Layout.Sort(ws)[1].start.None?
  {
    var y := Layout.Sort(ws);
    Layout.SortIsStable(ws, None);
    Layout.SortedFloatingSuffix(y);
    WithStartKeys(y, None);
    assert y[1] == y[1..][0];
    Layout.SortSameElements(ws);
    assert y[0] in ws;
  }

  /**
   * With every given region floating, the list handed to the common layout
   * has exactly one region with a start, the header.
   */
  lemma HeaderOnlyFixed(parts: seq<Region>)
    requires !HasKind(parts, MbrHeader)
    requires forall j :: 0 <= j < |parts| ==> parts[j].start.None?
    ensures var w := WithEbrs(AddMissing(parts, HeaderRegion));
      |w| > |parts| && |Layout.WithStart(w, None)| + 1 == |w| &&
      forall j :: 0 <= j < |w| && w[j].start.Some? ==> w[j] == HeaderRegion
  {
    var a := AddMissing(parts, HeaderRegion);
    assert a == parts + [HeaderRegion];
    assert |Layout.WithStart(a, None)| + 1 == |a| by {
      Layout.AllFloatingKept(parts);
      WithStartAppend(parts, [HeaderRegion]);
    }
    forall j | 0 <= j < |a| && a[j].start.Some?
      ensures a[j] == HeaderRegion
    {
      assert j == |parts|;
    }
    if PartitionCount(a) > 4 {
      EbrsHeaderOnly(a);
      assert WithEbrs(a) == InsertEbrs(Layout.Sort(a), 0);
    } else {
      assert WithEbrs(a) == a;
    }
  }

  /** Inserting EBR headers into the sorted list adds no region with a start. */
  lemma EbrsHeaderOnly(a: seq<Region>)
    requires |Layout.WithStart(a, None)| + 1 == |a|
    requires forall j :: 0 <= j < |a| && a[j].start.Some? ==> a[j] == HeaderRegion
    ensures var w := InsertEbrs(Layout.Sort(a), 0);
      |w| >= |a| && |Layout.WithStart(w, None)| + 1 == |w| &&
      forall j :: 0 <= j < |w| && w[j].start.Some? ==> w[j] == HeaderRegion
  {
    var t := Layout.Sort(a);
    var w := InsertEbrs(t, 0);
    Layout.SortIsStable(a, None);
    Layout.SortSameElements(a);
    InsertEbrsCounts(t, 0);
    InsertEbrsFloating(t, 0);
    InsertEbrsMembers(t, 0);
    OnlyFrom(a, w);
  }

  /** Regions drawn from `a` or EBR headers keep `a`'s property that only the header has a start. */
  lemma OnlyFrom(a: seq<Region>, w: seq<Region>)
    requires forall j :: 0 <= j < |a| && a[j].start.Some? ==> a[j] == HeaderRegion
    requires forall j :: 0 <= j < |w| ==> w[j] in a || w[j] == EbrRegion
    ensures forall j :: 0 <= j < |w| && w[j].start.Some? ==> w[j] == HeaderRegion
  {
    forall j | 0 <= j < |w| && w[j].start.Some?
      ensures w[j] == HeaderRegion
    {
      assert w[j] in a;
      var i :| 0 <= i < |a| && a[i] == w[j];
    }
  }

  lemma {:induction false} WithStartKeys(s: seq<Region>, k: SizeType)
    ensures forall i :: 0 <= i < |Layout.WithStart(s, k)| ==> Layout.WithStart(s, k)[i].start == k
    decreases |s|
  {
    if |s| > 0 {
      WithStartKeys(s[1..], k);
    }
  }

  /** Two lists whose starts agree position by position have as many floating regions. */
  lemma {:induction false} SameStartsFloating(x: seq<Region>, z: seq<Region>)
    requires |x| == |z|
    requires forall i :: 0 <= i < |x| ==> x[i].start == z[i].start
    ensures |Layout.WithStart(x, None)| == |Layout.WithStart(z, None)|
    decreases |x|
  {
    if |x| > 0 {
      SameStartsFloating(x[1..], z[1..]);
    }
  }

  /** The EBR headers `InsertEbrs` adds all float. */
  lemma {:induction false} InsertEbrsFloating(s: seq<Region>, seen: nat)
    ensures |InsertEbrs(s, seen)| + |Layout.WithStart(s, None)| == |s| + |Layout.WithStart(InsertEbrs(s, seen), None)|
    decreases |s|
  {
    if |s| > 0 {
      var next := if IsPartition(s[0]) then seen + 1 else seen;
      InsertEbrsFloating(s[1..], next);
      var rest := InsertEbrs(s[1..], next);
      var head := if IsPartition(s[0]) && seen + 1 > 3 then [EbrRegion, s[0]] else [s[0]];
      assert InsertEbrs(s, seen) == head + rest;
      WithStartAppend(head, rest);
      WithStartAppend([s[0]], s[1..]);
      assert s == [s[0]] + s[1..];
      assert |Layout.WithStart(head, None)| == |head| - 1 + |Layout.WithStart([s[0]], None)|;
    }
  }

  lemma {:induction false} WithStartAppend(a: seq<Region>, b: seq<Region>)
    ensures |Layout.WithStart(a + b, None)| == |Layout.WithStart(a, None)| + |Layout.WithStart(b, None)|
    decreases |a|
  {
    if |a| > 0 {
      WithStartAppend(a[1..], b);
      assert a + b == [a[0]] + (a[1..] + b);
      Layout.WithStartCons(a[0], a[1..] + b, None);
    } else {
      assert a + b == b;
    }
  }

  /** Every region `InsertEbrs` yields is a given one or an EBR header. */
  lemma {:induction false} InsertEbrsMembers(s: seq<Region>, seen: nat)
    ensures forall i :: 0 <= i < |InsertEbrs(s, seen)| ==> InsertEbrs(s, seen)[i] in s || InsertEbrs(s, seen)[i] == EbrRegion
    decreases |s|
  {
    if |s| > 0 {
      var next := if IsPartition(s[0]) then seen + 1 else seen;
      InsertEbrsMembers(s[1..], next);
      var rest := InsertEbrs(s[1..], next);
      var head := if IsPartition(s[0]) && seen + 1 > 3 then [EbrRegion, s[0]] else [s[0]];
      assert InsertEbrs(s, seen) == head + rest;
      forall i | |head| <= i < |head| + |rest|
        ensures (head + rest)[i] in s || (head + rest)[i] == EbrRegion
      {
        assert (head + rest)[i] == rest[i - |head|];
      }
    }
  }

  /** A single floating region without content comes out exactly after the first sector. */
  lemma LoneFloatingRegion(p: Region, cp: ContentPrepare)
    requires p.start.None? && p.size.Some? && p.content.None? && !p.kind.MbrHeader? && !IsPartition(p)
    ensures Prepare([p], cp) == Ok([HeaderRegion, p.(start := Some(512))])
  {
    var s := [p, HeaderRegion];
    FloatingInput(p, cp);
    FloatingPlaced(p);
    FloatingValidated(p);
    Layout.PrepareSteps(s, cp, s, [HeaderRegion, p.(start := Some(512))]);
  }

  lemma FloatingInput(p: Region, cp: ContentPrepare)
    requires p.start.None? && p.content.None? && !p.kind.MbrHeader? && !IsPartition(p)
    ensures WithEbrs(AddMissing([p], HeaderRegion)) == [p, HeaderRegion]
    ensures PrepareAll([p, HeaderRegion], cp) == Ok([p, HeaderRegion])
    ensures Layout.Sort([p, HeaderRegion]) == [HeaderRegion, p]
  {
    var s := [p, HeaderRegion];
    assert AddMissing([p], HeaderRegion) == s;
    assert WithEbrs(s) == s;
    FloatingPrepared(p, cp);
    FloatingSorted(p);
  }

  lemma FloatingPrepared(p: Region, cp: ContentPrepare)
    requires p.content.None?
    ensures PrepareAll([p, HeaderRegion], cp) == Ok([p, HeaderRegion])
  {
    var s := [p, HeaderRegion];
    assert PrepareRegion(s[0], cp) == Ok(s[0]);
    assert PrepareRegion(s[1], cp) == Ok(s[1]);
    assert PrepareAll(s, cp).value == s;
  }

  lemma FloatingSorted(p: Region)
    requires p.start.None?
    ensures Layout.Sort([p, HeaderRegion]) == [HeaderRegion, p]
  {
    assert Layout.Insert(HeaderRegion, []) == [HeaderRegion];
    assert [p, HeaderRegion][1..] == [HeaderRegion];
  }

  lemma FloatingPlaced(p: Region)
    requires p.start.None? && p.size.Some?
    ensures Layout.AssignStarts([HeaderRegion, p], 0) == Ok([HeaderRegion, p.(start := Some(512))])
  {
    assert [p][1..] == [];
    assert Layout.AssignStarts([], 512 + p.size.value) == Ok([]);
    assert [p.(start := Some(512))] + [] == [p.(start := Some(512))];
    assert Layout.AssignStarts([p], 512) == Ok([p.(start := Some(512))]);
    assert [HeaderRegion, p][1..] == [p];
    assert HeaderRegion.(start := Some(0x1B8)) == HeaderRegion;
    assert [HeaderRegion] + [p.(start := Some(512))] == [HeaderRegion, p.(start := Some(512))];
  }

  lemma FloatingValidated(p: Region)
    requires p.size.Some?
    ensures AllPlaced([HeaderRegion, p.(start := Some(512))])
    ensures Layout.Validate([HeaderRegion, p.(start := Some(512))]) == Ok([HeaderRegion, p.(start := Some(512))])
  {
    var placed := [HeaderRegion, p.(start := Some(512))];
    assert Layout.Sorted(placed);
    Layout.SortIdempotent(placed);
    assert Layout.SumBefore(placed, 1) == 0x48;
    assert Layout.SumBefore(placed, 2) == 0x48 + p.size.value;
    assert Layout.CheckSizesFrom(placed, 2, 0x48 + p.size.value) == None;
    assert Layout.CheckSizesFrom(placed, 1, 0x48) == None;
    assert Layout.CheckSizesFrom(placed, 0, 0) == None;
  }

  // ---------------------------------------------------------------- writing

  /**
   * `MBRHeader.write`: a disk id that is set and not zero is packed as a
   * 32-bit unsigned integer at offset 0x1B8.
   */
  function WriteDiskId(f: seq<byte>, diskid: Option<int>): (r: Result<seq<byte>, Error>)
    ensures diskid.None? || diskid == Some(0) ==> r == Ok(f)
    ensures diskid.Some? && diskid.value != 0 ==> (r.Err? <==> !(0 <= diskid.value < TwoTo32))
    ensures r.Err? ==> r.error == PackRange(diskid.value)
    ensures r.Ok? && diskid.Some? && diskid.value != 0 ==>
      |r.value| == Max(|f|, DiskIdOffset + 4) &&
      Le32Value(r.value[DiskIdOffset .. DiskIdOffset + 4]) == diskid.value &&
      forall k :: 0 <= k < |r.value| && !(DiskIdOffset <= k < DiskIdOffset + 4) ==>
        r.value[k] == (if k < |f| then f[k] else 0)
  {
    match diskid
    case None => Ok(f)
    case Some(id) =>
      if id == 0 then Ok(f)
      else if id < 0 || id >= TwoTo32 then Err(PackRange(id))
      else
        var g := WriteAt(f, DiskIdOffset, Le32(id));
        assert g[DiskIdOffset .. DiskIdOffset + 4] == Le32(id);
        Ok(g)
  }
}

=== FILE: sizes.dfy ===
/**
 * Sizes and offsets. A size is a number of bytes or undefined ("let the
 * layout engine decide"); undefined is distinct from zero.
 */
module Sizes {
  import opened Wrappers
  import opened Errors

  type SizeType = Option<nat>

  const SectorSize: nat := 512

  /** `SizeType.sectors`: whole 512-byte sectors. */
  function Sectors(bytes: nat): nat
  {
    bytes / SectorSize
  }

  /** `a + b` on sizes: adding an undefined size raises. */
  function Add(a: SizeType, b: SizeType): (r: Result<nat, Error>)
    ensures r.Ok? <==> a.Some? && b.Some?
    ensures r.Err? ==> r.error == UndefinedValue
    ensures r.Ok? ==> r.value >= a.value && r.value >= b.value
    ensures r.Ok? ==> r.value - a.value == b.value
  {
    if a.None? || b.None? then Err(UndefinedValue) else Ok(a.value + b.value)
  }

  /** `math.ceil(n / 512) * 512`: the first sector boundary at or after `n`. */
  function AlignUp(n: nat): (r: nat)
    ensures r % SectorSize == 0
    ensures n <= r < n + SectorSize
  {
    var q := (n + SectorSize - 1) / SectorSize;
    assert n + SectorSize - 1 == q * SectorSize + (n + SectorSize - 1) % SectorSize;
    assert (q * SectorSize) % SectorSize == 0 by {
      MultipleMod(q);
    }
    q * SectorSize
  }

  lemma MultipleMod(q: nat)
    ensures (q * SectorSize) % SectorSize == 0
  {
    assert q * SectorSize == SectorSize * q;
  }

  /**
   * The sort key order of starts: defined starts by value, and an undefined
   * start after every defined one.
   */
  predicate KeyLe(a: SizeType, b: SizeType)
  {
    b.None? || (a.Some? && a.value <= b.value)
  }

  lemma KeyLeTotal(a: SizeType, b: SizeType)
    ensures KeyLe(a, b) || KeyLe(b, a)
    ensures KeyLe(a, b) && b.Some? ==> a.Some? && a.value <= b.value
  {
  }
}

/** Regions of the image and the content behind them. */
module Regions {
  import opened Wrappers
  import opened Errors
  import opened Sizes

  /** The concrete region classes; header kinds are injected by the labels. */
  datatype RegionKind =
    | Pmbr | GptHeader | GptTable | GptBackup   // GPT structures
    | MbrHeader | EbrHeader                     // MBR structures
    | Data                                      // empty or raw region
    | Partition(fstype: string)                 // PartitionRegion

  /** A content as the layout sees it: what kind it is and its size. */
  datatype Content = Content(kind: string, size: SizeType)

  datatype Region = Region(
    name: string,
    kind: RegionKind,
    start: SizeType,
    size: SizeType,
    content: Option<Content>)

  /** The content's own `prepare`, which may fix its size or raise. */
  type ContentPrepare = Content -> Result<Content, Error>

  predicate Placed(r: Region)
  {
    r.start.Some? && r.size.Some?
  }

  predicate AllPlaced(s: seq<Region>)
  {
    forall i :: 0 <= i < |s| ==> Placed(s[i])
  }

  function End(r: Region): nat
    requires Placed(r)
  {
    r.start.value + r.size.value
  }

  /** Two placed regions share at least one byte. */
  predicate Overlaps(a: Region, b: Region)
    requires Placed(a) && Placed(b)
  {
    a.start.value < End(b) && b.start.value < End(a)
  }

  predicate IsPartition(r: Region)
  {
    r.kind.Partition?
  }

  /**
   * `BaseContentRegion.prepare`: a defined region size is pushed into the
   * content, the content prepares itself, an undefined region size is then
   * taken from the content. A region without content has nothing to
   * prepare (`BaseRegion.prepare`).
   */
  function PrepareRegion(r: Region, cp: ContentPrepare): (res: Result<Region, Error>)
    ensures res.Ok? ==> res.value.name == r.name && res.value.kind == r.kind
    ensures res.Ok? ==> res.value.start == r.start
    ensures r.content.None? ==> res == Ok(r)
    ensures r.content.Some? && r.size.Some? ==>
      (res.Ok? <==> cp(r.content.value.(size := r.size)).Ok?)
    ensures r.content.Some? && r.size.Some? && res.Ok? ==>
      res.value.size == r.size && res.value.content == Some(cp(r.content.value.(size := r.size)).value)
    ensures r.content.Some? && r.size.None? ==> (res.Ok? <==> cp(r.content.value).Ok?)
    ensures r.content.Some? && r.size.None? && res.Ok? ==>
      res.value.content == Some(cp(r.content.value).value) && res.value.size == cp(r.content.value).value.size
  {
    match r.content
    case None => Ok(r)
    case Some(c) =>
      var pushed := if r.size.Some? then c.(size := r.size) else c;
      var prepared :- cp(pushed);
      var size := if r.size.Some? then r.size else prepared.size;
      Ok(r.(size := size, content := Some(prepared)))
  }

  /** A content honours a pushed size when its `prepare` keeps a defined size. */
  ghost predicate Honours(cp: ContentPrepare)
  {
    forall c: Content :: c.size.Some? && cp(c).Ok? ==> cp(c).value.size == c.size
  }

  /** After `prepare`, a region and its content agree on the size. */
  lemma PreparedSizesAgree(r: Region, cp: ContentPrepare)
    requires r.content.Some?
    requires Honours(cp)
    requires PrepareRegion(r, cp).Ok?
    ensures PrepareRegion(r, cp).value.content.value.size == PrepareRegion(r, cp).value.size
  {
    if r.size.Some? {
      var pushed := r.content.value.(size := r.size);
      assert pushed.size.Some? && cp(pushed).Ok?;
    }
  }

  /** Every region's own `prepare`, in list order; the first failure is raised. */
  function PrepareAll(parts: seq<Region>, cp: ContentPrepare): (res: Result<seq<Region>, Error>)
    ensures res.Ok? <==> forall i :: 0 <= i < |parts| ==> PrepareRegion(parts[i], cp).Ok?
    ensures res.Ok? ==> |res.value| == |parts|
    ensures res.Ok? ==> forall i :: 0 <= i < |parts| ==> res.value[i] == PrepareRegion(parts[i], cp).value
  {
    if |parts| == 0 then Ok([])
    else
      var head :- PrepareRegion(parts[0], cp);
      var rest :- PrepareAll(parts[1..], cp);
      assert forall i :: 1 <= i < |parts| ==> parts[1..][i - 1] == parts[i];
      Ok([head] + rest)
  }

  /** A region without content comes out of the preparation unchanged. */
  lemma PrepareAllKeeps(parts: seq<Region>, cp: ContentPrepare, x: Region)
    requires PrepareAll(parts, cp).Ok? && x in parts && x.content.None?
    ensures x in PrepareAll(parts, cp).value
  {
    var k :| 0 <= k < |parts| && parts[k] == x;
    assert PrepareAll(parts, cp).value[k] == x;
  }

  predicate HasKind(parts: seq<Region>, k: RegionKind)
  {
    exists j :: 0 <= j < |parts| && parts[j].kind == k
  }

  lemma AppendHasKind(s: seq<Region>, x: Region, k: RegionKind)
    ensures HasKind(s + [x], k) <==> HasKind(s, k) || x.kind == k
  {
    if HasKind(s, k) {
      var j :| 0 <= j < |s| && s[j].kind == k;
      assert (s + [x])[j] == s[j];
    }
    if x.kind == k {
      assert (s + [x])[|s|] == x;
    }
    if HasKind(s + [x], k) && !HasKind(s, k) {
      var j :| 0 <= j < |s + [x]| && (s + [x])[j].kind == k;
      if j < |s| {
        assert s[j] == (s + [x])[j];
      }
    }
  }

  /** Appends `x` unless a region of its kind is already present. */
  function AddMissing(s: seq<Region>, x: Region): (r: seq<Region>)
    ensures HasKind(r, x.kind)
    ensures forall k :: HasKind(s, k) ==> HasKind(r, k)
    ensures HasKind(s, x.kind) ==> r == s
    ensures !HasKind(s, x.kind) ==> r == s + [x]
  {
    forall k ensures HasKind(s + [x], k) <==> HasKind(s, k) || x.kind == k {
      AppendHasKind(s, x, k);
    }
    if HasKind(s, x.kind) then s else s + [x]
  }
}

=== FILE: split_archive.dfy ===
/**
 * The split-archive content generator: one archive unpacked once and
 * divided into named splits, each of which becomes a content of its own,
 * plus optionally the remaining tree as one more content.
 */
module SplitArchive {
  import opened Wrappers
  import opened Dicts

  /**
   * One split: its name, the directory of the archive it takes, whether
   * that directory is removed from the remaining tree, and the generator it
   * belongs to (by that generator's name) once bound.
   */
  datatype Split = Split(name: string, root: string, removeRoot: bool, base: Option<string>)

  /**
   * The generator. `unpacked` is the number of times the archive has been
   * unpacked and split; the temporary directory exists once it is non-zero.
   */
  datatype Generator = Generator(name: string, splits: seq<Split>, remaining: Option<string>, unpacked: nat)

  /** What a produced content key stands for: a split, or the generator itself. */
  datatype Target = SplitContent(split: Split) | Remaining

  /** `if self.remaining:` is false for `None` and for the empty string. */
  predicate HasRemaining(g: Generator)
  {
    g.remaining.Some? && |g.remaining.value| > 0
  }

  function SplitKey(g: Generator, s: Split): string
  {
    g.name + "." + s.name
  }

  function RemainingKey(g: Generator): string
    requires HasRemaining(g)
  {
    g.name + "." + g.remaining.value
  }

  /** The entries the dict comprehension over the splits assigns, in list order. */
  function SplitEntries(g: Generator): (r: Dict<Target>)
    ensures |r| == |g.splits|
    ensures forall i :: 0 <= i < |g.splits| ==> r[i] == (SplitKey(g, g.splits[i]), SplitContent(g.splits[i]))
  {
    seq(|g.splits|, i requires 0 <= i < |g.splits| => (SplitKey(g, g.splits[i]), SplitContent(g.splits[i])))
  }

  /** The keys of the splits, in list order. */
  function SplitKeys(g: Generator): (r: seq<string>)
    ensures |r| == |g.splits|
    ensures forall i :: 0 <= i < |g.splits| ==> r[i] == SplitKey(g, g.splits[i])
  {
    Keys(SplitEntries(g))
  }

  /** `get_contents`: a key per split, then the remaining tree's key when it is named. */
  function GetContents(g: Generator): (r: Dict<Target>)
    ensures UniqueKeys(r)
    ensures |g.splits| == 0 && !HasRemaining(g) ==> r == []
    ensures |g.splits| == 0 && HasRemaining(g) ==> r == [(RemainingKey(g), Remaining)]
  {
    UpdateKeepsUnique([], SplitEntries(g));
    var out := Update([], SplitEntries(g));
    if HasRemaining(g) then
      PutKeepsUnique(out, RemainingKey(g), Remaining);
      Put(out, RemainingKey(g), Remaining)
    else out
  }

  /** The keys are exactly the split keys and, when named, the remaining key. */
  lemma GetContentsKeys(g: Generator, k: string)
    ensures k in Keys(GetContents(g)) <==> k in SplitKeys(g) || (HasRemaining(g) && k == RemainingKey(g))
  {
    UpdateKeys([], SplitEntries(g), k);
  }

  /** With distinct split names the keys come in list order, the remaining key last. */
  lemma GetContentsOrder(g: Generator)
    requires UniqueKeys(SplitEntries(g))
    requires HasRemaining(g) ==> RemainingKey(g) !in SplitKeys(g)
    ensures Keys(GetContents(g)) == SplitKeys(g) + (if HasRemaining(g) then [RemainingKey(g)] else [])
  {
    var e := SplitEntries(g);
    UpdateFresh([], e);
    assert [] + e == e;
    if HasRemaining(g) {
      PutNew(e, RemainingKey(g), Remaining);
      KeysAppend(e, [(RemainingKey(g), Remaining)]);
    }
  }

  /** A split key maps to the last split of that name, unless the remaining tree took the key. */
  lemma LaterSplitWins(g: Generator, i: nat)
    requires i < |g.splits|
    requires forall j :: i < j < |g.splits| ==> g.splits[j].name != g.splits[i].name
    requires HasRemaining(g) ==> RemainingKey(g) != SplitKey(g, g.splits[i])
    ensures Get(GetContents(g), SplitKey(g, g.splits[i])) == Some(SplitContent(g.splits[i]))
  {
    var e := SplitEntries(g);
    forall j | i < j < |e|
      ensures e[j].0 != e[i].0
    {
      NameKeyInjective(g, g.splits[i], g.splits[j]);
    }
    UpdateLastWins([], e, i);
    if HasRemaining(g) {
      PutGet(Update([], e), RemainingKey(g), Remaining, SplitKey(g, g.splits[i]));
    }
  }

  /** Two splits of one generator get the same key exactly when they have the same name. */
  lemma NameKeyInjective(g: Generator, s: Split, t: Split)
    ensures SplitKey(g, s) == SplitKey(g, t) <==> s.name == t.name
  {
    var p := g.name + ".";
    assert SplitKey(g, s) == p + s.name && SplitKey(g, t) == p + t.name;
    if SplitKey(g, s) == SplitKey(g, t) {
      assert s.name == (p + s.name)[|p|..];
    }
  }

  /** The remaining key maps to the generator itself. */
  lemma RemainingIsSelf(g: Generator)
    requires HasRemaining(g)
    ensures Get(GetContents(g), RemainingKey(g)) == Some(Remaining)
  {
    PutGet(Update([], SplitEntries(g)), RemainingKey(g), Remaining, RemainingKey(g));
  }

  /**
   * `prepare`: the archive is unpacked and split the first time only; once
   * the temporary directory exists, preparing again does nothing, whichever
   * split asks for it. The unpacking itself is not modelled.
   */
  function Prepare(g: Generator): (r: Generator)
    ensures r.unpacked > 0 && r.(unpacked := g.unpacked) == g
    ensures g.unpacked > 0 ==> r == g
    ensures g.unpacked == 0 ==> r.unpacked == 1
  {
    if g.unpacked > 0 then g else g.(unpacked := 1)
  }

  /**
   * The archive is unpacked at most once however often `prepare` runs:
   * preparing a prepared generator changes nothing, and only the count of
   * unpackings is ever touched.
   */
  lemma {:induction false} PrepareOnce(g: Generator, n: nat)
    ensures Repeated(g, n + 1) == Prepare(g)
    ensures Repeated(g, n + 1).unpacked == Max(g.unpacked, 1)
    decreases n
  {
    if n > 0 {
      PrepareOnce(g, n - 1);
    }
  }

  /** `prepare` called `n` times in a row. */
  function Repeated(g: Generator, n: nat): Generator
  {
    if n == 0 then g else Prepare(Repeated(g, n - 1))
  }

  /** The `splits` setter: every split is bound to this generator, and otherwise kept as given. */
  function SetSplits(g: Generator, splits: seq<Split>): (r: Generator)
    ensures r.name == g.name && r.remaining == g.remaining && r.unpacked == g.unpacked
    ensures |r.splits| == |splits|
    ensures forall i :: 0 <= i < |splits| ==>
      r.splits[i].base == Some(g.name) && r.splits[i].(base := splits[i].base) == splits[i]
  {
    g.(splits := seq(|splits|, i requires 0 <= i < |splits| => splits[i].(base := Some(g.name))))
  }

  /** Binding the splits does not change which keys are produced, nor their order. */
  lemma SetSplitsKeepsKeys(g: Generator, splits: seq<Split>)
    ensures Keys(GetContents(SetSplits(g, splits))) == Keys(GetContents(g.(splits := splits)))
  {
    var a := SetSplits(g, splits);
    var b := g.(splits := splits);
    var ea := SplitEntries(a);
    var eb := SplitEntries(b);
    assert Keys(ea) == Keys(eb);
    UpdateSameKeys([], [], ea, eb);
  }
}

=== FILE: text.dfy ===
/** The few `str` operations the environment parser and the key naming use. */
module Text {
  import opened Wrappers

  /** `str.isspace()` for one character: the characters Python strips by default. */
  predicate IsSpace(c: char)
  {
    var n := c as int;
    (0x09 <= n <= 0x0D) || (0x1C <= n <= 0x20) || n == 0x85 || n == 0xA0 || n == 0x1680 ||
    (0x2000 <= n <= 0x200A) || n == 0x2028 || n == 0x2029 || n == 0x202F || n == 0x205F || n == 0x3000
  }

  /** Neither end is whitespace. */
  predicate IsStripped(s: string)
  {
    |s| == 0 || (!IsSpace(s[0]) && !IsSpace(s[|s| - 1]))
  }

  /** The characters from `lo` up to `hi` are all whitespace. */
  predicate SpaceBetween(s: string, lo: int, hi: int)
  {
    forall k :: lo <= k < hi && 0 <= k < |s| ==> IsSpace(s[k])
  }

  function StripLeft(s: string): (r: string)
    ensures |r| <= |s| && r == s[|s| - |r|..]
    ensures |r| == 0 || !IsSpace(r[0])
    ensures SpaceBetween(s, 0, |s| - |r|)
  {
    if |s| > 0 && IsSpace(s[0]) then
      var r := StripLeft(s[1..]);
      SpaceBeforeTail(s, |s| - |r|);
      SuffixOfTail(s, r);
      r
    else s
  }

  /** Whitespace at the front followed by whitespace in the tail. */
  lemma SpaceBeforeTail(s: string, hi: int)
    requires |s| > 0 && IsSpace(s[0]) && SpaceBetween(s[1..], 0, hi - 1)
    ensures SpaceBetween(s, 0, hi)
  {
    forall k | 1 <= k < hi && k < |s|
      ensures IsSpace(s[k])
    {
      assert s[k] == s[1..][k - 1];
    }
  }

  lemma SuffixOfTail(s: string, r: string)
    requires |s| > 0 && |r| < |s| && r == s[1..][|s| - 1 - |r|..]
    ensures r == s[|s| - |r|..]
  {
  }

  function StripRight(s: string): (r: string)
    ensures |r| <= |s| && r == s[..|r|]
    ensures |r| == 0 || !IsSpace(r[|r| - 1])
    ensures SpaceBetween(s, |r|, |s|)
  {
    if |s| > 0 && IsSpace(s[|s| - 1]) then
      var r := StripRight(s[..|s| - 1]);
      SpaceAfterFront(s, |r|);
      PrefixOfFront(s, r);
      r
    else s
  }

  /** Whitespace in the front part followed by whitespace at the end. */
  lemma SpaceAfterFront(s: string, lo: int)
    requires |s| > 0 && IsSpace(s[|s| - 1]) && SpaceBetween(s[..|s| - 1], lo, |s| - 1)
    ensures SpaceBetween(s, lo, |s|)
  {
    forall k | lo <= k < |s| - 1 && 0 <= k
      ensures IsSpace(s[k])
    {
      assert s[k] == s[..|s| - 1][k];
    }
  }

  lemma PrefixOfFront(s: string, r: string)
    requires |s| > 0 && |r| < |s| && r == s[..|s| - 1][..|r|]
    ensures r == s[..|r|]
  {
  }

  lemma {:induction false} StripLeftKeepsEnd(s: string)
    requires |s| > 0 && !IsSpace(s[|s| - 1])
    ensures |StripLeft(s)| > 0 && StripLeft(s)[|StripLeft(s)| - 1] == s[|s| - 1]
    decreases |s|
  {
    if IsSpace(s[0]) {
      var t := s[1..];
      assert t[|t| - 1] == s[|s| - 1];
      StripLeftKeepsEnd(t);
      assert StripLeft(s) == StripLeft(t);
    }
  }

  /** `r` is the piece of `s` at `i`, with only whitespace before and after it. */
  predicate MiddlePiece(s: string, r: string, i: nat)
  {
    i + |r| <= |s| && r == s[i .. i + |r|] && SpaceBetween(s, 0, i) && SpaceBetween(s, i + |r|, |s|)
  }

  /**
   * `str.strip()`: the input with whitespace removed from both ends, and
   * only from the ends.
   */
  function Strip(s: string): (r: string)
    ensures IsStripped(r)
    ensures exists i :: MiddlePiece(s, r, i)
    ensures IsStripped(s) ==> r == s
  {
    var t := StripRight(s);
    StripBothEnds(s);
    StripLeft(t)
  }

  lemma StripBothEnds(s: string)
    ensures IsStripped(StripLeft(StripRight(s)))
    ensures MiddlePiece(s, StripLeft(StripRight(s)), |StripRight(s)| - |StripLeft(StripRight(s))|)
    ensures IsStripped(s) ==> StripLeft(StripRight(s)) == s
  {
    var t := StripRight(s);
    var r := StripLeft(t);
    StripMiddle(s);
    StrippedKept(s);
    if |t| > 0 {
      StripLeftKeepsEnd(t);
    }
  }

  /** Stripping both ends leaves a middle piece of `s` with whitespace before it. */
  lemma StripMiddle(s: string)
    ensures var t := StripRight(s);
      var i := |t| - |StripLeft(t)|;
      StripLeft(t) == s[i .. |t|] && SpaceBetween(s, 0, i)
  {
    var t := StripRight(s);
    var i := |t| - |StripLeft(t)|;
    forall k | 0 <= k < i
      ensures IsSpace(s[k])
    {
      assert t[k] == s[k];
    }
  }

  lemma StrippedKept(s: string)
    ensures IsStripped(s) ==> StripLeft(StripRight(s)) == s
  {
    if IsStripped(s) {
      StripRightUnique(s, |s|);
      StripLeftUnique(s, 0);
    }
  }

  /**
   * The stripped text is the only stripped middle piece between
   * whitespace-only ends: any such split of `s` yields `Strip(s)`.
   */
  lemma StripUnique(s: string, i: nat, j: nat)
    requires i <= j <= |s|
    requires SpaceBetween(s, 0, i) && SpaceBetween(s, j, |s|) && IsStripped(s[i..j])
    ensures Strip(s) == s[i..j]
  {
    if i < j {
      assert s[i..j][0] == s[i] && s[i..j][j - i - 1] == s[j - 1];
      StripRightUnique(s, j);
      var t := s[..j];
      assert forall k :: 0 <= k < j ==> t[k] == s[k];
      StripLeftUnique(t, i);
      assert t[i..] == s[i..j];
    } else {
      StripRightUnique(s, 0);
    }
  }

  /** Right stripping stops exactly at the last character that is not whitespace. */
  lemma {:induction false} StripRightUnique(s: string, j: nat)
    requires j <= |s| && SpaceBetween(s, j, |s|) && (j == 0 || !IsSpace(s[j - 1]))
    ensures StripRight(s) == s[..j]
    decreases |s|
  {
    if j < |s| {
      var t := s[..|s| - 1];
      assert forall k :: 0 <= k < |t| ==> t[k] == s[k];
      StripRightUnique(t, j);
      assert t[..j] == s[..j];
    } else {
      assert s[..j] == s;
    }
  }

  /** Left stripping stops exactly at the first character that is not whitespace. */
  lemma {:induction false} StripLeftUnique(s: string, i: nat)
    requires i <= |s| && SpaceBetween(s, 0, i) && (i == |s| || !IsSpace(s[i]))
    ensures StripLeft(s) == s[i..]
    decreases |s|
  {
    if i > 0 {
      var t := s[1..];
      assert forall k :: 0 <= k < |t| ==> t[k] == s[k + 1];
      StripLeftUnique(t, i - 1);
      assert t[i - 1..] == s[i..];
    }
  }

  /** Text that is already stripped is left alone. */
  lemma StripKeepsStripped(s: string)
    requires IsStripped(s)
    ensures Strip(s) == s
  {
    StripUnique(s, 0, |s|);
  }

  /** A trailing line break is stripped away with the rest of the whitespace. */
  lemma StripNewline(s: string)
    requires IsStripped(s)
    ensures Strip(s + "\n") == s
  {
    var t := s + "\n";
    assert t[..|s|] == s && t[|s|..] == "\n";
    StripUnique(t, 0, |s|);
  }

  /** `s.startswith(p)`. */
  predicate StartsWith(s: string, p: string)
  {
    |p| <= |s| && s[..|p|] == p
  }

  /** The index of the first `c` in `s`, if any. */
  function Find(s: string, c: char): (r: Option<nat>)
    ensures r.None? <==> c !in s
    ensures r.Some? ==> r.value < |s| && s[r.value] == c && c !in s[..r.value]
  {
    if |s| == 0 then None
    else if s[0] == c then Some(0)
    else
      var rest := Find(s[1..], c);
      if rest.None? then
        assert s == [s[0]] + s[1..];
        None
      else
        assert s[..rest.value + 1] == [s[0]] + s[1..][..rest.value];
        Some(rest.value + 1)
  }

  /** `s.split(c, 1)` when it yields two parts: the text around the first `c`. */
  function SplitFirst(s: string, c: char): (r: Option<(string, string)>)
    ensures r.None? <==> c !in s
    ensures r.Some? ==> s == r.value.0 + [c] + r.value.1 && c !in r.value.0
  {
    match Find(s, c)
    case None => None
    case Some(i) =>
      assert s == s[..i] + [c] + s[i + 1..];
      Some((s[..i], s[i + 1..]))
  }

  /** Splitting text joined at a character it does not contain gives the pieces back. */
  lemma SplitJoined(a: string, c: char, b: string)
    requires c !in a
    ensures SplitFirst(a + [c] + b, c) == Some((a, b))
  {
    var s := a + [c] + b;
    var i := Find(s, c).value;
    assert s[|a|] == c;
    assert forall j :: 0 <= j < |a| ==> s[j] == a[j];
    assert i == |a|;
    assert s[..|a|] == a;
    assert s[|a| + 1..] == b;
  }

  // -------------------------------------------------------------- ordering

  /** Python's `<=` on strings: code points compared left to right. */
  predicate StrLe(a: string, b: string)
  {
    |a| == 0 || (|b| > 0 && (a[0] < b[0] || (a[0] == b[0] && StrLe(a[1..], b[1..]))))
  }

  lemma {:induction false} StrLeTotal(a: string, b: string)
    ensures StrLe(a, b) || StrLe(b, a)
  {
    if |a| > 0 && |b| > 0 && a[0] == b[0] {
      StrLeTotal(a[1..], b[1..]);
    }
  }

  lemma {:induction false} StrLeTrans(a: string, b: string, c: string)
    requires StrLe(a, b) && StrLe(b, c)
    ensures StrLe(a, c)
  {
    if |a| > 0 && a[0] == b[0] && b[0] == c[0] {
      StrLeTrans(a[1..], b[1..], c[1..]);
    }
  }

  lemma {:induction false} StrLeAntisym(a: string, b: string)
    requires StrLe(a, b) && StrLe(b, a)
    ensures a == b
  {
    if |a| > 0 {
      StrLeAntisym(a[1..], b[1..]);
      assert a == [a[0]] + a[1..] && b == [b[0]] + b[1..];
    }
  }

  predicate StringsSorted(s: seq<string>)
  {
    forall i, j :: 0 <= i < j < |s| ==> StrLe(s[i], s[j])
  }

  function InsertString(x: string, t: seq<string>): (r: seq<string>)
    ensures |r| == |t| + 1 && multiset(r) == multiset(t) + multiset{x}
  {
    if |t| == 0 then [x]
    else if StrLe(x, t[0]) then [x] + t
    else
      assert t == [t[0]] + t[1..];
      [t[0]] + InsertString(x, t[1..])
  }

  lemma {:induction false} InsertStringSorted(x: string, t: seq<string>)
    requires StringsSorted(t)
    ensures StringsSorted(InsertString(x, t))
    decreases |t|
  {
    var r := InsertString(x, t);
    if |t| == 0 {
    } else if StrLe(x, t[0]) {
      forall j | 1 <= j < |r|
        ensures StrLe(x, r[j])
      {
        if j > 1 {
          StrLeTrans(x, t[0], t[j - 1]);
        }
      }
    } else {
      StrLeTotal(x, t[0]);
      InsertStringSorted(x, t[1..]);
      forall j | 0 <= j < |t[1..]|
        ensures StrLe(t[0], t[1..][j])
      {
        assert t[1..][j] == t[j + 1];
      }
      InsertStringBound(t[0], x, t[1..]);
      assert r == [t[0]] + InsertString(x, t[1..]);
    }
  }

  /** A lower bound of `x` and of every element of `t` bounds the insertion too. */
  lemma {:induction false} InsertStringBound(y: string, x: string, t: seq<string>)
    requires StrLe(y, x) && forall j :: 0 <= j < |t| ==> StrLe(y, t[j])
    ensures forall j :: 0 <= j < |InsertString(x, t)| ==> StrLe(y, InsertString(x, t)[j])
    decreases |t|
  {
    if |t| > 0 && !StrLe(x, t[0]) {
      forall j | 0 <= j < |t[1..]|
        ensures StrLe(y, t[1..][j])
      {
        assert t[1..][j] == t[j + 1];
      }
      InsertStringBound(y, x, t[1..]);
    }
  }

  /** `sorted(...)` on strings. */
  function SortStrings(s: seq<string>): (r: seq<string>)
    ensures |r| == |s| && multiset(r) == multiset(s)
  {
    if |s| == 0 then []
    else
      assert s == [s[0]] + s[1..];
      InsertString(s[0], SortStrings(s[1..]))
  }

  lemma {:induction false} SortStringsSorted(s: seq<string>)
    ensures StringsSorted(SortStrings(s))
    decreases |s|
  {
    if |s| > 0 {
      SortStringsSorted(s[1..]);
      InsertStringSorted(s[0], SortStrings(s[1..]));
    }
  }
}

=== FILE: uboot_env.dfy ===
/**
 * The U-Boot environment content: `key=value` lines from a file, merged
 * with explicitly given variables, serialised as NUL-terminated entries in
 * key order, an empty entry, 0xFF padding and a CRC-32 in front.
 */
module UBootEnv {
  import opened Wrappers
  import opened Errors
  import opened Bytes
  import opened Utf8
  import Crc
  import opened Sizes
  import opened Text
  import opened Dicts

  // ------------------------------------------------------------ parsing

  /** What one line of the variable file is. */
  datatype Line = Comment | Entry(key: string, value: string) | Invalid

  /**
   * One iteration of `_parse_file`: a stripped line starting with `#` is
   * skipped, any other line must hold a `=`, and key and value around the
   * first `=` are stripped.
   */
  function ParseLine(line: string): (r: Line)
    ensures r.Comment? <==> StartsWith(Strip(line), "#")
    ensures r.Invalid? <==> !StartsWith(Strip(line), "#") && '=' !in Strip(line)
    ensures r.Entry? ==> IsStripped(r.key) && IsStripped(r.value)
  {
    var l := Strip(line);
    if StartsWith(l, "#") then Comment
    else match SplitFirst(l, '=')
      case None => Invalid
      case Some((k, v)) => Entry(Strip(k), Strip(v))
  }

  /** Every line of the file, classified. */
  function Classify(lines: seq<string>): (r: seq<Line>)
    ensures |r| == |lines|
    ensures forall i :: 0 <= i < |lines| ==> r[i] == ParseLine(lines[i])
  {
    seq(|lines|, i requires 0 <= i < |lines| => ParseLine(lines[i]))
  }

  /** The loop of `_parse_file` from line `i` on, with the entries read so far in `acc`. */
  function ParseFrom(kinds: seq<Line>, i: nat, acc: Dict<string>): (r: Result<Dict<string>, Error>)
    requires i <= |kinds|
    decreases |kinds| - i
  {
    if i == |kinds| then Ok(acc)
    else if kinds[i].Invalid? then Err(InvalidEnvEntry(i + 1))
    else ParseFrom(kinds, i + 1, Absorb(kinds[i], acc))
  }

  /** What a comment or an entry does to the entries read so far. */
  function Absorb(l: Line, acc: Dict<string>): Dict<string>
  {
    if l.Entry? then Put(acc, l.key, l.value) else acc
  }

  /** The index of the first invalid line from `i` on, if any. */
  function FirstInvalid(kinds: seq<Line>, i: nat): (r: Option<nat>)
    requires i <= |kinds|
    ensures r.Some? ==> i <= r.value < |kinds| && kinds[r.value].Invalid?
    ensures r.Some? ==> forall m :: i <= m < r.value ==> !kinds[m].Invalid?
    ensures r.None? ==> forall m :: i <= m < |kinds| ==> !kinds[m].Invalid?
    decreases |kinds| - i
  {
    if i == |kinds| then None
    else if kinds[i].Invalid? then Some(i)
    else FirstInvalid(kinds, i + 1)
  }

  /**
   * The loop fails exactly when some line is invalid, and then it names the
   * first invalid line, counting from one.
   */
  lemma {:induction false} ParseFromFails(kinds: seq<Line>, i: nat, acc: Dict<string>)
    requires i <= |kinds|
    ensures ParseFrom(kinds, i, acc).Err? <==> FirstInvalid(kinds, i).Some?
    ensures ParseFrom(kinds, i, acc).Err? ==>
      ParseFrom(kinds, i, acc).error == InvalidEnvEntry(FirstInvalid(kinds, i).value + 1)
    decreases |kinds| - i
  {
    if i < |kinds| {
      match kinds[i]
      case Comment => ParseFromFails(kinds, i + 1, acc);
      case Invalid =>
      case Entry(k, v) => ParseFromFails(kinds, i + 1, Put(acc, k, v));
    }
  }

  /** `_parse_file`: no file means no variables; what is read holds each key once. */
  function ParseFile(file: Option<seq<string>>): (r: Result<Dict<string>, Error>)
    ensures file.None? ==> r == Ok([])
    ensures r.Ok? ==> UniqueKeys(r.value)
  {
    match file
    case None => Ok([])
    case Some(lines) =>
      ParseFromKeepsUnique(Classify(lines), 0, []);
      ParseFrom(Classify(lines), 0, [])
  }

  /**
   * Reading a file fails exactly when one of its lines is neither a comment
   * nor holds a `=`, and the error gives the first such line, counting from one.
   */
  lemma ParseFileFails(lines: seq<string>)
    ensures ParseFile(Some(lines)).Err? <==>
      exists m :: 0 <= m < |lines| && ParseLine(lines[m]).Invalid?
    ensures ParseFile(Some(lines)).Err? ==>
      var m := FirstInvalid(Classify(lines), 0).value;
      m < |lines| && ParseLine(lines[m]).Invalid? &&
      (forall j :: 0 <= j < m ==> !ParseLine(lines[j]).Invalid?) &&
      ParseFile(Some(lines)).error == InvalidEnvEntry(m + 1)
  {
    var kinds := Classify(lines);
    ParseFromFails(kinds, 0, []);
    if FirstInvalid(kinds, 0).None? {
      forall m | 0 <= m < |lines|
        ensures !ParseLine(lines[m]).Invalid?
      {
        assert kinds[m] == ParseLine(lines[m]);
      }
    }
  }

  lemma {:induction false} ParseFromKeepsUnique(kinds: seq<Line>, i: nat, acc: Dict<string>)
    requires i <= |kinds| && UniqueKeys(acc)
    ensures ParseFrom(kinds, i, acc).Ok? ==> UniqueKeys(ParseFrom(kinds, i, acc).value)
    decreases |kinds| - i
  {
    if i < |kinds| {
      match kinds[i]
      case Comment => ParseFromKeepsUnique(kinds, i + 1, acc);
      case Invalid =>
      case Entry(k, v) =>
        PutKeepsUnique(acc, k, v);
        ParseFromKeepsUnique(kinds, i + 1, Put(acc, k, v));
    }
  }

  /** A key no line from `i` on assigns keeps the value it has in `acc`. */
  lemma {:induction false} ParseFromKeeps(kinds: seq<Line>, i: nat, acc: Dict<string>, k: string)
    requires i <= |kinds|
    requires forall j :: i <= j < |kinds| ==> !(kinds[j].Entry? && kinds[j].key == k)
    ensures ParseFrom(kinds, i, acc).Ok? ==> Get(ParseFrom(kinds, i, acc).value, k) == Get(acc, k)
    decreases |kinds| - i
  {
    if i < |kinds| {
      match kinds[i]
      case Comment => ParseFromKeeps(kinds, i + 1, acc, k);
      case Invalid =>
      case Entry(k', v') =>
        PutGet(acc, k', v', k);
        ParseFromKeeps(kinds, i + 1, Put(acc, k', v'), k);
    }
  }

  /** The line at `p` gives `k` its value unless a later line assigns `k` again. */
  lemma {:induction false} ParseFromLastWins(kinds: seq<Line>, i: nat, acc: Dict<string>, p: nat, k: string, v: string)
    requires i <= p < |kinds| && kinds[p] == Entry(k, v)
    requires forall j :: p < j < |kinds| ==> !(kinds[j].Entry? && kinds[j].key == k)
    ensures ParseFrom(kinds, i, acc).Ok? ==> Get(ParseFrom(kinds, i, acc).value, k) == Some(v)
    decreases |kinds| - i
  {
    if i == p {
      LastEntryHere(kinds, i, acc, k, v);
    } else {
      ParseFromStep(kinds, i, acc);
      if !kinds[i].Invalid? {
        ParseFromLastWins(kinds, i + 1, Absorb(kinds[i], acc), p, k, v);
      }
    }
  }

  lemma LastEntryHere(kinds: seq<Line>, p: nat, acc: Dict<string>, k: string, v: string)
    requires p < |kinds| && kinds[p] == Entry(k, v)
    requires forall j :: p < j < |kinds| ==> !(kinds[j].Entry? && kinds[j].key == k)
    ensures ParseFrom(kinds, p, acc).Ok? ==> Get(ParseFrom(kinds, p, acc).value, k) == Some(v)
  {
    ParseFromStep(kinds, p, acc);
    PutGet(acc, k, v, k);
    ParseFromKeeps(kinds, p + 1, Put(acc, k, v), k);
  }

  /** One step of reading: an invalid line fails, any other is absorbed. */
  lemma ParseFromStep(kinds: seq<Line>, i: nat, acc: Dict<string>)
    requires i < |kinds|
    ensures kinds[i].Invalid? ==> ParseFrom(kinds, i, acc).Err?
    ensures !kinds[i].Invalid? ==> ParseFrom(kinds, i, acc) == ParseFrom(kinds, i + 1, Absorb(kinds[i], acc))
  {
  }

  /** When a file assigns a key on several lines, the last of them wins. */
  lemma ParseLastWins(lines: seq<string>, p: nat, k: string, v: string)
    requires p < |lines| && ParseLine(lines[p]) == Entry(k, v)
    requires forall j :: p < j < |lines| ==> !(ParseLine(lines[j]).Entry? && ParseLine(lines[j]).key == k)
    ensures ParseFile(Some(lines)).Ok? ==> Get(ParseFile(Some(lines)).value, k) == Some(v)
  {
    var kinds := Classify(lines);
    forall j | p < j < |kinds|
      ensures !(kinds[j].Entry? && kinds[j].key == k)
    {
      assert kinds[j] == ParseLine(lines[j]);
    }
    ParseFromLastWins(kinds, 0, [], p, k, v);
  }

  // ------------------------------------------------- writing the file back

  /** An entry a line of the file can carry unchanged. */
  predicate LineSafe(k: string, v: string)
  {
    '=' !in k && IsStripped(k) && IsStripped(v) && (|k| == 0 || k[0] != '#')
  }

  /** The variable file for `d`: one `key=value` line per entry. */
  function FormatLines(d: Dict<string>): (r: seq<string>)
    ensures |r| == |d|
  {
    seq(|d|, i requires 0 <= i < |d| => d[i].0 + "=" + d[i].1 + "\n")
  }

  lemma EntryLineParses(k: string, v: string)
    requires LineSafe(k, v)
    ensures ParseLine(k + "=" + v + "\n") == Entry(k, v)
  {
    var l := k + "=" + v;
    assert l[|k|] == '=';
    assert l == k + ['='] + v;
    assert IsStripped(l) by {
      if |k| > 0 {
        assert l[0] == k[0];
      }
      if |v| > 0 {
        assert l[|l| - 1] == v[|v| - 1];
      }
    }
    StripNewline(l);
    assert l + "\n" == k + "=" + v + "\n";
    assert !StartsWith(l, "#") by {
      if |k| > 0 {
        assert l[..1] == [k[0]];
      } else {
        assert l[..1] == ['='];
      }
    }
    SplitJoined(k, '=', v);
  }

  lemma PrefixSnoc(d: Dict<string>, i: nat)
    requires i < |d|
    ensures d[..i] + [(d[i].0, d[i].1)] == d[..i + 1]
  {
    assert (d[i].0, d[i].1) == d[i];
  }

  /** Reading back a written variable file gives the same variables, in the same order. */
  lemma FormatThenParse(d: Dict<string>)
    requires UniqueKeys(d)
    requires forall i :: 0 <= i < |d| ==> LineSafe(d[i].0, d[i].1)
    ensures ParseFile(Some(FormatLines(d))) == Ok(d)
  {
    var kinds := Classify(FormatLines(d));
    forall i | 0 <= i < |d|
      ensures kinds[i] == Entry(d[i].0, d[i].1)
    {
      EntryLineParses(d[i].0, d[i].1);
    }
    ParseFormattedFrom(d, kinds, 0);
    assert d[..0] == [];
  }

  lemma {:induction false} ParseFormattedFrom(d: Dict<string>, kinds: seq<Line>, i: nat)
    requires UniqueKeys(d) && i <= |d| == |kinds|
    requires forall j :: 0 <= j < |d| ==> kinds[j] == Entry(d[j].0, d[j].1)
    ensures ParseFrom(kinds, i, d[..i]) == Ok(d)
    decreases |d| - i
  {
    if i == |d| {
      assert d[..i] == d;
    } else {
      assert ParseFrom(kinds, i, d[..i]) == ParseFrom(kinds, i + 1, Put(d[..i], d[i].0, d[i].1));
      assert d[i].0 !in Keys(d[..i]) by {
        forall j | 0 <= j < i
          ensures Keys(d[..i])[j] != d[i].0
        {
          assert Keys(d[..i])[j] == d[j].0;
        }
      }
      PutNew(d[..i], d[i].0, d[i].1);
      PrefixSnoc(d, i);
      ParseFormattedFrom(d, kinds, i + 1);
    }
  }

  // ------------------------------------------------------------- merging

  /** `_merged_vars`: the file's variables, overridden by the explicit ones. */
  function Merged(file: Option<seq<string>>, vars: Option<Dict<string>>): (r: Result<Dict<string>, Error>)
    ensures r.Err? <==> ParseFile(file).Err?
    ensures r.Err? ==> r.error == ParseFile(file).error
  {
    var out :- ParseFile(file);
    if vars.Some? && |vars.value| > 0 then Ok(Update(out, vars.value)) else Ok(out)
  }

  /** A variable given explicitly wins over the file; any other comes from the file. */
  lemma VarsOverrideFile(file: Option<seq<string>>, vars: Option<Dict<string>>, k: string)
    requires vars.Some? ==> UniqueKeys(vars.value)
    requires ParseFile(file).Ok?
    ensures Merged(file, vars).Ok?
    ensures Get(Merged(file, vars).value, k) ==
      if vars.Some? && k in Keys(vars.value) then Get(vars.value, k) else Get(ParseFile(file).value, k)
  {
    if vars.Some? && |vars.value| > 0 {
      UpdateGet(ParseFile(file).value, vars.value, k);
    }
  }

  lemma MergedUnique(file: Option<seq<string>>, vars: Option<Dict<string>>)
    requires Merged(file, vars).Ok?
    ensures UniqueKeys(Merged(file, vars).value)
  {
    if file.Some? {
      ParseFromKeepsUnique(Classify(file.value), 0, []);
    }
    if vars.Some? && |vars.value| > 0 {
      UpdateKeepsUnique(ParseFile(file).value, vars.value);
    }
  }

  // ---------------------------------------------------------- serialising

  /** The value stored at `k`, or the empty string. */
  function Lookup(d: Dict<string>, k: string): string
  {
    match Get(d, k)
    case Some(v) => v
    case None => ""
  }

  /** One entry as `prepare` appends it: `key=value` and a NUL. */
  function EntryText(k: string, v: string): string
  {
    k + "=" + v + "\0"
  }

  function EncodeEntries(d: Dict<string>, ks: seq<string>): seq<byte>
  {
    if |ks| == 0 then [] else Encode(EntryText(ks[0], Lookup(d, ks[0]))) + EncodeEntries(d, ks[1..])
  }

  /** The environment before padding: the entries in ascending key order, then the empty entry. */
  function EnvData(d: Dict<string>): seq<byte>
  {
    EncodeEntries(d, SortStrings(Keys(d))) + [0]
  }

  /**
   * The second half of `prepare`: the data plus the four CRC bytes must
   * fit; the result fills the region exactly, the CRC of everything after
   * it leads, and 0xFF fills the space after the data.
   */
  function Serialise(d: Dict<string>, size: nat): (r: Result<seq<byte>, Error>)
    ensures r.Err? <==> |EnvData(d)| + 4 > size
    ensures r.Err? ==> r.error == EnvOverflow(4 + |EnvData(d)| - size)
    ensures r.Ok? ==> |r.value| == size && r.value[..4] == Le32(Crc.Crc32(r.value[4..]))
    ensures r.Ok? ==> r.value[4 .. 4 + |EnvData(d)|] == EnvData(d)
    ensures r.Ok? ==> forall k :: 4 + |EnvData(d)| <= k < |r.value| ==> r.value[k] == 0xFF
  {
    var data := EnvData(d);
    if |data| + 4 > size then Err(EnvOverflow(4 + |data| - size))
    else Ok(Frame(data, size))
  }

  /** The environment block: CRC-32 of the rest, the data, then 0xFF padding up to `size`. */
  function Frame(data: seq<byte>, size: nat): (r: seq<byte>)
    requires |data| + 4 <= size
    ensures |r| == size && r[..4] == Le32(Crc.Crc32(r[4..]))
    ensures r[4 .. 4 + |data|] == data
    ensures forall k :: 4 + |data| <= k < |r| ==> r[k] == 0xFF
  {
    var padded := data + Repeat(0xFF, size - |data| - 4);
    var out := Le32(Crc.Crc32(padded)) + padded;
    assert out[4..] == padded;
    out
  }

  /**
   * `prepare`: an undefined size is refused first, then the file is parsed
   * and merged, then the data is serialised; `do_write` emits the result
   * unchanged.
   */
  function Prepare(size: SizeType, file: Option<seq<string>>, vars: Option<Dict<string>>): (r: Result<seq<byte>, Error>)
    ensures size.None? ==> r == Err(EnvSizeUndefined)
    ensures size.Some? && Merged(file, vars).Err? ==> r == Err(Merged(file, vars).error)
    ensures size.Some? && Merged(file, vars).Ok? ==>
      (r.Err? <==> |EnvData(Merged(file, vars).value)| + 4 > size.value)
    ensures r.Ok? ==> |r.value| == size.value && r.value[..4] == Le32(Crc.Crc32(r.value[4..]))
    ensures r.Ok? ==> size.Some? && Merged(file, vars).Ok? && r == Serialise(Merged(file, vars).value, size.value)
  {
    if size.None? then Err(EnvSizeUndefined)
    else
      var d :- Merged(file, vars);
      Serialise(d, size.value)
  }

  /**
   * The region written by `do_write` reads back as the merged variables,
   * one `key=value` entry each in ascending key order, behind a matching
   * CRC, as long as no key or value holds a NUL.
   */
  lemma PrepareReadsBack(size: SizeType, file: Option<seq<string>>, vars: Option<Dict<string>>)
    requires Prepare(size, file, vars).Ok?
    requires NulFree(Merged(file, vars).value)
    ensures var d := Merged(file, vars).value;
      ReadEntries(Prepare(size, file, vars).value[4..]) == EncodedTexts(d, SortStrings(Keys(d)))
    ensures Le32Value(Prepare(size, file, vars).value[..4]) == Crc.Crc32(Prepare(size, file, vars).value[4..])
    ensures UniqueKeys(Merged(file, vars).value)
  {
    SerialiseReadsBack(Merged(file, vars).value, size.value);
    MergedUnique(file, vars);
  }

  // --------------------------------------------------------- reading back

  /** The index of the first NUL byte, if any. */
  function FindNul(b: seq<byte>): (r: Option<nat>)
    ensures r.Some? ==> r.value < |b| && b[r.value] == 0 && forall j :: 0 <= j < r.value ==> b[j] != 0
    ensures r.None? ==> forall j :: 0 <= j < |b| ==> b[j] != 0
  {
    if |b| == 0 then None
    else if b[0] == 0 then Some(0)
    else match FindNul(b[1..])
      case None => None
      case Some(i) => Some(i + 1)
  }

  /**
   * How a reader of the environment walks it: NUL-terminated entries up to
   * the first empty one.
   */
  function ReadEntries(b: seq<byte>): seq<seq<byte>>
    decreases |b|
  {
    if |b| == 0 || b[0] == 0 then []
    else match FindNul(b)
      case None => [b]
      case Some(i) => [b[..i]] + ReadEntries(b[i + 1..])
  }

  predicate NulFree(d: Dict<string>)
  {
    forall i :: 0 <= i < |d| ==> '\0' !in d[i].0 && '\0' !in d[i].1
  }

  lemma LookupNulFree(d: Dict<string>, k: string)
    requires NulFree(d)
    ensures '\0' !in Lookup(d, k)
  {
    if |d| > 0 && d[0].0 != k {
      LookupNulFree(d[1..], k);
    }
  }

  /** The `key=value` texts of the entries, encoded, in the order of `ks`. */
  function EncodedTexts(d: Dict<string>, ks: seq<string>): (r: seq<seq<byte>>)
    ensures |r| == |ks|
  {
    if |ks| == 0 then [] else [Encode(ks[0] + "=" + Lookup(d, ks[0]))] + EncodedTexts(d, ks[1..])
  }

  /** The first NUL of an entry, its terminator and whatever follows is the terminator. */
  lemma {:induction false} FindTerminator(e: seq<byte>, tail: seq<byte>)
    requires forall j :: 0 <= j < |e| ==> e[j] != 0
    ensures FindNul(e + [0] + tail) == Some(|e|)
    decreases |e|
  {
    if |e| > 0 {
      assert (e + [0] + tail)[1..] == e[1..] + [0] + tail;
      FindTerminator(e[1..], tail);
    }
  }

  lemma EntryBytes(k: string, v: string)
    requires '\0' !in k && '\0' !in v
    ensures Encode(EntryText(k, v)) == Encode(k + "=" + v) + [0]
    ensures |Encode(k + "=" + v)| > 0
    ensures forall j :: 0 <= j < |Encode(k + "=" + v)| ==> Encode(k + "=" + v)[j] != 0
  {
    EncodeAppend(k + "=" + v, "\0");
    assert Encode("\0") == [0];
    var s := k + "=" + v;
    assert forall i :: 0 <= i < |s| ==> s[i] != '\0' by {
      forall i | 0 <= i < |s|
        ensures s[i] != '\0'
      {
        if i < |k| {
          assert s[i] == k[i];
        } else if i > |k| {
          assert s[i] == v[i - |k| - 1];
        }
      }
    }
    EncodeAvoids(s, '\0');
  }

  lemma {:induction false} ReadEncoded(d: Dict<string>, ks: seq<string>, rest: seq<byte>)
    requires NulFree(d)
    requires forall j :: 0 <= j < |ks| ==> '\0' !in ks[j]
    ensures ReadEntries(EncodeEntries(d, ks) + [0] + rest) == EncodedTexts(d, ks)
    decreases |ks|
  {
    var b := EncodeEntries(d, ks) + [0] + rest;
    if |ks| == 0 {
      assert b[0] == 0;
    } else {
      var k := ks[0];
      var v := Lookup(d, k);
      LookupNulFree(d, k);
      EntryBytes(k, v);
      var e := Encode(k + "=" + v);
      var tail := EncodeEntries(d, ks[1..]) + [0] + rest;
      assert b == e + [0] + tail;
      FindTerminator(e, tail);
      assert b[..|e|] == e;
      assert b[|e| + 1..] == tail;
      ReadEncoded(d, ks[1..], rest);
    }
  }

  lemma SortedKeysNulFree(d: Dict<string>)
    requires NulFree(d)
    ensures forall j :: 0 <= j < |SortStrings(Keys(d))| ==> '\0' !in SortStrings(Keys(d))[j]
  {
    var ks := SortStrings(Keys(d));
    forall j | 0 <= j < |ks|
      ensures '\0' !in ks[j]
    {
      assert ks[j] in multiset(Keys(d));
      var i :| 0 <= i < |Keys(d)| && Keys(d)[i] == ks[j];
      assert ks[j] == d[i].0;
    }
  }

  /**
   * The serialised environment reads back as the `key=value` entries in
   * ascending key order, and its CRC checks, provided no key or value holds
   * a NUL.
   */
  lemma SerialiseReadsBack(d: Dict<string>, size: nat)
    requires Serialise(d, size).Ok? && NulFree(d)
    ensures ReadEntries(Serialise(d, size).value[4..]) == EncodedTexts(d, SortStrings(Keys(d)))
    ensures StringsSorted(SortStrings(Keys(d)))
    ensures Le32Value(Serialise(d, size).value[..4]) == Crc.Crc32(Serialise(d, size).value[4..])
  {
    var r := Serialise(d, size).value;
    var ks := SortStrings(Keys(d));
    SortedKeysNulFree(d);
    var data := EnvData(d);
    assert r[4..] == EncodeEntries(d, ks) + [0] + r[4 + |data|..];
    ReadEncoded(d, ks, r[4 + |data|..]);
    SortStringsSorted(Keys(d));
  }
}

=== FILE: wrappers.dfy ===
/** Failure-compatible result types shared by every module of the model. */
module Wrappers {

  /** An optional value; `None` stands for Python's `None`. */
  datatype Option<+T> = None | Some(value: T)

  /** The outcome of an operation that may raise: `Err` carries what was raised. */
  datatype Result<+T, +E> = Ok(value: T) | Err(error: E) {

    predicate IsFailure() {
      Err?
    }

    function PropagateFailure<U>(): Result<U, E>
      requires Err?
    {
      Err(error)
    }

    function Extract(): T
      requires Ok?
    {
      value
    }
  }

  function Max(a: int, b: int): int
  {
    if a < b then b else a
  }

  function Min(a: int, b: int): int
  {
    if a < b then a else b
  }
}
